=== FILE: README.md ===
# fase-v2 core logic, modelled in Dafny

fase-v2 is a Next.js application built around a Plasmic component
catalog. This project models the decision logic inside it as pure
functions over strings, sequences and finite maps, and proves what that
logic guarantees. The modelled parts are:

- the **catalog diff**: the dotted-version comparator, and the classifier
  that labels each local `(category, component)` as `new`, `modify` or
  `uptodate` against the remote catalog;
- the **authentication forms**: sign-up, password reset, account
  parameters and login. This covers the password strength score, the
  ordered error lists, phone cleaning and grouping, the email check,
  error-message merging and the submit-disabled rules;
- the **list components**: DataGrid sorting, column selection, pagination,
  cell rendering and CSV export; Kanban search, sort, grouping and drag
  moves; DraggableList reordering and removal;
- **routing**: the auth middleware's public-route check, redirect
  decision and cookie handling, and the page-transition loader's
  dynamic-route matcher;
- the **files endpoint**: the read and write handler for the persisted
  JSON documents, over an abstract file map;
- the **installer**: phase order, skipped packages, copy manifests and
  abort behaviour, over abstract package sets and file maps;
- the **library manager**: the version card and settings panel, and the
  design-token lookup.

Modules follow the source files. `JsStrings`, `JsArrays` and `StableSort`
model the JavaScript built-ins the source relies on:

- `trim`, `split`, `join`, `includes`, and `parseInt(…, 10) || 0`;
- `splice`, `slice`, `filter`, and `Array.from(new Set(…))`;
- the stable `Array.prototype.sort`, under an arbitrary comparator.

The following are parameters of the model rather than computed by it:

- the clock;
- date parsing and `localeCompare`;
- lower-casing;
- JSON stringification and cookie-payload decoding;
- fetch results and the installer's command outcomes.

Three behaviours of the code worth knowing:

- A failed download aborts the installer. `curl` runs outside the `try`
  in `downloadAndUnzip`, so the rejection propagates
  (`Installer.DownloadAndUnzip`, `Installer.InstallDependencies`).
- The list-components handler fetches the remote catalog a second time,
  and answers 500 when that fetch fails, even if the listing succeeded
  (`CatalogDiff.Handler`).
- A component with no remote match gets status `new`, but it is pushed
  to no list. A matched entry whose version is missing, "N/A" or
  "unknown" is pushed to `newComponents` (`CatalogDiff.Classify`).

## Model

| member | source | states |
|---|---|---|
| Versions.Segments | architecture/pages/api/plasmic-lib/listComponents.ts:9-10 | a version has one more segment than it has dots |
| Versions.SegmentsOfJoin | architecture/pages/api/plasmic-lib/listComponents.ts:9-10 | digit pieces joined with dots read back as their decimal values, one segment per piece, in order; an empty piece reads as 0 |
| Versions.CompareVersions | architecture/pages/api/plasmic-lib/listComponents.ts:8-21 | the comparison only ever answers -1, 0 or 1 |
| Versions.CompareFromMeaning | architecture/pages/api/plasmic-lib/listComponents.ts:12-18 | the loop answers 0 exactly when all segments up to the bound agree, and 1 exactly when the first disagreeing segment is larger on the left |
| Versions.CompareZeroMeaning | architecture/pages/api/plasmic-lib/listComponents.ts:12-20 | two versions compare equal iff they agree at every index, a missing segment counting as 0 |
| Versions.CompareVersionsAntisymmetric | architecture/pages/api/plasmic-lib/listComponents.ts:8-21 | a version equals itself, and swapping the arguments negates the answer |
| Versions.CompareVersionsTransitive | architecture/pages/api/plasmic-lib/listComponents.ts:8-21 | "not greater than" is transitive, so the comparator is a total preorder |
| Versions.CompareSegmentsTransitive | architecture/pages/api/plasmic-lib/listComponents.ts:12-20 | "not greater than" on padded segment lists is transitive |
| Versions.TrailingZero | architecture/pages/api/plasmic-lib/listComponents.ts:12-14 | appending a zero segment changes no comparison ("1.2" equals "1.2.0") |
| Versions.SentinelIsZero | architecture/pages/api/plasmic-lib/listComponents.ts:9-10 | a version without dots or digits reads as the single segment 0 |
| Versions.SentinelExamples | architecture/pages/api/plasmic-lib/listComponents.ts:9-14 | "N/A" compares equal to "0", and "" is below "1" |
| Versions.LeadingSegment | architecture/pages/api/plasmic-lib/listComponents.ts:12-17 | a number followed by a dot is the first segment, with its decimal value |
| Versions.LeadingSegmentDecides | architecture/pages/api/plasmic-lib/listComponents.ts:12-17 | a larger leading numeric segment wins whatever follows it |
| Versions.DottedExample | architecture/pages/api/plasmic-lib/listComponents.ts:12-17 | any "2.…" is greater than any "1.…" |
| JsStrings.ParseDigitsPrefix | architecture/pages/api/plasmic-lib/listComponents.ts:9-10 | a digit run followed by a non-digit parses as the run ("1rc" is 1) |
| JsStrings.ParseUnsigned | architecture/pages/api/plasmic-lib/listComponents.ts:9-10 | a string that starts with a digit parses as the value of its leading digit run, which is non-empty |
| JsStrings.NoDigitParsesZero | architecture/pages/api/plasmic-lib/listComponents.ts:9-10 | text without digits gives NaN, which `\|\| 0` turns into 0 |
| JsStrings.Trim | architecture/pages/api/plasmic-lib/listComponents.ts:64 | the result is a slice of the input with only white space cut on either side, and neither end is white space |
| JsStrings.TrimNoop | architecture/pages/api/plasmic-lib/listComponents.ts:64 | text already trimmed is unchanged |
| JsStrings.SplitJoin | middleware.ts:83 | joining the pieces of a split gives back the text, and there is one piece more than separators |
| JsStrings.JoinSplit | plasmic-library/others/DataGrid/DataGrid.tsx:210-211 | splitting a join of separator-free pieces gives back the pieces |
| JsStrings.SplitAtFirst | plasmic-library/others/DataGrid/DataGrid.tsx:210-211 | splitting text whose first separator follows a separator-free piece yields that piece, then the split of the rest |
| JsStrings.IncludesText | plasmic-library/others/Kanban/Kanban.tsx:89-90 | `includes` holds iff the needle occurs at some position |
| JsStrings.IndexOf | pages/_app.tsx:33 | the index of the first occurrence, or the length when there is none |
| CatalogDiff.LocalVersion | architecture/pages/api/plasmic-lib/listComponents.ts:60-65 | "N/A" without a version file; otherwise the file's content with white space trimmed at both ends |
| CatalogDiff.FindIndex | architecture/pages/api/plasmic-lib/listComponents.ts:71 | the first entry whose name and category both match |
| CatalogDiff.FindRemote | architecture/pages/api/plasmic-lib/listComponents.ts:70-71 | no match when `components` is not an array; otherwise the first entry matching on both name and category, or none when none does |
| CatalogDiff.RemoteVersion | architecture/pages/api/plasmic-lib/listComponents.ts:74 | the entry's non-empty version, else "N/A" |
| CatalogDiff.Classify | architecture/pages/api/plasmic-lib/listComponents.ts:67-97 | no match gives new/"N/A" on no list; a matched "N/A" or "unknown" gives new; otherwise equal, greater and smaller give uptodate, modify and new; modify goes to the updated list and a matched new to the new list |
| CatalogDiff.StatusMeaning | architecture/pages/api/plasmic-lib/listComponents.ts:73-95 | for a matched component, each status holds iff the padded segment lists agree everywhere, or first differ upwards, or first differ downwards |
| CatalogDiff.RecordOf | architecture/pages/api/plasmic-lib/listComponents.ts:99-104 | each record carries its category and the trimmed local version |
| CatalogDiff.Push | architecture/pages/api/plasmic-lib/listComponents.ts:79-93 | a verdict appends the name to at most one list and touches nothing else |
| CatalogDiff.Run | architecture/pages/api/plasmic-lib/listComponents.ts:56-106 | the snapshot is keyed by exactly the component names seen, and the two lists together get at most one name per component |
| CatalogDiff.NamesMeaning | architecture/pages/api/plasmic-lib/listComponents.ts:99 | a name is a snapshot key iff some component has it |
| CatalogDiff.ListsArePushed | architecture/pages/api/plasmic-lib/listComponents.ts:79-93 | the two lists are the components sent to each list, in directory order |
| CatalogDiff.LastWriteWins | architecture/pages/api/plasmic-lib/listComponents.ts:99-104 | the record of a component that no later component shares a name with is the one stored under that name |
| CatalogDiff.NoRemoteData | architecture/pages/api/plasmic-lib/listComponents.ts:47-54 | with no remote data, or a non-array `components`, every record is new/"N/A" and both lists stay empty |
| CatalogDiff.Items | architecture/pages/api/plasmic-lib/listComponents.ts:56-59 | the walk visits as many items as the categories hold components |
| CatalogDiff.ItemsAt | architecture/pages/api/plasmic-lib/listComponents.ts:56-59 | the `j`-th component of category `c` is visited, paired with its category, right after all components of the earlier categories: category by category, in listing order |
| CatalogDiff.Effective | architecture/pages/api/plasmic-lib/listComponents.ts:47-54 | a failed fetch leaves the initial empty component list |
| CatalogDiff.ListComponents | architecture/pages/api/plasmic-lib/listComponents.ts:35-109 | for remote entries that are objects with string fields, the listing fails only when the fetched document is null and there is a component to inspect; otherwise it lists at most one name per component |
| CatalogDiff.Handler | architecture/pages/api/plasmic-lib/listComponents.ts:112-137 | 200 iff the listing succeeds and the second fetch does, with both documents written; otherwise 500 with empty lists and no data file |
| FormChecks.Strength | plasmic-library/authentication/SignUp/SignUp.tsx:283-292 | the score is at most 4, at most 2 below eight characters, and 3 or more only from eight |
| FormChecks.CountCriteria | plasmic-library/authentication/SignUp/SignUp.tsx:286-290 | the criteria count is one per satisfied class: lower, upper, digit, other |
| FormChecks.StrengthFour | plasmic-library/authentication/SignUp/SignUp.tsx:283-292 | the score is 4 iff the password has eight characters and all four classes |
| FormChecks.StrengthEmpty | plasmic-library/authentication/SignUp/SignUp.tsx:283-292 | the empty password scores 0 |
| FormChecks.StrengthGrows | plasmic-library/authentication/SignUp/SignUp.tsx:283-292 | typing more characters never lowers the score |
| FormChecks.CountGrows | plasmic-library/authentication/SignUp/SignUp.tsx:286-290 | appending text never unsatisfies a class |
| FormChecks.ScanStrength | plasmic-library/authentication/ResetPassword/ResetPassword.tsx:141-147 | a single left-to-right scan computes the same score |
| FormChecks.MeetsSnoc | plasmic-library/authentication/SignUp/SignUp.tsx:286-290 | a class is met after one more character iff it was met before or the character is in it |
| FormChecks.EmailMeaning | plasmic-library/authentication/SignUp/SignUp.tsx:440-443 | the check holds iff the whole text is non-empty words without white space or `@`, joined by `@` and then a dot |
| FormChecks.ValidEmail | plasmic-library/authentication/SignUp/SignUp.tsx:440-443 | an accepted address has at least five characters and neither starts nor ends with `@` |
| FormChecks.PatternChars | plasmic-library/authentication/SignUp/SignUp.tsx:440-443 | an accepted address has no white space, exactly one `@`, and non-empty parts around it and the dot |
| FormChecks.DigitsOnly | plasmic-library/authentication/SignUp/SignUp.tsx:326 | only digits remain, and the result is no longer than the input |
| FormChecks.DigitsOnlyFilter | plasmic-library/authentication/SignUp/SignUp.tsx:326 | removing non-digits keeps exactly the digits of the input, in their order |
| FormChecks.DigitsOnlyAppend | plasmic-library/authentication/SignUp/SignUp.tsx:326 | cleaning works piecewise over concatenation |
| FormChecks.DigitsOnlyKeeps | plasmic-library/authentication/SignUp/SignUp.tsx:326 | digit-only text is unchanged |
| FormChecks.CleanPhone | plasmic-library/authentication/SignUp/SignUp.tsx:323-335 | the kept phone is the first fifteen digits of the input, or all of them when there are fewer |
| FormChecks.CleanPhoneIdempotent | plasmic-library/authentication/SignUp/SignUp.tsx:323-335 | cleaning twice equals cleaning once |
| FormChecks.CleanPhoneKeeps | plasmic-library/authentication/SignUp/SignUp.tsx:323-335 | a short digit string is kept, and flagged iff it has between 1 and 7 digits |
| FormChecks.RemoveSpaces | plasmic-library/authentication/SignUp/SignUp.tsx:316-321 | the result has no space |
| FormChecks.RemoveSpacesAppend | plasmic-library/authentication/SignUp/SignUp.tsx:316-321 | removing spaces works piecewise over concatenation |
| FormChecks.GroupDigits | plasmic-library/authentication/SignUp/SignUp.tsx:316-321 | pair grouping puts a space at every third position; removing the spaces gives back the digits |
| FormChecks.FormatDigits | plasmic-library/authentication/SignUp/SignUp.tsx:316-321 | the display form of a digit string has a space exactly at positions 2, 5, 8, …, its length follows from the digit count, and removing the spaces gives the digits back |
| FormChecks.FormatPhoneDisplay | plasmic-library/authentication/SignUp/SignUp.tsx:316-321 | an empty phone shows nothing, and the display never starts or ends with white space |
| FormChecks.GroupEnds | plasmic-library/authentication/SignUp/SignUp.tsx:316-321 | the grouped text begins with the first digit and ends with the last, so trimming removes nothing |
| FormState.Merge | plasmic-library/authentication/SignUp/SignUp.tsx:243 | custom messages override the defaults key by key; other defaults remain |
| FormState.MergeLaws | plasmic-library/authentication/ResetPassword/ResetPassword.tsx:128 | no custom messages leave the defaults, and merging the same overrides twice changes nothing |
| FormState.ErrorAlerts | plasmic-library/authentication/ResetPassword/ResetPassword.tsx:215-221 | one error alert per error key, in order, carrying that key's message |
| FormState.FailureText | plasmic-library/authentication/AccountParameters/AccountParameters.tsx:227-236 | a thrown Error with a non-empty message shows it; anything else shows the network-error message |
| FormState.EditPassword | plasmic-library/authentication/ResetPassword/ResetPassword.tsx:149-157 | editing the password sets it and keeps the confirmation |
| FormState.EditConfirm | plasmic-library/authentication/ResetPassword/ResetPassword.tsx:159-164 | editing the confirmation sets it and keeps the password and score |
| FormState.EditsMakeConsistent | plasmic-library/authentication/ResetPassword/ResetPassword.tsx:149-164 | after either edit, the match flag equals password == confirmation |
| SignUp.OrElse | plasmic-library/authentication/SignUp/SignUp.tsx:206-222 | a non-empty prop wins over the fallback |
| SignUp.Initial | plasmic-library/authentication/SignUp/SignUp.tsx:206-222 | the form starts without alerts, phone error or score |
| SignUp.SyncProps | plasmic-library/authentication/SignUp/SignUp.tsx:381-399 | a non-empty password prop replaces the password and rescores it; the match flag is left as it was |
| SignUp.MountConsistent | plasmic-library/authentication/SignUp/SignUp.tsx:381-399 | on mount the match flag agrees with the two fields |
| SignUp.PropsLeaveMatchFlag | plasmic-library/authentication/SignUp/SignUp.tsx:381-399 | a later password prop can leave the match flag raised over different fields |
| SignUp.EditPhone | plasmic-library/authentication/SignUp/SignUp.tsx:323-335 | the kept phone is the input's first fifteen digits (`CleanPhone`), the flag is raised iff it has between 1 and 7 digits, and the fields and alerts are kept |
| SignUp.CollectMembers | plasmic-library/authentication/SignUp/SignUp.tsx:452-478 | running the checks pushes a key exactly when it is among them and its check fails |
| SignUp.CollectInOrder | plasmic-library/authentication/SignUp/SignUp.tsx:452-478 | the pushed keys keep the order of the checks |
| SignUp.Errors | plasmic-library/authentication/SignUp/SignUp.tsx:452-478 | every collected error has a default message to show |
| SignUp.ErrorsMeaning | plasmic-library/authentication/SignUp/SignUp.tsx:452-478 | each error is present iff its check fails (invalid email, mismatch, weak score < 2, phone shown and < 8 digits), in that order |
| SignUp.EnabledPassesPasswordChecks | plasmic-library/authentication/SignUp/SignUp.tsx:739 | an enabled button rules out the mismatch and weak-password errors |
| SignUp.SubmitDisabled | plasmic-library/authentication/SignUp/SignUp.tsx:739 | when the flags describe the fields, the button is enabled exactly when the two passwords agree, have at least eight characters and use all four character classes |
| SignUp.PhoneFlagAndSubmit | plasmic-library/authentication/SignUp/SignUp.tsx:323-335 | the submit-time phone error fires iff the live flag is raised or the phone is empty |
| SignUp.Submit | plasmic-library/authentication/SignUp/SignUp.tsx:446-514 | data is sent iff there are no errors and a handler exists, with the country code only when the phone is shown; the errors become alerts in order; the outcome chooses the success or network-error alert |
| SignUp.SuccessTextFixed | plasmic-library/authentication/SignUp/SignUp.tsx:497-512 | the success alert ignores a custom success message, and a failure shows the network-error message |
| PasswordForms.SuccessMessage | plasmic-library/authentication/ResetPassword/ResetPassword.tsx:87 | the prop, else the default success text |
| FormState.PropText | plasmic-library/authentication/ResetPassword/ResetPassword.tsx:243-251 | the prop, else "" (also the field props of Login.tsx:121-122) |
| PasswordForms.Initial | plasmic-library/authentication/ResetPassword/ResetPassword.tsx:112-118 | no alerts, score 0, and a match flag that agrees with the fields; the account form starts empty |
| PasswordForms.PasswordProp | plasmic-library/authentication/ResetPassword/ResetPassword.tsx:243-247 | the password prop (or "") replaces the password and rescores it, leaving the rest alone |
| PasswordForms.ConfirmProp | plasmic-library/authentication/ResetPassword/ResetPassword.tsx:249-251 | the confirmation prop replaces the confirmation only |
| PasswordForms.MountConsistent | plasmic-library/authentication/ResetPassword/ResetPassword.tsx:112-118 | after mount both forms hold a correct match flag |
| PasswordForms.Errors | plasmic-library/authentication/ResetPassword/ResetPassword.tsx:205-213 | weak (score < 3) is present iff the score is below 3, and mismatch iff the fields differ; weak comes first |
| PasswordForms.ButtonAndSubmit | plasmic-library/authentication/ResetPassword/ResetPassword.tsx:343 | an enabled reset button means the submit finds no error; the account button is never disabled |
| PasswordForms.SubmitDisabled | plasmic-library/authentication/ResetPassword/ResetPassword.tsx:343 | the account form's button is never disabled; with consistent flags, the reset button is enabled exactly when the passwords agree, have at least eight characters and use all four character classes |
| PasswordForms.Submit | plasmic-library/authentication/ResetPassword/ResetPassword.tsx:201-235 | the handler is called iff there are no errors; the errors become alerts in order; then the outcome shows the success text or the failure text |
| PasswordForms.FailureShown | plasmic-library/authentication/AccountParameters/AccountParameters.tsx:227-236 | a non-empty Error message is shown; an empty one or a non-error shows the (custom or default) network error |
| PasswordForms.ShortPasswordRefused | plasmic-library/authentication/ResetPassword/ResetPassword.tsx:205-213 | a password under eight characters is never submitted, and the first alert is the weak-password one |
| Login.Validate | plasmic-library/authentication/Login/Login.tsx:146-160 | only the first failing check is reported: empty email, bad format, empty password, fewer than 6 characters; no failure iff the email is valid and the password long enough |
| Login.Submit | plasmic-library/authentication/Login/Login.tsx:162-176 | a validation failure reaches `onError` alone and `onSubmit` is not called; otherwise `onSubmit` is called and a throw is reported; `isSubmitting` always ends false |
| Login.SocialSignIn | plasmic-library/authentication/Login/Login.tsx:178-192 | a throwing handler's error, and only that, reaches `onError` |
| Login.Initial | plasmic-library/authentication/Login/Login.tsx:121-122 | both fields start from their props |
| Login.EmailProp | plasmic-library/authentication/Login/Login.tsx:225-227 | a new email prop replaces the email and keeps the password |
| Login.PasswordProp | plasmic-library/authentication/Login/Login.tsx:229-231 | a new password prop replaces the password and keeps the email |
| Login.PropsResetFields | plasmic-library/authentication/Login/Login.tsx:225-231 | after both prop effects, in either order, the fields are what the first render gives |
| Login.LoginLooserThanSignUp | plasmic-library/authentication/Login/Login.tsx:156 | a six-character password passes login yet scores at most 2 on the other forms |
| DataGrid.HandleSort | plasmic-library/others/DataGrid/DataGrid.tsx:224-236 | a new field starts ascending; the same field cycles asc, desc, unsorted |
| DataGrid.SortCycle | plasmic-library/others/DataGrid/DataGrid.tsx:224-236 | three clicks on the current field restore the state, and another field resets to ascending |
| DataGrid.Keys | plasmic-library/others/DataGrid/DataGrid.tsx:148 | a row's keys in their order |
| DataGrid.AllColumns | plasmic-library/others/DataGrid/DataGrid.tsx:146-153 | no data gives no column; without an order, the first row's keys; with one, exactly the ordered names that are keys of the first row, in the order given |
| DataGrid.ColumnOrderLaws | plasmic-library/others/DataGrid/DataGrid.tsx:146-153 | an order made of first-row keys is kept whole, and ordering distributes over concatenation |
| DataGrid.Columns | plasmic-library/others/DataGrid/DataGrid.tsx:155-158 | without a visible list all columns are shown; with one, exactly the listed names that are columns, in the listed order: a column left off the list is hidden |
| DataGrid.CompareRows | plasmic-library/others/DataGrid/DataGrid.tsx:163-188 | an empty value of the field ranks after a filled one ascending and before it descending, and two empty values tie |
| DataGrid.DescendingSwaps | plasmic-library/others/DataGrid/DataGrid.tsx:163-188 | descending order compares two rows as ascending order compares them swapped |
| DataGrid.SortedData | plasmic-library/others/DataGrid/DataGrid.tsx:160-189 | unsorted leaves the data unchanged; sorting permutes it |
| DataGrid.EmptiesPlaced | plasmic-library/others/DataGrid/DataGrid.tsx:167-179 | ascending puts the empty cells of the field last, and descending puts them first |
| DataGrid.PageStart | plasmic-library/others/DataGrid/DataGrid.tsx:191-194 | a page from the first on starts at a non-negative row index |
| DataGrid.Page | plasmic-library/others/DataGrid/DataGrid.tsx:191-194 | the page is the slice starting at (page-1)·size, at most `pageSize` long |
| DataGrid.TotalPages | plasmic-library/others/DataGrid/DataGrid.tsx:196 | the ceiling of total/size: the smallest page count that covers every item |
| DataGrid.PageOfRow | plasmic-library/others/DataGrid/DataGrid.tsx:191-196 | every row appears, at its expected offset, on a page that exists |
| DataGrid.Navigate | plasmic-library/others/DataGrid/DataGrid.tsx:570-600 | "next" moves iff the page is before the last, "previous" iff it is after the first, by one page |
| DataGrid.PaginationShown | plasmic-library/others/DataGrid/DataGrid.tsx:570 | the controls show exactly when the grid is mounted and the first page can go forward, that is when there is more than one page; when shown, the last page can go back |
| DataGrid.NavigateRoundTrip | plasmic-library/others/DataGrid/DataGrid.tsx:570-600 | next then previous returns to the page, and the ends do not move |
| DataGrid.FormatDate | plasmic-library/others/DataGrid/DataGrid.tsx:359-367 | an empty value shows "N/A", a parsable one its formatted date, and an unparsable one itself |
| DataGrid.RenderCell | plasmic-library/others/DataGrid/DataGrid.tsx:369-395 | a missing value shows "N/A"; date columns are formatted and others shown as they are |
| DataGrid.Labels | plasmic-library/others/DataGrid/DataGrid.tsx:210 | each column's header is its label or its own name |
| DataGrid.Fields | plasmic-library/others/DataGrid/DataGrid.tsx:201-211 | one quoted field per column, read through the label-keyed export row |
| DataGrid.Lines | plasmic-library/others/DataGrid/DataGrid.tsx:210-211 | one comma-joined line per row |
| DataGrid.DisplayedOwn | plasmic-library/others/DataGrid/DataGrid.tsx:201-207 | with distinct labels, each column exports its own cell |
| DataGrid.DisplayedAbsent | plasmic-library/others/DataGrid/DataGrid.tsx:201-207 | a label no column has exports nothing |
| DataGrid.DisplayedFrom | plasmic-library/others/DataGrid/DataGrid.tsx:201-207 | every exported value comes from some shown column |
| DataGrid.SharedLabel | plasmic-library/others/DataGrid/DataGrid.tsx:201-207 | two columns with one label both export the later column's value |
| DataGrid.JoinFree | plasmic-library/others/DataGrid/DataGrid.tsx:210-211 | joining never introduces a character other than the separator |
| DataGrid.Csv | plasmic-library/others/DataGrid/DataGrid.tsx:201-211 | the text opens with the comma-joined labels and a line break, and is only that line when there are no rows |
| DataGrid.CsvLines | plasmic-library/others/DataGrid/DataGrid.tsx:210-211 | without newlines in the labels or cells, the file splits into the header line followed by one line per row |
| Kanban.Search | plasmic-library/others/Kanban/Kanban.tsx:85-92 | an empty term keeps every task; otherwise a task is kept iff its lower-cased title or description contains the lower-cased term |
| Kanban.SearchKeepsOrder | plasmic-library/others/Kanban/Kanban.tsx:88-91 | the search distributes over concatenation, so it keeps the tasks' order |
| Kanban.SortTasks | plasmic-library/others/Kanban/Kanban.tsx:94-112 | the sort permutes the tasks |
| Kanban.CompareTasks | plasmic-library/others/Kanban/Kanban.tsx:94-111 | by date, ascending puts the earlier time first and descending the later; by title, ascending follows `localeCompare` and descending reverses it; any other key ties |
| Kanban.SortLaws | plasmic-library/others/Kanban/Kanban.tsx:94-112 | descending negates ascending, and an unknown key keeps the order |
| Kanban.Processed | plasmic-library/others/Kanban/Kanban.tsx:142-146 | the shown tasks are a permutation of the search result |
| Kanban.GroupValues | plasmic-library/others/Kanban/Kanban.tsx:149 | each task's grouping field, in order |
| Kanban.ColumnTypes | plasmic-library/others/Kanban/Kanban.tsx:148-151 | the distinct group values in first-occurrence order, or "Default" when there are no tasks |
| Kanban.BuildBoard | plasmic-library/others/Kanban/Kanban.tsx:153-185 | one column per column id, holding exactly the tasks of that group in processed order |
| Kanban.TasksPlaced | plasmic-library/others/Kanban/Kanban.tsx:171-185 | every task sits in its own group's column and in no other |
| Kanban.Find | plasmic-library/others/Kanban/Kanban.tsx:203 | a task with the dragged id, or none when no task has it |
| Kanban.Regroup | plasmic-library/others/Kanban/Kanban.tsx:210-214 | only the grouping field changes, to the destination id |
| Kanban.DragEnd | plasmic-library/others/Kanban/Kanban.tsx:187-243 | a drop without a destination or onto the same place is ignored; a missing source column, task or destination column leaves the board unchanged with the moving mark set; otherwise the owner is told of the move, the mark is cleared and the destination column gains one task, so the board changes |
| Kanban.CrossColumnMove | plasmic-library/others/Kanban/Kanban.tsx:207-232 | across columns the task leaves the source index and lands regrouped at the destination index; other columns, the order and the task count are unchanged |
| Kanban.SameColumnDuplicates | plasmic-library/others/Kanban/Kanban.tsx:207-232 | within one column, the column grows by one regrouped copy of the task |
| Kanban.DuplicationExample | plasmic-library/others/Kanban/Kanban.tsx:207-232 | moving the first of [a, c] to index 1 gives [a, a, c] as written, and [c, a] once corrected |
| Kanban.DragEndFixed | plasmic-library/others/Kanban/Kanban.tsx:187-243 | the corrected handler agrees with the original across columns and on ignored drops |
| Kanban.FixedReorders | plasmic-library/others/Kanban/Kanban.tsx:207-232 | the corrected same-column move keeps the column's length and tasks |
| DraggableList.Move | plasmic-library/DraggableList/DraggableList.tsx:42-46 | the same items in the same number; the moved item lands at the hover index, and the others keep their relative order |
| DraggableList.MoveBack | plasmic-library/DraggableList/DraggableList.tsx:42-46 | moving back restores the list |
| DraggableList.DragStart | plasmic-library/DraggableList/DraggableList.tsx:25-27 | only the dragging index is set |
| DraggableList.DragEnter | plasmic-library/DraggableList/DraggableList.tsx:29-31 | only the hover index is set |
| DraggableList.DragEnd | plasmic-library/DraggableList/DraggableList.tsx:33-36 | both indices are cleared and the items kept |
| DraggableList.Drop | plasmic-library/DraggableList/DraggableList.tsx:38-54 | both indices are cleared; the list is reordered and reported iff both indices are set and differ, and the report is the new list |
| DraggableList.DropTwiceRestores | plasmic-library/DraggableList/DraggableList.tsx:38-54 | dropping back the other way restores the list |
| DraggableList.Remove | plasmic-library/DraggableList/DraggableList.tsx:56-61 | exactly the item at the index goes, and the rest keep their order; the report is the new list |
| DraggableList.PropsChanged | plasmic-library/DraggableList/DraggableList.tsx:63-65 | new props replace the items without a report |
| JsArrays.SpliceRemove | plasmic-library/DraggableList/DraggableList.tsx:44 | `splice(i, 1)` drops the element at i and shifts the rest; an index past the end removes nothing |
| JsArrays.SpliceInsert | plasmic-library/DraggableList/DraggableList.tsx:46 | `splice(i, 0, x)` puts x at i, clamped to the end, and shifts the rest |
| JsArrays.RemovePreservesMultiset | plasmic-library/DraggableList/DraggableList.tsx:44 | removal loses exactly the removed element |
| JsArrays.InsertAddsToMultiset | plasmic-library/DraggableList/DraggableList.tsx:46 | insertion adds exactly the inserted element |
| JsArrays.RemoveAfterInsert | plasmic-library/others/Kanban/Kanban.tsx:216-217 | removing where one inserted undoes the insertion |
| JsArrays.InsertAfterRemove | plasmic-library/others/Kanban/Kanban.tsx:207-217 | reinserting a removed element where it was undoes the removal |
| JsArrays.Slice | plasmic-library/others/DataGrid/DataGrid.tsx:193 | `slice(start, end)` gives the elements in range, clipped to the array |
| JsArrays.Filter | plasmic-library/others/Kanban/Kanban.tsx:88-91 | every kept element passes the test, and every passing element is kept |
| JsArrays.FilterAppend | plasmic-library/others/Kanban/Kanban.tsx:158 | filtering distributes over concatenation |
| JsArrays.FilterAll | plasmic-library/others/Kanban/Kanban.tsx:158 | a filter every element passes changes nothing |
| JsArrays.FirstIndex | plasmic-library/others/Kanban/Kanban.tsx:149 | the first position of a value, or the length |
| JsArrays.Unique | plasmic-library/others/Kanban/Kanban.tsx:149 | `Array.from(new Set(…))` lists each value once, in first-occurrence order |
| StableSort.Sort | plasmic-library/others/Kanban/Kanban.tsx:95 | the sort permutes its input |
| StableSort.SortSorted | plasmic-library/others/DataGrid/DataGrid.tsx:163-188 | under a consistent comparator the result is sorted |
| StableSort.SortKeepsOrdered | plasmic-library/others/Kanban/Kanban.tsx:107-108 | input already in order (for instance when everything compares 0) is unchanged, because the sort is stable |
| StableSort.SortGroupsLast | plasmic-library/others/DataGrid/DataGrid.tsx:177-179 | a comparator that ranks one group after everything else puts that group at the end |
| Middleware.AnyMatches | middleware.ts:66-72 | some route in the list matches the path |
| Middleware.RouteMatches | middleware.ts:66-72 | a dynamic route matches exactly its prefix, then a token without line breaks, then its suffix |
| Middleware.DynamicSplit | middleware.ts:66-72 | the slice test of a dynamic route agrees with the prefix-token-suffix decomposition, both ways |
| Middleware.IsPublic | middleware.ts:66-72 | every reset link whose token holds no line break is public |
| Middleware.ResetRouteMeaning | middleware.ts:66-72 | the reset route matches exactly "/reset-password/" followed by a token without line terminators |
| Middleware.PublicMeaning | middleware.ts:66-72 | a path is public iff it equals a listed route, or it is "/reset-password/" followed by a token without line terminators |
| Middleware.RoutesOfPaths | middleware.ts:6-23 | the public routes are the twelve exact paths with the reset pattern as the seventh entry |
| Middleware.ListedIsPublic | middleware.ts:71 | every exact route is public |
| Middleware.PublicIsListed | middleware.ts:66-72 | a public path is an exact route or matches the reset pattern |
| Middleware.ResetLinksPublic | middleware.ts:14 | every reset link is public, including an empty token |
| Middleware.Decide | middleware.ts:74-78 | redirect to "/login" iff the route is not public and there is no user |
| Middleware.LoginNeverRedirected | middleware.ts:4-9 | the login page never redirects |
| Middleware.MergeOptions | middleware.ts:46-53 | the defaults (path "/", httpOnly, secure, Lax, one hour) overridden key by key by the caller's options |
| Middleware.MergeLaws | middleware.ts:46-53 | without options the defaults apply, and the caller's options always win |
| Middleware.IsOldCookie | middleware.ts:81-92 | old unless there are exactly three dot parts; with three, old iff decoding fails, gives null, or gives an expiry before now |
| Middleware.NoExpiryNeverOld | middleware.ts:88 | a payload without `exp` is never old |
| Middleware.SetAll | middleware.ts:39-57 | one response cookie per input, in order; an old `session_id` is written empty with maxAge 0, every other cookie with its value and the merged options |
| Middleware.SetAllRequest | middleware.ts:39-57 | the forwarded request receives exactly the cookies that are not cleared, in their original order |
| Middleware.OldSessionCleared | middleware.ts:41-44 | an old session cookie is cleared and not kept on the request |
| Middleware.Handle | middleware.ts:25-79 | the decision as above, and no refreshed cookie reaches the response |
| Middleware.RefreshedCookiesLost | middleware.ts:25-79 | a refreshed token set on the response is still missing from what is sent |
| Middleware.HandleFixed | middleware.ts:25-79 | the corrected handler sends every refreshed cookie when it proceeds |
| AppLoader.CloseIndex | pages/_app.tsx:31 | the first `]`, which ends the lazy `\[.*?\]` |
| AppLoader.Literal | pages/_app.tsx:31 | placeholder-free text stands for itself |
| AppLoader.LiteralMatches | pages/_app.tsx:31 | a literal run matches exactly its own text, then whatever the rest matches |
| AppLoader.FinalSegment | pages/_app.tsx:31 | `[^/]+/?$` matches one non-empty segment without `/`, with at most one trailing `/` |
| AppLoader.StripQuery | pages/_app.tsx:33 | everything before the first `?` |
| AppLoader.Substitute | pages/_app.tsx:30 | the substituted pattern is no longer than the route, and text without `[` becomes its own literals |
| AppLoader.Compile | pages/_app.tsx:30 | the compiled pattern is the substitution, less at most one trailing `/` |
| AppLoader.Matches | pages/_app.tsx:30-32 | a matched path is at least as long as the pattern, each element consuming one character or more |
| AppLoader.MatchRoute | pages/_app.tsx:27-34 | a matching URL's path is at least as long as the compiled pattern of one of the routes |
| AppLoader.QueryIgnored | pages/_app.tsx:33 | a query string does not change the matched path |
| AppLoader.CompileSimple | pages/_app.tsx:31 | `prefix[name]` compiles to the prefix literals and one segment |
| AppLoader.SubstituteSimple | pages/_app.tsx:31 | the placeholder becomes one segment |
| AppLoader.RouteMeaning | pages/_app.tsx:28-35 | a loader route matches exactly the prefix followed by one segment, with an optional trailing `/`, whatever the query |
| AppLoader.NewsPathMeaning | pages/_app.tsx:25-33 | a query-free path matches the news route iff it is "/news/" followed by one non-empty segment, with at most one trailing `/` |
| AppLoader.HandleStart | pages/_app.tsx:37-42 | both flags rise iff the URL matches a loader route; otherwise nothing changes |
| AppLoader.HandleStop | pages/_app.tsx:44-47 | `loading` drops and the overlay stays until the timer |
| AppLoader.HideTimer | pages/_app.tsx:46 | the timer hides the overlay |
| AppLoader.ArticleRaisesLoader | pages/_app.tsx:25-42 | a news article URL, with any query, raises the loader |
| AppLoader.IndexNotMatched | pages/_app.tsx:25-33 | "/news/" does not match |
| AppLoader.DeeperNotMatched | pages/_app.tsx:25-33 | "/news/a/b" does not match |
| FilesHandler.Handle | pages/api/plasmic-lib/files.ts:7-67 | 400 without a single non-empty file name or for an unknown action; a read answers 404 or 200 with the content, whatever the method; a write answers 405, 400 (bad content, missing file), 500, or 200 after storing the JSON; only a 200 changes the files, and no file is ever created |
| FilesHandler.WriteThenRead | pages/api/plasmic-lib/files.ts:20-52 | after a successful write, a read of that file returns the stringified content, and other files are untouched |
| FilesHandler.OnlyWritesChange | pages/api/plasmic-lib/files.ts:30-56 | only a POST write of an object to an existing file changes anything |
| FilesHandler.WriteIdempotent | pages/api/plasmic-lib/files.ts:30-56 | repeating a write changes nothing more |
| Installer.LastAt | architecture/pages/api/first-install.ts:43-50 | the last `@` of a package spec |
| Installer.PackageName | architecture/pages/api/first-install.ts:43-50 | the spec up to its version suffix |
| Installer.PackageNameOfVersioned | architecture/pages/api/first-install.ts:43-50 | `name@version` names `name` |
| Installer.PackageNameUnversioned | architecture/pages/api/first-install.ts:43-50 | a spec without a version is its own name, scopes included |
| Installer.NamesOf | architecture/pages/api/first-install.ts:43-50 | exactly the names of the given specs |
| Installer.Parent | architecture/pages/api/first-install.ts:175 | the containing directory |
| Installer.Moved | architecture/pages/api/first-install.ts:129-151 | the source tree re-rooted at the destination |
| Installer.CopyDirectory | architecture/pages/api/first-install.ts:129-151 | every source file appears at the same relative path under the destination, with its content; nothing else changes, and nothing else appears |
| Installer.Extract | architecture/pages/api/first-install.ts:117-120 | the archive's entries land under the target directory over existing files |
| Installer.ExtractedFiles | architecture/pages/api/first-install.ts:117-121 | after extraction and deletion the archive is gone and its entries are present |
| Installer.Effect | architecture/pages/api/first-install.ts:52-66 | a command leaves the trace and log to `Exec` |
| Installer.Exec | architecture/pages/api/first-install.ts:52-66 | the command is recorded; it succeeds iff it is not failing; success applies its effect and logs the command followed by its output lines; failure logs the error and changes nothing else |
| Installer.OutputLines | architecture/pages/api/first-install.ts:61-62 | one line per stream that printed something other than white space |
| Installer.OutputLinesMeaning | architecture/pages/api/first-install.ts:61-62 | a stream's line is present iff it printed something, and STDOUT comes before STDERR |
| Installer.InstallList | architecture/pages/api/first-install.ts:72-88 | only installs of the given kind are issued; success leaves every listed package installed; failure names a failing listed package |
| Installer.InstallCommands | architecture/pages/api/first-install.ts:76 | one `npm install` per spec, in order |
| Installer.InstallListIssuesMissing | architecture/pages/api/first-install.ts:72-79 | exactly the missing packages are installed, in declared order |
| Installer.ToInstall | architecture/pages/api/first-install.ts:72-79 | the packages still to install are specs from the list whose package is not installed, at most one per spec |
| Installer.ToInstallIgnoresOthers | architecture/pages/api/first-install.ts:72-79 | installing unrelated names does not change what is still missing |
| Installer.DownloadAndUnzip | architecture/pages/api/first-install.ts:111-126 | one `curl` is issued and nothing is installed; the step rejects iff the download fails, whatever the archive holds |
| Installer.Unpack | architecture/pages/api/first-install.ts:116-125 | after the download the step always succeeds, runs no command, installs nothing and only appends to the log |
| Installer.DownloadAndUnzipMeaning | architecture/pages/api/first-install.ts:111-126 | a failed download logs its error and changes no file; an unreadable archive is logged and kept; a readable one is extracted below the target and deleted |
| Installer.CopyFileEntry | architecture/pages/api/first-install.ts:172-198 | a missing source is skipped; a parent that cannot be created aborts; a directory source is copied recursively, and a copy that throws, of a file or a directory, is caught and logged |
| Installer.CopyDirEntry | architecture/pages/api/first-install.ts:129-218 | a missing source is skipped; the entry completes iff the source is a directory whose files can all be written, i.e. no target is an existing directory or lies below a regular file; otherwise the throw leaves the loop |
| Installer.StylesFileBlocksCopy | architecture/pages/api/first-install.ts:129-218 | a regular file named `styles` makes the first directory entry throw |
| Installer.CopyFileEntries | architecture/pages/api/first-install.ts:172-198 | the file manifest issues no command and installs nothing |
| Installer.CopyDirEntries | architecture/pages/api/first-install.ts:208-218 | the directory manifest issues no command and logs nothing |
| Installer.CopyFiles | architecture/pages/api/first-install.ts:154-220 | the copy phase ends with the Tailwind bootstrap, run unconditionally, and succeeds only if it ran |
| Installer.TailwindCheck | architecture/pages/api/first-install.ts:98-105 | the bootstrap runs iff one of tailwindcss, postcss or autoprefixer is missing |
| Installer.PackagePhase | architecture/pages/api/first-install.ts:72-88 | only installs are issued, dev installs after regular ones; success leaves every package installed |
| Installer.DownloadPhase | architecture/pages/api/first-install.ts:91-92 | only downloads; the phase succeeds iff both succeed, and a failed first download stops it |
| Installer.AfterPackages | architecture/pages/api/first-install.ts:91-105 | a failed architecture download stops everything after it, with that download as the last command |
| Installer.AfterPackagesBootstrapOnce | architecture/pages/api/first-install.ts:91-105 | on success the stretch after the package loops ends with its only Tailwind bootstrap, because the check after the copies finds the packages installed |
| Installer.InstallDependencies | architecture/pages/api/first-install.ts:69-108 | a failed architecture download after the packages aborts the remaining phases, with that download as the last command |
| Installer.FailingPhaseStops | architecture/pages/api/first-install.ts:69-108 | the first failing phase, whether packages, downloads or copies, gives the result of the whole; nothing after it runs |
| Installer.BootstrapOnce | architecture/pages/api/first-install.ts:69-108 | a successful run bootstraps Tailwind exactly once, as its last command |
| Installer.FirstCommandFails | architecture/pages/api/first-install.ts:222-233 | a failing first install stops the run, which still logs the error and the end line |
| Installer.Install | architecture/pages/api/first-install.ts:222-233 | the log starts with the start line and ends with success or error, then the end line; the first command is always the `dotenv`/`adm-zip` install |
| Installer.TryBlock | architecture/pages/api/first-install.ts:222-225 | however the dependency phases end, the log still starts with the start line and the first command stays first |
| LibraryVersions.OrNotAvailable | architecture/pages/api/plasmic-lib/system/Library/Library.tsx:45 | a missing or empty value becomes "N/A" |
| LibraryVersions.StripV | architecture/pages/api/plasmic-lib/system/Library/Library.tsx:60 | one leading `v` is removed |
| LibraryVersions.StripVExamples | architecture/pages/api/plasmic-lib/system/Library/Library.tsx:60 | only one `v` goes |
| LibraryVersions.CardMount | architecture/pages/api/plasmic-lib/system/Library/Library.tsx:32-47 | the card reads the installed version, and the latest version without its `v`, defaulting both to "N/A" |
| LibraryVersions.FetchRemoteVersion | architecture/pages/api/plasmic-lib/system/Library/Library.tsx:50-85 | a new remote version is stored and shown; the message compares the versions held when the fetch began; a failure records the error and resets to "N/A"; loading always ends |
| LibraryVersions.SecondFetchReportsNewVersion | architecture/pages/api/plasmic-lib/system/Library/Library.tsx:50-85 | the run after an update reports the new version |
| LibraryVersions.ToggleParameters | architecture/pages/api/plasmic-lib/system/Library/Library.tsx:125-128 | the panel flips and the details close |
| LibraryVersions.ToggleTwice | architecture/pages/api/plasmic-lib/system/Library/Library.tsx:125-128 | two toggles restore the panel |
| LibraryVersions.HandleItemClick | architecture/pages/api/plasmic-lib/system/Library/Library.tsx:130-141 | "close" hides the details and clears the selection; any other item shows them, with the update flag iff the versions differ |
| LibraryVersions.CheckVersions | architecture/pages/api/plasmic-lib/system/Library/Parameters.tsx:23-50 | both known and different report an update and tell the card; both known and equal report up to date; otherwise "cannot verify"; loading ends |
| LibraryVersions.PanelUpdateShowsDetails | architecture/pages/api/plasmic-lib/system/Library/Parameters.tsx:33-37 | an update reported by the panel opens the card's details with the update flag |
| LibraryVersions.PrefixDisagreement | architecture/pages/api/plasmic-lib/system/Library/Parameters.tsx:26-37 | with "v1.2" stored as latest and "1.2" installed, the card is up to date while the panel reports an update |
| LibraryVersions.HandleUpdate | architecture/pages/api/plasmic-lib/system/Library/Parameters.tsx:53-56 | updating shows the in-progress message |
| LibraryVersions.UpdateTimer | architecture/pages/api/plasmic-lib/system/Library/Parameters.tsx:57-61 | the "done" message is replaced at once by the check's message |
| LibraryVersions.MenuItemClick | architecture/pages/api/plasmic-lib/system/Library/Parameters.tsx:70-76 | the item is selected and the card receives the panel's versions |
| Presets.Find | styles/presets.ts:3 | the first token with that name, or none |
| Presets.GetTokenValue | styles/presets.ts:3 | the value of the first token with the name when that value is present and not empty, and the name itself exactly when there is no such token |
| Presets.FirstMatchWins | styles/presets.ts:3 | the first token with the name decides, even when its value is empty |
| Presets.OtherNamesIgnored | styles/presets.ts:3 | tokens with other names change nothing |
| Presets.UnknownNameItself | styles/presets.ts:3 | an unknown name is returned as it is |

## Left out

- CatalogDiff.ListComponents: remote entries are taken to be objects whose fields are strings. A `null` entry ahead of the match makes `find` throw on `comp.name`, and a matched `version` that is truthy but not a string makes `split` throw in `compareVersions`. Either way the handler answers 500; the model cannot express these entries.

- Rendering, styles, icons and the token colour tables are left out; they are declarative data.
- Network calls are not modelled. Remote fetches, Supabase authentication, `getUser` and Mapbox are inputs to the model instead.
- Process execution and the file system are abstract. npm, curl, adm-zip and `fs` are modelled as a set of failing commands, a download function, an unzip function and a path-to-content map. Path normalisation and npm version ranges are not modelled.
- The log store is an appended sequence of log-line values; the wording of the log lines is not kept.
- Date parsing, `localeCompare`, `toLowerCase`, the clock, the date formatter, `JSON.stringify` and the base64/JSON decoding of the cookie payload are parameters. Their results are whatever the caller supplies.
- Lengths are counted in characters, not UTF-16 code units, and Unicode case mapping is not modelled.
- `parseInt` is unbounded. Precision loss beyond 2^53 is not modelled.
- Timers, `Date.now()` alert ids and races between concurrent requests are left out. A timer's effect is a separate transition (`AppLoader.HideTimer`, `LibraryVersions.UpdateTimer`).
- Kanban's `transformApiTask` mapping from API tasks is not part of this model: the tasks arrive already in the board's shape.
- Kanban.DragEnd: the source crashes with a TypeError when a column or the task is missing. The model states this as the board unchanged and the moving mark set, which is what the page shows after the crash. A rejection from `onTaskMove` is not modelled.
- DraggableList.Drop requires the dragging index to point at an item, as `onDragStart` on a rendered item guarantees. An out-of-range start index is left out.
- AppLoader.Compile: its contract relates the compiled pattern to the substitution only; what a compiled pattern matches is stated for the loader's route shapes (a placeholder-free prefix and one final placeholder) by `AppLoader.RouteMeaning`. Regular-expression metacharacters and line terminators inside patterns are not modelled.
- Middleware.IsOldCookie: a non-numeric `exp` is modelled as absent (`undefined < now` is false). Comparisons of other JavaScript values are not modelled.
- Login.Submit assumes `onError` is present, as the optional call only skips reporting.
- DataGrid.Keys: a row's keys are taken in the order the row lists them, and a row is taken to have no key twice. `Object.keys` lists integer-like keys first in ascending order and then the others in insertion order, so rows are assumed to arrive with their keys already in that order.
- DataGrid.Page does not state its result for `pageSize <= 0` or a page before the first. DataGrid.TotalPages requires a positive page size, since the division is otherwise not a page count.
- DataGrid.SortedData states a permutation and the placement of empty cells (`DataGrid.EmptiesPlaced`), not the full order, which rests on the abstract date parser and `localeCompare`.
- Installer.CopyFileEntry does not model individual copy errors beyond a blocked parent directory or destination. A failing `unlink` of the archive is not modelled.
- Installer.CopyDirEntry: when `copyDirectory` throws part-way, the files it already wrote stay in the project. Which ones depends on the order `readdirSync` lists them, so the model's failing step changes no file. A source tree that holds a file both at a path and below it, and a destination inside its own source, are not modelled.
- Installer.Exec: an output line records that the stream printed something, not the text. The source echoes that text trimmed and cut to 500 characters.
- The ResetPassword mismatch hint is a rendering of the `passwordsMatch` flag, whose consistency `FormState.EditsMakeConsistent` states.
- Details.tsx, the first-install page, the library page, update.ts, post-install.ts, downloadAndExtract.ts, zipToVps.ts, save-data.ts and the Supabase and Mapbox components are not part of this model.

## Findings

| source | as written | input that shows it | evidently intended | confidence | as-written member | corrected member |
|---|---|---|---|---|---|---|
| plasmic-library/others/Kanban/Kanban.tsx:207-232 | the destination list is copied from the original column and written last, so a move within one column keeps the source list and adds a copy | column [a, c], drag a from index 0 to index 1 | the task moves: [c, a] | not executed | Kanban.SameColumnDuplicates | Kanban.FixedReorders |
| middleware.ts:25-79 | the function returns nothing when it proceeds, so the response carrying the cookies written by `setAll` is dropped | a refreshed session token set during `getUser` on "/login" | the proceeding path returns the response carrying the cookies | not executed | Middleware.RefreshedCookiesLost | Middleware.HandleFixed |

=== FILE: app_loader.dfy ===
/** The page-transition loader of the application shell (pages/_app.tsx):
    the dynamic-route patterns that show it, the matcher that tests a URL
    against them, and the two router handlers that raise and lower its
    flags. */
module AppLoader {
  import opened JsStrings

  /** One step of a compiled pattern: a literal character, or a `[...]`
      placeholder, which becomes `[^/]+`. */
  datatype Piece = Lit(c: char) | Segment

  type Pattern = seq<Piece>

  /** Index of the first `]` in `s`, or `|s|`. */
  function CloseIndex(s: string): (k: nat)
    ensures k <= |s| && ']' !in s[..k]
    ensures k < |s| ==> s[k] == ']'
  {
    IndexOf(s, ']')
  }

  /** The placeholder substitution: a `[` and everything up to the next
      `]` becomes one `Segment`; any other character stands for itself. */
  function Substitute(s: string): (p: Pattern)
    ensures |p| <= |s|
    ensures '[' !in s ==> p == Literal(s)
    decreases |s|
  {
    if s == [] then []
    else if s[0] == '[' && CloseIndex(s[1..]) < |s[1..]| then
      [Segment] + Substitute(s[1..][CloseIndex(s[1..]) + 1..])
    else [Lit(s[0])] + Substitute(s[1..])
  }

  /** The pattern's regular expression: the substitution, without a
      trailing `/` (the `/?` added at the end allows one). */
  function Compile(route: string): (p: Pattern)
    ensures Substitute(route) == p || Substitute(route) == p + [Lit('/')]
    ensures |p| <= |route|
  {
    var q := Substitute(route);
    if |q| > 0 && q[|q| - 1] == Lit('/') then
      assert q == q[..|q| - 1] + [Lit('/')];
      q[..|q| - 1]
    else q
  }

  /** `^...\/?$` tested against `s`: each literal consumes its character,
      each segment one or more characters other than `/`, and at the end
      at most one `/` may remain. */
  predicate Matches(p: Pattern, s: string)
    ensures Matches(p, s) ==> |p| <= |s|
    decreases |p|
  {
    if p == [] then s == [] || s == "/"
    else match p[0]
      case Lit(c) => |s| > 0 && s[0] == c && Matches(p[1..], s[1..])
      case Segment => exists k | 1 <= k <= |s| :: '/' !in s[..k] && Matches(p[1..], s[k..])
  }

  /** The text of `s` as a pattern of literals. */
  function Literal(s: string): (p: Pattern)
    ensures |p| == |s| && forall i :: 0 <= i < |s| ==> p[i] == Lit(s[i])
  {
    if s == [] then [] else [Lit(s[0])] + Literal(s[1..])
  }

  /** A literal run matches exactly its own text, followed by whatever
      the rest of the pattern matches. */
  lemma {:induction false} LiteralMatches(t: string, rest: Pattern, s: string)
    ensures Matches(Literal(t) + rest, s) <==> StartsWith(s, t) && Matches(rest, s[|t|..])
    decreases |t|
  {
    if t == [] {
      assert Literal(t) + rest == rest;
    } else if s != [] {
      var p := Literal(t) + rest;
      assert p[0] == Lit(t[0]);
      assert p[1..] == Literal(t[1..]) + rest;
      LiteralMatches(t[1..], rest, s[1..]);
      if StartsWith(s[1..], t[1..]) {
        assert s[1..][|t| - 1..] == s[|t|..];
      }
      StartsWithCons(s, t);
    }
  }

  /** A prefix test is a test of the first characters and then of the
      rest. */
  lemma StartsWithCons(s: string, t: string)
    requires s != [] && t != []
    ensures StartsWith(s, t) <==> s[0] == t[0] && StartsWith(s[1..], t[1..])
  {
    if |t| <= |s| {
      assert s[..|t|] == [s[0]] + s[1..][..|t| - 1];
      assert t == [t[0]] + t[1..];
    }
  }

  /** A final placeholder matches one non-empty segment without `/`,
      optionally followed by one `/`. */
  lemma FinalSegment(s: string)
    ensures Matches([Segment], s) <==>
      (s != [] && '/' !in s) || (|s| >= 2 && s[|s| - 1] == '/' && '/' !in s[..|s| - 1])
  {
    var p: Pattern := [Segment];
    assert p[1..] == [];
    if s != [] && '/' !in s {
      assert s[..|s|] == s;
      assert s[|s|..] == [];
    }
    if |s| >= 2 && s[|s| - 1] == '/' && '/' !in s[..|s| - 1] {
      assert s[|s| - 1..] == "/";
    }
    if Matches(p, s) {
      var k :| 1 <= k <= |s| && '/' !in s[..k] && Matches(p[1..], s[k..]);
      if k < |s| {
        assert s[k..] == "/";
        assert k == |s| - 1;
      } else {
        assert s[..k] == s;
      }
    }
  }

  /** `url.split("?")[0]`: everything before the first `?`. */
  function StripQuery(url: string): (r: string)
    ensures '?' !in r && |r| <= |url| && r == url[..|r|]
    ensures |r| < |url| ==> url[|r|] == '?'
  {
    url[..IndexOf(url, '?')]
  }

  /** Appending a query string does not change what is matched. */
  lemma QueryIgnored(path: string, query: string)
    requires '?' !in path
    ensures StripQuery(path + "?" + query) == path
  {
    var url := path + "?" + query;
    assert url[|path|] == '?';
    IndexOfFirst(url, '?', |path|);
    assert url[..|path|] == path;
  }

  const LoaderRoutes: seq<string> := ["/news/[slug]", "/events/[slug]", "/collections/[id]"]

  /** `matchRoute`: some loader route matches the URL without its query. */
  predicate MatchRoute(routes: seq<string>, url: string)
    ensures MatchRoute(routes, url) ==> exists i | 0 <= i < |routes| :: |Compile(routes[i])| <= |StripQuery(url)|
  {
    exists i | 0 <= i < |routes| :: Matches(Compile(routes[i]), StripQuery(url))
  }

  /** A route `prefix[name]` with a placeholder-free prefix compiles to
      the prefix's literals followed by one segment. */
  lemma {:induction false} CompileSimple(prefix: string, name: string)
    requires '[' !in prefix && ']' !in name
    ensures Compile(prefix + "[" + name + "]") == Literal(prefix) + [Segment]
    decreases |prefix|
  {
    var route := prefix + "[" + name + "]";
    SubstituteSimple(prefix, name);
  }

  lemma {:induction false} SubstituteSimple(prefix: string, name: string)
    requires '[' !in prefix && ']' !in name
    ensures Substitute(prefix + "[" + name + "]") == Literal(prefix) + [Segment]
    decreases |prefix|
  {
    var route := prefix + "[" + name + "]";
    if prefix == [] {
      assert route[0] == '[';
      var rest := route[1..];
      assert rest == name + "]";
      IndexOfFirst(rest, ']', |name|);
      assert rest[|name| + 1..] == [];
    } else {
      assert route[1..] == prefix[1..] + "[" + name + "]";
      SubstituteSimple(prefix[1..], name);
    }
  }

  /** A loader route `prefix[name]` matches exactly the URLs whose path
      is the prefix followed by one non-empty segment without `/`, with
      at most one trailing `/`, whatever the query. */
  lemma RouteMeaning(prefix: string, name: string, url: string)
    requires '[' !in prefix && ']' !in name
    ensures var path := StripQuery(url);
      Matches(Compile(prefix + "[" + name + "]"), path) <==>
        && StartsWith(path, prefix)
        && var rest := path[|prefix|..];
           (rest != [] && '/' !in rest) || (|rest| >= 2 && rest[|rest| - 1] == '/' && '/' !in rest[..|rest| - 1])
  {
    var path := StripQuery(url);
    CompileSimple(prefix, name);
    LiteralMatches(prefix, [Segment], path);
    if StartsWith(path, prefix) {
      FinalSegment(path[|prefix|..]);
    }
  }

  /** The loader's two flags. */
  datatype Loader = Loader(loading: bool, shouldShowLoader: bool)

  /** `handleStart`: both flags rise for a matching URL; otherwise
      nothing changes. */
  function HandleStart(st: Loader, url: string): (r: Loader)
    ensures MatchRoute(LoaderRoutes, url) ==> r == Loader(true, true)
    ensures !MatchRoute(LoaderRoutes, url) ==> r == st
  {
    if MatchRoute(LoaderRoutes, url) then Loader(true, true) else st
  }

  /** `handleStop`: `loading` drops at once; the overlay is removed by
      the timer (`HideTimer`) half a second later. */
  function HandleStop(st: Loader): (r: Loader)
    ensures !r.loading && r.shouldShowLoader == st.shouldShowLoader
  {
    st.(loading := false)
  }

  /** The timer scheduled by `handleStop`. */
  function HideTimer(st: Loader): (r: Loader)
    ensures !r.shouldShowLoader && r.loading == st.loading
  {
    st.(shouldShowLoader := false)
  }

  const NewsPrefix: string := "/news/"

  /** The news route as written: its prefix and one placeholder. */
  lemma NewsRoute()
    ensures LoaderRoutes[0] == NewsPrefix + "[" + "slug" + "]"
    ensures '[' !in NewsPrefix && ']' !in "slug"
  {
  }

  /** The news route on a path without a query: the prefix and one
      non-empty segment, optionally followed by one `/`. */
  lemma NewsPathMeaning(path: string)
    requires '?' !in path
    ensures Matches(Compile(LoaderRoutes[0]), path) <==>
      && StartsWith(path, NewsPrefix)
      && var rest := path[|NewsPrefix|..];
         (rest != [] && '/' !in rest) || (|rest| >= 2 && rest[|rest| - 1] == '/' && '/' !in rest[..|rest| - 1])
  {
    var route := NewsPrefix + "[" + "slug" + "]";
    assert Compile(LoaderRoutes[0]) == Compile(route) && '[' !in NewsPrefix && ']' !in "slug" by {
      NewsRoute();
    }
    assert StripQuery(path) == path;
    RouteMeaning(NewsPrefix, "slug", path);
  }

  /** A news article, with or without a query string, raises the
      loader. */
  lemma ArticleRaisesLoader(st: Loader, slug: string, query: string)
    requires slug != [] && '/' !in slug && '?' !in slug
    ensures HandleStart(st, "/news/" + slug + "?" + query) == Loader(true, true)
  {
    var path := NewsPrefix + slug;
    var url := path + "?" + query;
    QueryIgnored(path, query);
    assert '?' !in path by {
      assert '?' !in NewsPrefix;
    }
    NewsPathMeaning(path);
    assert path[|NewsPrefix|..] == slug;
    assert StartsWith(path, NewsPrefix);
    assert Matches(Compile(LoaderRoutes[0]), StripQuery(url));
  }

  /** The news index itself does not raise the loader. */
  lemma IndexNotMatched(url: string)
    requires url == "/news/"
    ensures !Matches(Compile(LoaderRoutes[0]), url)
  {
    assert url == NewsPrefix;
    assert '?' !in NewsPrefix;
    NewsPathMeaning(url);
    assert url[|NewsPrefix|..] == [];
  }

  /** A path one level deeper than the placeholder does not match. */
  lemma DeeperNotMatched(url: string)
    requires url == "/news/a/b"
    ensures !Matches(Compile(LoaderRoutes[0]), url)
  {
    assert url == NewsPrefix + "a/b";
    assert '?' !in url;
    NewsPathMeaning(url);
    var rest := url[|NewsPrefix|..];
    assert rest == "a/b";
    assert rest[..|rest| - 1] == "a/";
  }
}

=== FILE: catalog_diff.dfy ===
/** The component catalog diff (`listComponents` and the route handler in
    architecture/pages/api/plasmic-lib/listComponents.ts). Every local
    `(category, component)` directory is labelled against the remote
    catalog as new, modified or up to date; names also go to the "new" or
    "updated" list. The directory listing, the marker files and the two
    fetch results are inputs. */
module CatalogDiff {
  import opened Wrappers
  import opened JsStrings
  import opened Versions

  datatype Status = New | Modify | UpToDate

  /** One entry of `componentsList`. */
  datatype ComponentRecord = ComponentRecord(localVersion: string, remoteVersion: string, status: Status, category: string)

  /** A component directory with the content of its `version` marker file, if any. */
  datatype LocalComponent = LocalComponent(name: string, versionFile: Option<string>)

  /** A category directory with its component directories, in listing order. */
  datatype LocalCategory = LocalCategory(name: string, components: seq<LocalComponent>)

  /** An element of the remote `components` array; `version` is `None` when
      the field is missing. */
  datatype RemoteEntry = RemoteEntry(name: string, category: string, version: Option<string>)

  /** The parsed remote document: its `components` field is an array, or
      something else, or the document itself is `null`. */
  datatype RemoteData = Components(entries: seq<RemoteEntry>) | NotAnArray | NullDocument

  /** A fetch either fails (network error, non-OK status or unparsable
      body) or yields a parsed document. */
  datatype Fetch = FetchFailed | Fetched(data: RemoteData)

  /** Which list, if any, a component's name is pushed to. */
  datatype Target = NoList | NewList | UpdatedList

  datatype Verdict = Verdict(remoteVersion: string, status: Status, target: Target)

  /** The result of `listComponents`. */
  datatype Listing = Listing(componentsList: map<string, ComponentRecord>, newComponents: seq<string>, updatedComponents: seq<string>)

  /** A component as the loop visits it: its category and itself. */
  datatype Item = Item(category: string, component: LocalComponent)

  /** The trimmed marker-file content, or "N/A" without a marker file. */
  function LocalVersion(c: LocalComponent): (v: string)
    ensures c.versionFile.None? ==> v == "N/A"
    ensures c.versionFile.Some? ==> exists i, j :: 0 <= i <= j <= |c.versionFile.value| && v == c.versionFile.value[i..j]
    ensures c.versionFile.Some? ==> v == [] || (!IsSpace(v[0]) && !IsSpace(v[|v| - 1]))
    ensures c.versionFile.Some? ==> v == Trim(c.versionFile.value)
  {
    match c.versionFile
    case None => "N/A"
    case Some(text) => Trim(text)
  }

  predicate Matches(e: RemoteEntry, name: string, category: string) {
    e.name == name && e.category == category
  }

  /** The index of the first entry matching both name and category, or
      `|entries|` when there is none. */
  function FindIndex(entries: seq<RemoteEntry>, name: string, category: string): (k: nat)
    ensures k <= |entries|
    ensures forall i :: 0 <= i < k ==> !Matches(entries[i], name, category)
    ensures k < |entries| ==> Matches(entries[k], name, category)
  {
    if entries == [] then 0
    else if Matches(entries[0], name, category) then 0
    else 1 + FindIndex(entries[1..], name, category)
  }

  /** `remoteData.components.find(...)`, or `None` when `components` is not
      an array. A failed fetch leaves the initial empty array. */
  function FindRemote(data: RemoteData, name: string, category: string): (r: Option<RemoteEntry>)
    requires !data.NullDocument?
    ensures data.NotAnArray? ==> r.None?
    ensures r.Some? ==> Matches(r.value, name, category) && r.value in data.entries
    ensures data.Components? && r.None? ==> forall i :: 0 <= i < |data.entries| ==> !Matches(data.entries[i], name, category)
    ensures data.Components? && r.Some? ==>
      exists k :: 0 <= k < |data.entries| && data.entries[k] == r.value && forall i :: 0 <= i < k ==> !Matches(data.entries[i], name, category)
  {
    match data
    case NotAnArray => None
    case Components(entries) =>
      var k := FindIndex(entries, name, category);
      if k < |entries| then Some(entries[k]) else None
  }

  /** `remoteComponent.version || 'N/A'` */
  function RemoteVersion(e: RemoteEntry): (v: string)
    ensures v != []
    ensures e.version.Some? && e.version.value != [] ==> v == e.version.value
    ensures e.version.None? || e.version.value == [] ==> v == "N/A"
  {
    match e.version
    case Some(s) => if s == [] then "N/A" else s
    case None => "N/A"
  }

  /** The decision for one component, given its local version and its
      remote match. */
  function Classify(local: string, found: Option<RemoteEntry>): (v: Verdict)
    ensures found.None? ==> v == Verdict("N/A", New, NoList)
    ensures found.Some? ==> v.remoteVersion == RemoteVersion(found.value)
    ensures found.Some? ==> (v.target == NewList <==> v.status == New)
    ensures v.target == UpdatedList <==> v.status == Modify
    ensures found.Some? && (v.remoteVersion == "N/A" || v.remoteVersion == "unknown") ==> v.status == New
    ensures found.Some? && v.remoteVersion != "N/A" && v.remoteVersion != "unknown" ==>
      && (v.status == UpToDate <==> CompareVersions(local, v.remoteVersion) == 0)
      && (v.status == Modify <==> CompareVersions(local, v.remoteVersion) == 1)
      && (v.status == New <==> CompareVersions(local, v.remoteVersion) == -1)
  {
    match found
    case None => Verdict("N/A", New, NoList)
    case Some(e) =>
      var remote := RemoteVersion(e);
      if remote == "N/A" || remote == "unknown" then Verdict(remote, New, NewList)
      else
        var c := CompareVersions(local, remote);
        if c == 0 then Verdict(remote, UpToDate, NoList)
        else if c > 0 then Verdict(remote, Modify, UpdatedList)
        else Verdict(remote, New, NewList)
  }

  function VerdictOf(data: RemoteData, it: Item): Verdict
    requires !data.NullDocument?
  {
    Classify(LocalVersion(it.component), FindRemote(data, it.component.name, it.category))
  }

  function RecordOf(data: RemoteData, it: Item): (r: ComponentRecord)
    requires !data.NullDocument?
    ensures r.category == it.category && r.localVersion == LocalVersion(it.component)
  {
    var v := VerdictOf(data, it);
    ComponentRecord(LocalVersion(it.component), v.remoteVersion, v.status, it.category)
  }

  /** Pushes `name` to the list the verdict names. */
  function Push(l: Listing, name: string, t: Target): (r: Listing)
    ensures t == NewList ==> r.newComponents == l.newComponents + [name] && r.updatedComponents == l.updatedComponents
    ensures t == UpdatedList ==> r.updatedComponents == l.updatedComponents + [name] && r.newComponents == l.newComponents
    ensures t == NoList ==> r.newComponents == l.newComponents && r.updatedComponents == l.updatedComponents
    ensures r.componentsList == l.componentsList
  {
    match t
    case NoList => l
    case NewList => l.(newComponents := l.newComponents + [name])
    case UpdatedList => l.(updatedComponents := l.updatedComponents + [name])
  }

  /** The loop over the flattened components, one body run per item. */
  function Run(data: RemoteData, items: seq<Item>): (l: Listing)
    requires !data.NullDocument?
    ensures |l.newComponents| + |l.updatedComponents| <= |items|
    ensures l.componentsList.Keys == Names(items)
  {
    if items == [] then Listing(map[], [], [])
    else
      var init := items[..|items| - 1];
      var it := items[|items| - 1];
      var prev := Run(data, init);
      var v := VerdictOf(data, it);
      var pushed := Push(prev, it.component.name, v.target);
      pushed.(componentsList := pushed.componentsList[it.component.name := RecordOf(data, it)])
  }

  /** The component names among `items`. */
  function Names(items: seq<Item>): set<string> {
    if items == [] then {} else Names(items[..|items| - 1]) + {items[|items| - 1].component.name}
  }

  lemma {:induction false} NamesMeaning(items: seq<Item>, n: string)
    ensures n in Names(items) <==> exists i :: 0 <= i < |items| && items[i].component.name == n
  {
    if items != [] {
      var init := items[..|items| - 1];
      NamesMeaning(init, n);
      if exists i :: 0 <= i < |init| && init[i].component.name == n {
        var i :| 0 <= i < |init| && init[i].component.name == n;
        assert items[i] == init[i];
      }
      if exists i :: 0 <= i < |items| && items[i].component.name == n {
        var i :| 0 <= i < |items| && items[i].component.name == n;
        if i < |init| {
          assert init[i] == items[i];
        }
      }
    }
  }

  /** The categories' component directories, category by category. */
  function Items(cats: seq<LocalCategory>): (items: seq<Item>)
    ensures |items| == Total(cats)
  {
    if cats == [] then []
    else
      var c := cats[0];
      seq(|c.components|, i requires 0 <= i < |c.components| => Item(c.name, c.components[i])) + Items(cats[1..])
  }

  function Total(cats: seq<LocalCategory>): nat {
    if cats == [] then 0 else |cats[0].components| + Total(cats[1..])
  }

  /** The categories before `c` hold fewer components than all of them. */
  lemma {:induction false} TotalPrefix(cats: seq<LocalCategory>, c: nat)
    requires c < |cats|
    ensures Total(cats[..c]) + |cats[c].components| <= Total(cats)
    decreases c
  {
    if c > 0 {
      assert cats[..c][1..] == cats[1..][..c - 1];
      TotalPrefix(cats[1..], c - 1);
    }
  }

  /** Category by category, in listing order: the `j`-th component of
      category `c` comes after every component of the earlier
      categories. */
  lemma {:induction false} ItemsAt(cats: seq<LocalCategory>, c: nat, j: nat)
    requires c < |cats| && j < |cats[c].components|
    ensures Total(cats[..c]) + j < |Items(cats)|
    ensures Items(cats)[Total(cats[..c]) + j] == Item(cats[c].name, cats[c].components[j])
    decreases c
  {
    TotalPrefix(cats, c);
    var first := cats[0];
    var block := seq(|first.components|, i requires 0 <= i < |first.components| => Item(first.name, first.components[i]));
    assert Items(cats) == block + Items(cats[1..]);
    if c > 0 {
      assert cats[..c][1..] == cats[1..][..c - 1];
      assert Total(cats[..c]) == |first.components| + Total(cats[1..][..c - 1]);
      ItemsAt(cats[1..], c - 1, j);
    }
  }

  /** The remote document the loop reads: a failed fetch leaves the
      initial `{ components: [] }`. */
  function Effective(f: Fetch): (d: RemoteData)
    ensures f.FetchFailed? ==> d == Components([])
  {
    match f
    case FetchFailed => Components([])
    case Fetched(d) => d
  }

  /** `listComponents()`: `None` when it rejects, which happens when the
      remote document is `null` and there is a component to look up
      (reading `components` of `null` throws). */
  function ListComponents(cats: seq<LocalCategory>, fetch: Fetch): (r: Option<Listing>)
    ensures r.None? <==> Effective(fetch).NullDocument? && Total(cats) > 0
    ensures r.Some? ==> |r.value.newComponents| + |r.value.updatedComponents| <= Total(cats)
  {
    var items := Items(cats);
    var data := Effective(fetch);
    if data.NullDocument? then
      if items == [] then Some(Listing(map[], [], [])) else None
    else Some(Run(data, items))
  }

  /** The names of the items whose verdict pushes to list `t`, in order:
      an independent statement of what the two lists hold. */
  function Pushed(data: RemoteData, items: seq<Item>, t: Target): seq<string>
    requires !data.NullDocument?
  {
    if items == [] then []
    else
      var rest := Pushed(data, items[..|items| - 1], t);
      var it := items[|items| - 1];
      if VerdictOf(data, it).target == t then rest + [it.component.name] else rest
  }

  /** `newComponents` and `updatedComponents` are exactly the names whose
      verdict targets them, in visiting order. */
  lemma {:induction false} ListsArePushed(data: RemoteData, items: seq<Item>)
    requires !data.NullDocument?
    ensures Run(data, items).newComponents == Pushed(data, items, NewList)
    ensures Run(data, items).updatedComponents == Pushed(data, items, UpdatedList)
  {
    if items != [] {
      ListsArePushed(data, items[..|items| - 1]);
    }
  }

  /** The record stored under a name is the one of the LAST item with that
      name: a later component with the same name in another category
      overwrites an earlier one. */
  lemma {:induction false} LastWriteWins(data: RemoteData, items: seq<Item>, i: nat)
    requires !data.NullDocument?
    requires i < |items|
    requires forall j :: i < j < |items| ==> items[j].component.name != items[i].component.name
    ensures items[i].component.name in Run(data, items).componentsList
    ensures Run(data, items).componentsList[items[i].component.name] == RecordOf(data, items[i])
  {
    NamesMeaning(items, items[i].component.name);
    if i < |items| - 1 {
      LastWriteWins(data, items[..|items| - 1], i);
    }
  }

  /** Without remote data (failed fetch or non-array `components`), every
      component is new with remote version "N/A", and both lists stay
      empty. */
  lemma {:induction false} NoRemoteData(data: RemoteData, items: seq<Item>)
    requires data == Components([]) || data == NotAnArray
    ensures Run(data, items).newComponents == [] && Run(data, items).updatedComponents == []
    ensures forall n :: n in Run(data, items).componentsList ==>
      Run(data, items).componentsList[n].status == New && Run(data, items).componentsList[n].remoteVersion == "N/A"
  {
    if items != [] {
      NoRemoteData(data, items[..|items| - 1]);
    }
  }

  /** A record's status is determined by its two versions alone: equal
      padded segments give up to date, the local side ahead at the first
      difference gives modify, everything else is new. */
  lemma StatusMeaning(data: RemoteData, it: Item)
    requires !data.NullDocument?
    requires FindRemote(data, it.component.name, it.category).Some?
    ensures var r := RecordOf(data, it);
      var a, b := Segments(r.localVersion), Segments(r.remoteVersion);
      && (r.status == UpToDate <==> r.remoteVersion != "N/A" && r.remoteVersion != "unknown" && forall i: nat :: At(a, i) == At(b, i))
      && (r.status == Modify <==>
            r.remoteVersion != "N/A" && r.remoteVersion != "unknown" && exists k: nat :: k < Max(|a|, |b|) && AgreeBelow(a, b, k) && At(a, k) > At(b, k))
  {
    var r := RecordOf(data, it);
    var v := VerdictOf(data, it);
    assert r.status == v.status && r.remoteVersion == v.remoteVersion;
    var a, b := Segments(r.localVersion), Segments(r.remoteVersion);
    assert AgreeBelow(a, b, 0);
    CompareZeroMeaning(a, b);
    CompareFromMeaning(a, b, 0, Max(|a|, |b|));
    assert CompareVersions(r.localVersion, r.remoteVersion) == CompareFrom(a, b, 0, Max(|a|, |b|));
  }

  /** What the route handler writes before it answers. */
  datatype Written = Written(componentsList: Option<map<string, ComponentRecord>>, dataFile: Option<RemoteData>)

  datatype Response = Response(status: int, newComponents: seq<string>, updatedComponents: seq<string>)

  /** The handler: list, write `componentsList.json`, fetch the catalog
      again, write `data.json`, answer 200 with the two lists; any failure
      on the way answers 500, keeping what was already written. */
  function Handler(cats: seq<LocalCategory>, first: Fetch, second: Fetch): (r: (Response, Written))
    ensures r.0.status == 200 || r.0.status == 500
    ensures r.0.status == 200 <==> ListComponents(cats, first).Some? && second.Fetched?
    ensures r.0.status == 200 ==>
      && r.0.newComponents == ListComponents(cats, first).value.newComponents
      && r.0.updatedComponents == ListComponents(cats, first).value.updatedComponents
      && r.1 == Written(Some(ListComponents(cats, first).value.componentsList), Some(second.data))
    ensures r.0.status == 500 ==> r.0.newComponents == [] && r.0.updatedComponents == [] && r.1.dataFile.None?
    ensures r.1.componentsList.Some? <==> ListComponents(cats, first).Some?
  {
    match ListComponents(cats, first)
    case None => (Response(500, [], []), Written(None, None))
    case Some(l) =>
      match second
      case FetchFailed => (Response(500, [], []), Written(Some(l.componentsList), None))
      case Fetched(d) => (Response(200, l.newComponents, l.updatedComponents), Written(Some(l.componentsList), Some(d)))
  }
}

=== FILE: data_grid.dfy ===
/** The table component (plasmic-library/others/DataGrid/DataGrid.tsx):
    the sort state and its three-step cycle, the choice and order of
    columns, the row comparator with its placement of empty values,
    pagination, cell rendering and the CSV export text. */
module DataGrid {
  import opened Wrappers
  import opened JsStrings
  import opened JsArrays
  import opened StableSort

  /** A cell: `undefined` (also what a missing key reads as), `null`, or
      a string. */
  datatype Cell = Undefined | Null | Str(s: string)

  /** A row object, its keys in insertion order. */
  type Row = seq<(string, Cell)>

  /** `row[key]`: the value stored under `key`, `undefined` if none. */
  function Get(row: Row, key: string): Cell {
    if row == [] then Undefined
    else if row[0].0 == key then row[0].1
    else Get(row[1..], key)
  }

  /** `Object.keys(row)` */
  function Keys(row: Row): (r: seq<string>)
    ensures |r| == |row|
    ensures forall i :: 0 <= i < |row| ==> r[i] == row[i].0
  {
    if row == [] then [] else [row[0].0] + Keys(row[1..])
  }

  // ---------------------------------------------------------------------
  // Sort state
  // ---------------------------------------------------------------------

  datatype Direction = Asc | Desc | Unsorted

  datatype SortState = SortState(field: string, direction: Direction)

  /** The state before any click: field `id`, unsorted. */
  const InitialSort: SortState := SortState("id", Unsorted)

  /** `handleSort(field)` */
  function HandleSort(prev: SortState, field: string): (r: SortState)
    ensures r.field == field
    ensures prev.field != field ==> r.direction == Asc
    ensures prev.field == field ==>
      r.direction == match prev.direction
        case Asc => Desc
        case Desc => Unsorted
        case Unsorted => Asc
  {
    SortState(field,
      if prev.field == field then
        (if prev.direction == Asc then Desc else if prev.direction == Desc then Unsorted else Asc)
      else Asc)
  }

  /** Three clicks on the sorted column bring back its direction; the
      first click on another column sorts it ascending. */
  lemma SortCycle(s: SortState, other: string)
    ensures HandleSort(HandleSort(HandleSort(s, s.field), s.field), s.field) == s
    ensures other != s.field ==> HandleSort(s, other) == SortState(other, Asc)
  {
  }

  // ---------------------------------------------------------------------
  // Columns
  // ---------------------------------------------------------------------

  /** `allColumns`: nothing without data; otherwise the first row's keys,
      in `columnOrder`'s order when it is given. */
  function AllColumns(data: seq<Row>, columnOrder: Option<seq<string>>): (r: seq<string>)
    ensures data == [] ==> r == []
    ensures data != [] && columnOrder.None? ==> r == Keys(data[0])
    ensures data != [] && columnOrder.Some? ==>
      forall i :: 0 <= i < |r| ==> r[i] in columnOrder.value && r[i] in Keys(data[0])
    ensures data != [] && columnOrder.Some? ==>
      r == Filter(columnOrder.value, (c: string) => c in Keys(data[0]))
  {
    if data == [] then []
    else
      var cols := Keys(data[0]);
      match columnOrder
      case Some(order) => Filter(order, (c: string) => c in cols)
      case None => cols
  }

  /** `columns`: the visible columns among `allColumns`, in the order
      the caller lists them. */
  function Columns(all: seq<string>, visible: Option<seq<string>>): (r: seq<string>)
    ensures forall i :: 0 <= i < |r| ==> r[i] in all
    ensures visible.None? ==> r == all
    ensures visible.Some? ==> forall i :: 0 <= i < |visible.value| && visible.value[i] in all ==> visible.value[i] in r
    ensures visible.Some? ==> forall i :: 0 <= i < |r| ==> r[i] in visible.value
    ensures visible.Some? ==> r == Filter(visible.value, (c: string) => c in all)
  {
    match visible
    case Some(v) => Filter(v, (c: string) => c in all)
    case None => all
  }

  /** Listing a column order that already matches the data changes
      nothing, and splitting the listed order splits the result. */
  lemma ColumnOrderLaws(data: seq<Row>, order: seq<string>, more: seq<string>)
    requires data != []
    requires forall i :: 0 <= i < |order| ==> order[i] in Keys(data[0])
    ensures AllColumns(data, Some(order)) == order
    ensures AllColumns(data, Some(order + more)) == order + AllColumns(data, Some(more))
  {
    var cols := Keys(data[0]);
    var keep := (c: string) => c in cols;
    FilterAll(order, keep);
    FilterAppend(order, more, keep);
  }

  // ---------------------------------------------------------------------
  // Sorting rows
  // ---------------------------------------------------------------------

  /** JavaScript truthiness of a cell: a non-empty string. */
  predicate Truthy(c: Cell) {
    c.Str? && c.s != []
  }

  /** The comparator of `sortedData` for a sorted direction. `lc` is
      `localeCompare`; `time` is `new Date(value).getTime()`. A row whose
      value is empty for the field ranks after a filled one ascending and
      before it descending; two empty values tie. */
  function CompareRows(field: string, asc: bool, lc: (string, string) -> int, time: string -> int, a: Row, b: Row): (r: int)
    ensures EmptyFor(field)(a) && EmptyFor(field)(b) ==> r == 0
    ensures EmptyFor(field)(a) && !EmptyFor(field)(b) ==> (if asc then r > 0 else r < 0)
    ensures !EmptyFor(field)(a) && EmptyFor(field)(b) ==> (if asc then r < 0 else r > 0)
  {
    var x := Get(a, field);
    var y := Get(b, field);
    if field == "created_at" then
      if !Truthy(x) && !Truthy(y) then 0
      else if !Truthy(x) then (if asc then 1 else -1)
      else if !Truthy(y) then (if asc then -1 else 1)
      else if asc then time(x.s) - time(y.s) else time(y.s) - time(x.s)
    else if x.Null? && y.Null? then 0
    else if x.Null? then (if asc then 1 else -1)
    else if y.Null? then (if asc then -1 else 1)
    else if x.Str? && y.Str? then (if asc then lc(x.s, y.s) else lc(y.s, x.s))
    else 0
  }

  /** Descending order compares as ascending order with the rows
      swapped. */
  lemma DescendingSwaps(field: string, lc: (string, string) -> int, time: string -> int, a: Row, b: Row)
    ensures CompareRows(field, false, lc, time, a, b) == CompareRows(field, true, lc, time, b, a)
  {
  }

  function Comparator(field: string, asc: bool, lc: (string, string) -> int, time: string -> int): (Row, Row) -> int {
    (a: Row, b: Row) => CompareRows(field, asc, lc, time, a, b)
  }

  /** `sortedData` */
  function SortedData(data: seq<Row>, sort: SortState, lc: (string, string) -> int, time: string -> int): (r: seq<Row>)
    ensures sort.direction == Unsorted ==> r == data
    ensures multiset(r) == multiset(data)
  {
    if sort.direction == Unsorted then data
    else Sort(data, Comparator(sort.field, sort.direction == Asc, lc, time))
  }

  /** The rows whose value the comparator treats as empty: `null` for
      most fields (an `undefined` value is not empty here), any falsy
      value for `created_at`. */
  function EmptyFor(field: string): Row -> bool {
    (r: Row) => if field == "created_at" then !Truthy(Get(r, field)) else Get(r, field).Null?
  }

  /** Empty values sort last ascending and first descending, whatever
      `localeCompare` and the date parser answer. */
  lemma EmptiesPlaced(data: seq<Row>, sort: SortState, lc: (string, string) -> int, time: string -> int)
    ensures var r := SortedData(data, sort, lc, time);
      var empty := EmptyFor(sort.field);
      && (sort.direction == Asc ==>
            forall i, j :: 0 <= i < j < |r| && empty(r[i]) ==> empty(r[j]))
      && (sort.direction == Desc ==>
            forall i, j :: 0 <= i < j < |r| && !empty(r[i]) ==> !empty(r[j]))
  {
    var empty := EmptyFor(sort.field);
    if sort.direction == Asc {
      var cmp := Comparator(sort.field, true, lc, time);
      assert Separates(cmp, empty);
      SortGroupsLast(data, cmp, empty);
    } else if sort.direction == Desc {
      var cmp := Comparator(sort.field, false, lc, time);
      var filled := (r: Row) => !empty(r);
      assert Separates(cmp, filled);
      SortGroupsLast(data, cmp, filled);
    }
  }

  // ---------------------------------------------------------------------
  // Pagination
  // ---------------------------------------------------------------------

  const DefaultPageSize: int := 10

  /** `(currentPage - 1) * pageSize`, the index of a page's first row. */
  function PageStart(currentPage: int, pageSize: int): (start: int)
    ensures currentPage >= 1 && pageSize >= 0 ==> start >= 0
  {
    StartNonNegative(currentPage, pageSize);
    (currentPage - 1) * pageSize
  }

  lemma StartNonNegative(currentPage: int, pageSize: int)
    ensures currentPage >= 1 && pageSize >= 0 ==> (currentPage - 1) * pageSize >= 0
  {
    if currentPage >= 1 && pageSize >= 0 {
      MulMono(0, currentPage - 1, pageSize);
    }
  }

  /** `paginatedData` */
  function Page(sorted: seq<Row>, currentPage: int, pageSize: int): (r: seq<Row>)
    ensures pageSize >= 0 && currentPage >= 1 ==> |r| <= pageSize
    ensures pageSize >= 0 && currentPage >= 1 && PageStart(currentPage, pageSize) <= |sorted| ==>
      var start := PageStart(currentPage, pageSize);
      r == sorted[start..if start + pageSize <= |sorted| then start + pageSize else |sorted|]
  {
    var start := PageStart(currentPage, pageSize);
    Slice(sorted, start, start + pageSize)
  }

  /** `Math.ceil(total / pageSize)` */
  function TotalPages(total: int, pageSize: int): (r: int)
    requires pageSize >= 1
    ensures (r - 1) * pageSize < total <= r * pageSize
  {
    -((-total) / pageSize)
  }

  /** Row `i` is shown on page `i / pageSize + 1` at position
      `i % pageSize`, and that page exists. */
  lemma PageOfRow(sorted: seq<Row>, pageSize: int, i: int)
    requires pageSize >= 1 && 0 <= i < |sorted|
    ensures var p := i / pageSize + 1;
      && 1 <= p <= TotalPages(|sorted|, pageSize)
      && i % pageSize < |Page(sorted, p, pageSize)|
      && Page(sorted, p, pageSize)[i % pageSize] == sorted[i]
  {
    var p := i / pageSize + 1;
    var start := (p - 1) * pageSize;
    assert start + i % pageSize == i;
    var t := TotalPages(|sorted|, pageSize);
    if p > t {
      assert (p - 1) * pageSize >= t * pageSize by {
        assert p - 1 >= t;
        MulMono(t, p - 1, pageSize);
      }
    }
  }

  lemma MulMono(a: int, b: int, c: int)
    requires a <= b && c >= 0
    ensures a * c <= b * c
  {
  }

  /** The previous and next buttons: the page asked for, if the button
      fires. */
  function Navigate(currentPage: int, totalPages: int, forward: bool): (r: Option<int>)
    ensures r.Some? ==> 1 <= r.value <= totalPages || !(1 <= currentPage <= totalPages)
    ensures r.Some? ==> r.value == currentPage + (if forward then 1 else -1)
    ensures forward ==> (r.Some? <==> currentPage < totalPages)
    ensures !forward ==> (r.Some? <==> currentPage > 1)
  {
    if forward then (if currentPage < totalPages then Some(currentPage + 1) else None)
    else if currentPage > 1 then Some(currentPage - 1) else None
  }

  /** The controls are shown only when there is more than one page. */
  function PaginationShown(totalPages: int, mounted: bool): (b: bool)
    ensures b <==> mounted && Navigate(1, totalPages, true).Some?
    ensures b ==> Navigate(1, totalPages, true) == Some(2)
    ensures b ==> Navigate(totalPages, totalPages, false) == Some(totalPages - 1)
    ensures !mounted ==> !b
  {
    totalPages > 1 && mounted
  }

  /** From any existing page both buttons stay within the pages, and
      going forward then back returns to the same page. */
  lemma NavigateRoundTrip(p: int, total: int)
    requires 1 <= p < total
    ensures Navigate(p, total, true) == Some(p + 1)
    ensures Navigate(p + 1, total, false) == Some(p)
    ensures Navigate(total, total, true).None? && Navigate(1, total, false).None?
  {
  }

  // ---------------------------------------------------------------------
  // Cells and export
  // ---------------------------------------------------------------------

  const NotAvailable: string := "N/A"

  predicate IsDateColumn(column: string) {
    column == "date_start" || column == "date_end" || column == "created_at" || column == "updated_at"
  }

  /** A rendered cell: plain text, or text in the type or status tag. */
  datatype View = Plain(text: string) | TypeTag(text: string) | StatusTag(text: string)

  /** `formatDate`: "N/A" for an empty value; otherwise the formatted
      date, or the value itself when parsing or formatting throws
      (`format` returns `None`). */
  function FormatDate(value: string, format: string -> Option<string>): (r: string)
    ensures value == [] ==> r == NotAvailable
    ensures value != [] && format(value).None? ==> r == value
    ensures value != [] && format(value).Some? ==> r == format(value).value
  {
    if value == [] then NotAvailable
    else match format(value)
      case Some(t) => t
      case None => value
  }

  /** `renderCell` */
  function RenderCell(column: string, value: Cell, format: string -> Option<string>): (r: View)
    ensures !value.Str? ==> r == Plain(NotAvailable)
    ensures value.Str? && !IsDateColumn(column) ==> r.text == value.s
    ensures value.Str? && IsDateColumn(column) ==> r == Plain(FormatDate(value.s, format))
  {
    match value
    case Str(s) =>
      if IsDateColumn(column) then Plain(FormatDate(s, format))
      else if column == "type" then TypeTag(s)
      else if column == "status" then StatusTag(s)
      else Plain(s)
    case _ => Plain(NotAvailable)
  }

  /** `columnLabels[col] || col` */
  function Label(col: string, labels: map<string, string>): string {
    if col in labels && labels[col] != [] then labels[col] else col
  }

  function Labels(cols: seq<string>, labels: map<string, string>): (r: seq<string>)
    ensures |r| == |cols|
    ensures forall i :: 0 <= i < |cols| ==> r[i] == Label(cols[i], labels)
  {
    if cols == [] then [] else [Label(cols[0], labels)] + Labels(cols[1..], labels)
  }

  /** The export row keyed by name: for a name shared by several
      columns, the last of them wins. */
  function Displayed(row: Row, cols: seq<string>, name: string, labels: map<string, string>): Option<Cell>
  {
    if cols == [] then None
    else
      match Displayed(row, cols[1..], name, labels)
      case Some(c) => Some(c)
      case None => if Label(cols[0], labels) == name then Some(Get(row, cols[0])) else None
  }

  /** `"${value || ''}"` */
  function Quoted(c: Option<Cell>): string {
    "\"" + (if c.Some? && Truthy(c.value) then c.value.s else []) + "\""
  }

  function Fields(row: Row, pending: seq<string>, cols: seq<string>, labels: map<string, string>): (r: seq<string>)
    ensures |r| == |pending|
    ensures forall i :: 0 <= i < |pending| ==> r[i] == Quoted(Displayed(row, cols, Label(pending[i], labels), labels))
  {
    if pending == [] then []
    else [Quoted(Displayed(row, cols, Label(pending[0], labels), labels))] + Fields(row, pending[1..], cols, labels)
  }

  function Lines(rows: seq<Row>, cols: seq<string>, labels: map<string, string>): (r: seq<string>)
    ensures |r| == |rows|
    ensures forall i :: 0 <= i < |rows| ==> r[i] == Join(Fields(rows[i], cols, cols, labels), ',')
  {
    if rows == [] then [] else [Join(Fields(rows[0], cols, cols, labels), ',')] + Lines(rows[1..], cols, labels)
  }

  /** The CSV text of `handleExport("csv")`: the header line of labels,
      a line break, then the rows; without rows, the header line alone. */
  function Csv(rows: seq<Row>, cols: seq<string>, labels: map<string, string>): (r: string)
    ensures var header := Join(Labels(cols, labels), ',');
      && |header| < |r| && r[..|header|] == header && r[|header|] == '\n'
      && (rows == [] ==> r == header + "\n")
  {
    Join(Labels(cols, labels), ',') + "\n" + Join(Lines(rows, cols, labels), '\n')
  }

  /** With distinct labels, each exported field holds its own column's
      value. */
  lemma {:induction false} DisplayedOwn(row: Row, cols: seq<string>, k: int, labels: map<string, string>)
    requires 0 <= k < |cols|
    requires forall i, j :: 0 <= i < j < |cols| ==> Label(cols[i], labels) != Label(cols[j], labels)
    ensures Displayed(row, cols, Label(cols[k], labels), labels) == Some(Get(row, cols[k]))
    decreases |cols|
  {
    var name := Label(cols[k], labels);
    if k == 0 {
      DisplayedAbsent(row, cols[1..], name, labels);
    } else {
      DisplayedOwn(row, cols[1..], k - 1, labels);
    }
  }

  lemma {:induction false} DisplayedAbsent(row: Row, cols: seq<string>, name: string, labels: map<string, string>)
    requires forall i :: 0 <= i < |cols| ==> Label(cols[i], labels) != name
    ensures Displayed(row, cols, name, labels).None?
    decreases |cols|
  {
    if cols != [] {
      DisplayedAbsent(row, cols[1..], name, labels);
    }
  }

  /** Two columns with one name both export the later column's value. */
  lemma SharedLabel(row: Row, a: string, b: string, labels: map<string, string>)
    requires Label(a, labels) == Label(b, labels)
    ensures Fields(row, [a, b], [a, b], labels) == [Quoted(Some(Get(row, b))), Quoted(Some(Get(row, b)))]
  {
    var cols := [a, b];
    var name := Label(b, labels);
    assert cols[1..] == [b];
    assert [b][1..] == [];
    assert Displayed(row, [b], name, labels) == Some(Get(row, b));
    assert Displayed(row, cols, name, labels) == Some(Get(row, b));
  }

  /** The separator never appears in a join of pieces without it. */
  lemma {:induction false} JoinFree(parts: seq<string>, sep: char, c: char)
    requires c != sep
    requires forall i :: 0 <= i < |parts| ==> c !in parts[i]
    ensures c !in Join(parts, sep)
    decreases |parts|
  {
    if |parts| > 1 {
      JoinFree(parts[1..], sep, c);
    }
  }

  /** When no name and no exported value holds a line break, the CSV
      splits on line breaks into the header line and one line per row. */
  lemma CsvLines(rows: seq<Row>, cols: seq<string>, labels: map<string, string>)
    requires rows != []
    requires forall i :: 0 <= i < |cols| ==> '\n' !in Label(cols[i], labels)
    requires forall r, i :: 0 <= r < |rows| && 0 <= i < |cols| && Get(rows[r], cols[i]).Str? ==> '\n' !in Get(rows[r], cols[i]).s
    ensures var header := Join(Labels(cols, labels), ',');
      Split(Csv(rows, cols, labels), '\n') == [header] + Lines(rows, cols, labels)
  {
    var header := Join(Labels(cols, labels), ',');
    var lines := Lines(rows, cols, labels);
    JoinFree(Labels(cols, labels), ',', '\n');
    forall r | 0 <= r < |rows|
      ensures '\n' !in lines[r]
    {
      var fields := Fields(rows[r], cols, cols, labels);
      forall i | 0 <= i < |fields|
        ensures '\n' !in fields[i]
      {
        DisplayedFrom(rows[r], cols, Label(cols[i], labels), labels);
      }
      JoinFree(fields, ',', '\n');
    }
    var parts := [header] + lines;
    assert parts[1..] == lines;
    assert Join(parts, '\n') == Csv(rows, cols, labels);
    JoinSplit(parts, '\n');
  }

  /** An exported value is the value of one of the columns. */
  lemma {:induction false} DisplayedFrom(row: Row, cols: seq<string>, name: string, labels: map<string, string>)
    ensures var d := Displayed(row, cols, name, labels);
      d.Some? ==> exists i :: 0 <= i < |cols| && d.value == Get(row, cols[i])
    decreases |cols|
  {
    if cols != [] {
      DisplayedFrom(row, cols[1..], name, labels);
      var d := Displayed(row, cols[1..], name, labels);
      if d.Some? {
        var i :| 0 <= i < |cols[1..]| && d.value == Get(row, cols[1..][i]);
        assert cols[1..][i] == cols[i + 1];
      } else {
        assert Get(row, cols[0]) == Get(row, cols[0]);
      }
    }
  }
}

=== FILE: draggable_list.dfy ===
/** The reorderable list (plasmic-library/DraggableList/DraggableList.tsx):
    the item list, the index being dragged and the index hovered, and the
    handlers that move or remove an item and report the new list. */
module DraggableList {
  import opened Wrappers
  import opened JsArrays

  /** The component state; `None` is a `null` index. */
  datatype State<T> = State(items: seq<T>, dragging: Option<nat>, hovered: Option<nat>)

  /** A state together with the list handed to `onListChange`, if it was
      called. */
  datatype Step<T> = Step(state: State<T>, reported: Option<seq<T>>)

  /** The dragging index names an item of the list, as it does when it
      was set by `onDragStart` on a rendered item. */
  predicate DragInList<T>(st: State<T>) {
    st.dragging.Some? ==> st.dragging.value < |st.items|
  }

  /** The two `splice` calls of `onDrop`: the item at `from` is taken out
      and put back in at `to`. */
  function Move<T>(items: seq<T>, from: nat, to: nat): (r: seq<T>)
    requires from < |items|
    ensures |r| == |items|
    ensures multiset(r) == multiset(items)
    ensures to < |items| ==> r[to] == items[from]
    ensures to < |items| ==> SpliceRemove(r, to) == SpliceRemove(items, from)
  {
    var rest := SpliceRemove(items, from);
    RemovePreservesMultiset(items, from);
    InsertAddsToMultiset(rest, to, items[from]);
    RemoveAfterInsert(rest, to, items[from]);
    SpliceInsert(rest, to, items[from])
  }

  /** Moving an item back from where it landed undoes the move. */
  lemma {:induction false} MoveBack<T>(items: seq<T>, from: nat, to: nat)
    requires from < |items| && to < |items|
    ensures Move(Move(items, from, to), to, from) == items
  {
    var m := Move(items, from, to);
    InsertAfterRemove(items, from);
    assert m[to] == items[from];
    assert SpliceRemove(m, to) == SpliceRemove(items, from);
  }

  /** `onDragStart` */
  function DragStart<T>(st: State<T>, index: nat): (r: State<T>)
    ensures r.dragging == Some(index) && r.items == st.items && r.hovered == st.hovered
  {
    st.(dragging := Some(index))
  }

  /** `onDragEnter` */
  function DragEnter<T>(st: State<T>, index: nat): (r: State<T>)
    ensures r.hovered == Some(index) && r.items == st.items && r.dragging == st.dragging
  {
    st.(hovered := Some(index))
  }

  /** `onDragEnd` */
  function DragEnd<T>(st: State<T>): (r: State<T>)
    ensures r.dragging.None? && r.hovered.None? && r.items == st.items
  {
    st.(dragging := None, hovered := None)
  }

  /** `onDrop`: with two distinct indices the item moves and the new list
      is reported; otherwise nothing changes. Both indices are reset. */
  function Drop<T>(st: State<T>): (r: Step<T>)
    requires DragInList(st)
    ensures r.state.dragging.None? && r.state.hovered.None?
    ensures r.reported.Some? <==> st.dragging.Some? && st.hovered.Some? && st.dragging != st.hovered
    ensures r.reported.None? ==> r.state.items == st.items
    ensures r.reported.Some? ==> r.reported.value == r.state.items
    ensures r.reported.Some? ==>
      && |r.state.items| == |st.items|
      && multiset(r.state.items) == multiset(st.items)
      && (st.hovered.value < |st.items| ==>
            && r.state.items[st.hovered.value] == st.items[st.dragging.value]
            && SpliceRemove(r.state.items, st.hovered.value) == SpliceRemove(st.items, st.dragging.value))
  {
    if st.hovered.Some? && st.dragging.Some? && st.dragging.value != st.hovered.value then
      var updated := Move(st.items, st.dragging.value, st.hovered.value);
      Step(State(updated, None, None), Some(updated))
    else
      Step(st.(dragging := None, hovered := None), None)
  }

  /** A drag from one item onto another and back restores the list. */
  lemma DropTwiceRestores<T>(items: seq<T>, i: nat, j: nat)
    requires i < |items| && j < |items| && i != j
    ensures var first := Drop(State(items, Some(i), Some(j))).state;
      Drop(State(first.items, Some(j), Some(i))).state.items == items
  {
    MoveBack(items, i, j);
  }

  /** `removeItem`: the item at the index is deleted and the new list is
      reported. */
  function Remove<T>(st: State<T>, index: nat): (r: Step<T>)
    ensures r.reported == Some(r.state.items)
    ensures r.state.dragging == st.dragging && r.state.hovered == st.hovered
    ensures index < |st.items| ==>
      && |r.state.items| == |st.items| - 1
      && multiset(r.state.items) + multiset{st.items[index]} == multiset(st.items)
      && r.state.items == st.items[..index] + st.items[index + 1..]
  {
    var updated := SpliceRemove(st.items, index);
    assert index < |st.items| ==> multiset(updated) + multiset{st.items[index]} == multiset(st.items) by {
      if index < |st.items| {
        RemovePreservesMultiset(st.items, index);
      }
    }
    Step(st.(items := updated), Some(updated))
  }

  /** The `listItems` effect: the list is replaced by the prop and
      `onListChange` is not called. */
  function PropsChanged<T>(st: State<T>, listItems: seq<T>): (r: Step<T>)
    ensures r.state.items == listItems && r.reported.None?
    ensures r.state.dragging == st.dragging && r.state.hovered == st.hovered
  {
    Step(st.(items := listItems), None)
  }
}

=== FILE: files_handler.dfy ===
/** The read/write handler for the persisted JSON documents of the library
    page (pages/api/plasmic-lib/files.ts), as a function from the request
    and the current file map to the status code and the new file map. */
module FilesHandler {
  import opened Wrappers

  /** A query parameter: absent, one string, or repeated (an array). */
  datatype QueryValue = Missing | One(s: string) | Many(all: seq<string>)

  datatype Method = Get | Post | Put | Delete | OtherMethod

  /** A parsed JSON value. */
  datatype Json = JNull | JBool(b: bool) | JNum(n: int) | JStr(s: string) | JArr(elems: seq<Json>) | JObj(fields: seq<(string, Json)>)

  /** The request body: `null`/`undefined`, or a value whose `contenu`
      field is present or not. A non-object body (a plain string) has no
      `contenu` field. */
  datatype Body = NullishBody | BodyWith(contenu: Option<Json>)

  datatype Request = Request(action: QueryValue, fichier: QueryValue, verb: Method, body: Body)

  /** The answer: its status code and, for a read, the file text. */
  datatype Response = Response(status: int, content: Option<string>)

  /** `!contenu || typeof contenu !== "object"` rejects everything but an
      array or a (non-null) object. */
  predicate IsObject(c: Option<Json>) {
    c.Some? && (c.value.JArr? || c.value.JObj?)
  }

  predicate IsAction(q: QueryValue, name: string) {
    q.One? && q.s == name
  }

  /** `handler(req, res)`. `files` maps each existing document name to its
      text; `stringify` is `JSON.stringify(·, null, 2)`; `writeOk` says
      whether the disk write succeeds. */
  function Handle(req: Request, files: map<string, string>, stringify: Json -> string, writeOk: bool): (r: (Response, map<string, string>))
    ensures r.1.Keys == files.Keys
    ensures r.1 != files ==> r.0.status == 200
    ensures !(req.fichier.One? && req.fichier.s != []) ==> r.0.status == 400 && r.1 == files
    ensures req.fichier.One? && req.fichier.s != [] ==>
      var f := req.fichier.s;
      && (IsAction(req.action, "read") ==>
            r.1 == files
            && (f !in files ==> r.0 == Response(404, None))
            && (f in files ==> r.0 == Response(200, Some(files[f]))))
      && (IsAction(req.action, "write") ==>
            && (req.verb != Post ==> r.0.status == 405 && r.1 == files)
            && (req.verb == Post && req.body.NullishBody? ==> r.0.status == 500 && r.1 == files)
            && (req.verb == Post && req.body.BodyWith? && !IsObject(req.body.contenu) ==> r.0.status == 400 && r.1 == files)
            && (req.verb == Post && req.body.BodyWith? && IsObject(req.body.contenu) ==>
                  && (f !in files ==> r.0.status == 400 && r.1 == files)
                  && (f in files && !writeOk ==> r.0.status == 500 && r.1 == files)
                  && (f in files && writeOk ==> r.0 == Response(200, None) && r.1 == files[f := stringify(req.body.contenu.value)])))
      && (!IsAction(req.action, "read") && !IsAction(req.action, "write") ==> r.0.status == 400 && r.1 == files)
  {
    if !(req.fichier.One? && req.fichier.s != []) then (Response(400, None), files)
    else
      var f := req.fichier.s;
      if IsAction(req.action, "read") then
        if f !in files then (Response(404, None), files)
        else (Response(200, Some(files[f])), files)
      else if IsAction(req.action, "write") then
        if req.verb != Post then (Response(405, None), files)
        else match req.body
          case NullishBody => (Response(500, None), files)
          case BodyWith(c) =>
            if !IsObject(c) then (Response(400, None), files)
            else if f !in files then (Response(400, None), files)
            else if !writeOk then (Response(500, None), files)
            else (Response(200, None), files[f := stringify(c.value)])
      else (Response(400, None), files)
  }

  /** A successful write followed by a read of the same document returns
      the written text; every other document keeps its text. */
  lemma WriteThenRead(write: Request, read: Request, files: map<string, string>, stringify: Json -> string, writeOk: bool, g: string)
    requires Handle(write, files, stringify, writeOk).0.status == 200
    requires IsAction(write.action, "write")
    requires IsAction(read.action, "read") && read.fichier == write.fichier
    requires g in files && !(write.fichier.One? && write.fichier.s == g)
    ensures var after := Handle(write, files, stringify, writeOk).1;
      && Handle(read, after, stringify, writeOk).0 == Response(200, Some(stringify(write.body.contenu.value)))
      && after[g] == files[g]
  {
  }

  /** Every request but a successful write leaves the file map as it was;
      so reads are repeatable and never create files. */
  lemma OnlyWritesChange(req: Request, files: map<string, string>, stringify: Json -> string, writeOk: bool)
    requires Handle(req, files, stringify, writeOk).1 != files
    ensures IsAction(req.action, "write") && req.verb == Post && writeOk
    ensures req.fichier.One? && req.fichier.s in files && IsObject(req.body.contenu)
  {
  }

  /** Writing the same content twice leaves the same files as writing it
      once. */
  lemma WriteIdempotent(req: Request, files: map<string, string>, stringify: Json -> string)
    ensures var once := Handle(req, files, stringify, true).1;
      Handle(req, once, stringify, true).1 == once
  {
  }
}

=== FILE: form_checks.dfy ===
/** The checks shared by the sign-up, reset-password, account and login
    forms: the password strength score, the email shape test, the phone
    cleaning on input and the two-digit grouping used to display it. */
module FormChecks {
  import opened JsStrings
  import JsArrays

  // ---------------------------------------------------------------------
  // Password strength
  // ---------------------------------------------------------------------

  /** The four character classes `[a-z]`, `[A-Z]`, `\d` and
      `[^A-Za-z0-9]`, tested in that order. */
  datatype Criterion = Lower | Upper | Digit | Symbol

  const Criteria: seq<Criterion> := [Lower, Upper, Digit, Symbol]

  predicate InClass(c: char, k: Criterion) {
    match k
    case Lower => 'a' <= c <= 'z'
    case Upper => 'A' <= c <= 'Z'
    case Digit => '0' <= c <= '9'
    case Symbol => !('a' <= c <= 'z' || 'A' <= c <= 'Z' || '0' <= c <= '9')
  }

  /** `regex.test(password)` for the class `k`. */
  predicate Meets(p: string, k: Criterion) {
    exists i :: 0 <= i < |p| && InClass(p[i], k)
  }

  /** `criteria.filter(regex => regex.test(password)).length` */
  function CountMet(p: string, cs: seq<Criterion>): (n: nat)
    ensures n <= |cs|
  {
    if cs == [] then 0
    else (if Meets(p, cs[0]) then 1 else 0) + CountMet(p, cs[1..])
  }

  /** `checkPasswordStrength`: the number of classes present, capped at 2
      for a password shorter than eight characters. */
  function Strength(p: string): (r: nat)
    ensures r <= 4
    ensures |p| < 8 ==> r <= 2
    ensures r >= 3 ==> |p| >= 8
  {
    var n := CountMet(p, Criteria);
    if |p| >= 8 then n else if n < 2 then n else 2
  }

  /** The classes counted one by one. */
  function Flag(b: bool): nat {
    if b then 1 else 0
  }

  lemma CountCriteria(p: string)
    ensures CountMet(p, Criteria) == Flag(Meets(p, Lower)) + Flag(Meets(p, Upper)) + Flag(Meets(p, Digit)) + Flag(Meets(p, Symbol))
  {
    var c3: seq<Criterion> := [Symbol];
    var c2: seq<Criterion> := [Digit, Symbol];
    var c1: seq<Criterion> := [Upper, Digit, Symbol];
    assert c3[1..] == [];
    assert CountMet(p, c3) == Flag(Meets(p, Symbol));
    assert c2[1..] == c3;
    assert CountMet(p, c2) == Flag(Meets(p, Digit)) + CountMet(p, c3);
    assert c1[1..] == c2;
    assert CountMet(p, c1) == Flag(Meets(p, Upper)) + CountMet(p, c2);
    assert Criteria[1..] == c1;
  }

  /** The top score is reached exactly by passwords of eight or more
      characters that use all four classes. */
  lemma StrengthFour(p: string)
    ensures Strength(p) == 4 <==> |p| >= 8 && Meets(p, Lower) && Meets(p, Upper) && Meets(p, Digit) && Meets(p, Symbol)
  {
    CountCriteria(p);
  }

  lemma StrengthEmpty()
    ensures Strength([]) == 0
  {
  }

  /** Typing more characters never lowers the score. */
  lemma {:induction false} StrengthGrows(p: string, q: string)
    ensures Strength(p) <= Strength(p + q)
  {
    CountGrows(p, q, Criteria);
  }

  lemma {:induction false} CountGrows(p: string, q: string, cs: seq<Criterion>)
    ensures CountMet(p, cs) <= CountMet(p + q, cs)
    decreases |cs|
  {
    if cs != [] {
      if Meets(p, cs[0]) {
        var i :| 0 <= i < |p| && InClass(p[i], cs[0]);
        assert (p + q)[i] == p[i];
      }
      CountGrows(p, q, cs[1..]);
    }
  }

  /** A single pass over the password that raises one flag per class,
      as a second reading of the score. */
  method ScanStrength(p: string) returns (s: nat)
    ensures s == Strength(p)
  {
    var lower, upper, digit, symbol := false, false, false, false;
    var i := 0;
    while i < |p|
      invariant 0 <= i <= |p|
      invariant lower == Meets(p[..i], Lower)
      invariant upper == Meets(p[..i], Upper)
      invariant digit == Meets(p[..i], Digit)
      invariant symbol == Meets(p[..i], Symbol)
    {
      var c := p[i];
      assert p[..i + 1] == p[..i] + [c];
      MeetsSnoc(p[..i], c, Lower);
      MeetsSnoc(p[..i], c, Upper);
      MeetsSnoc(p[..i], c, Digit);
      MeetsSnoc(p[..i], c, Symbol);
      lower := lower || InClass(c, Lower);
      upper := upper || InClass(c, Upper);
      digit := digit || InClass(c, Digit);
      symbol := symbol || InClass(c, Symbol);
      i := i + 1;
    }
    assert p[..i] == p;
    CountCriteria(p);
    var n := Flag(lower) + Flag(upper) + Flag(digit) + Flag(symbol);
    s := if |p| >= 8 then n else if n < 2 then n else 2;
  }

  lemma MeetsSnoc(p: string, c: char, k: Criterion)
    ensures Meets(p + [c], k) <==> Meets(p, k) || InClass(c, k)
  {
    if Meets(p, k) {
      var i :| 0 <= i < |p| && InClass(p[i], k);
      assert (p + [c])[i] == p[i];
    }
    if InClass(c, k) {
      assert (p + [c])[|p|] == c;
    }
  }

  // ---------------------------------------------------------------------
  // Email shape
  // ---------------------------------------------------------------------

  /** A character of `[^\s@]`. */
  predicate EmailChar(c: char) {
    !IsSpace(c) && c != '@'
  }

  predicate EmailWord(w: string) {
    w != [] && forall k :: 0 <= k < |w| ==> EmailChar(w[k])
  }

  /** The regular expression `^[^\s@]+@[^\s@]+\.[^\s@]+$`, read as a
      decomposition of the whole string at an `@` and a later `.`. */
  ghost predicate EmailPattern(s: string) {
    exists i, j :: 0 <= i < j < |s|
      && s[i] == '@' && s[j] == '.'
      && EmailWord(s[..i]) && EmailWord(s[i + 1..j]) && EmailWord(s[j + 1..])
  }

  predicate DotBetween(s: string, lo: int, hi: int)
    requires 0 <= lo && hi <= |s|
  {
    exists j :: lo <= j < hi && s[j] == '.'
  }

  /** `validateEmail`: one `@`, not first, no white space anywhere, and a
      `.` with at least one character on each side after the `@`. */
  function ValidEmail(s: string): (b: bool)
    ensures b ==> |s| >= 5 && s[0] != '@' && s[|s| - 1] != '@'
  {
    var i := IndexOf(s, '@');
    && 0 < i < |s|
    && NoSpace(s)
    && '@' !in s[i + 1..]
    && i + 2 <= |s| - 1
    && DotBetween(s, i + 2, |s| - 1)
  }

  /** The check agrees with the regular expression on every string. */
  lemma EmailMeaning(s: string)
    ensures ValidEmail(s) <==> EmailPattern(s)
  {
    if ValidEmail(s) {
      ValidHasPattern(s);
    }
    if EmailPattern(s) {
      var i, j :| 0 <= i < j < |s| && s[i] == '@' && s[j] == '.'
        && EmailWord(s[..i]) && EmailWord(s[i + 1..j]) && EmailWord(s[j + 1..]);
      PatternChars(s, i, j);
      IndexOfFirst(s, '@', i);
      assert DotBetween(s, i + 2, |s| - 1);
    }
  }

  lemma ValidHasPattern(s: string)
    requires ValidEmail(s)
    ensures EmailPattern(s)
  {
    var i := IndexOf(s, '@');
    var j :| i + 2 <= j < |s| - 1 && s[j] == '.';
    forall k | 0 <= k < |s| && k != i
      ensures EmailChar(s[k])
    {
      assert !IsSpace(s[k]);
      if k > i {
        assert s[i + 1..][k - i - 1] == s[k];
      }
    }
    WordOfRange(s, 0, i);
    WordOfRange(s, i + 1, j);
    WordOfRange(s, j + 1, |s|);
  }

  lemma WordOfRange(s: string, lo: int, hi: int)
    requires 0 <= lo < hi <= |s|
    requires forall k :: lo <= k < hi ==> EmailChar(s[k])
    ensures EmailWord(s[lo..hi])
  {
    forall k | 0 <= k < hi - lo
      ensures EmailChar(s[lo..hi][k])
    {
      assert s[lo..hi][k] == s[lo + k];
    }
  }

  lemma PatternChars(s: string, i: int, j: int)
    requires 0 <= i < j < |s| && s[i] == '@' && s[j] == '.'
    requires EmailWord(s[..i]) && EmailWord(s[i + 1..j]) && EmailWord(s[j + 1..])
    ensures forall k :: 0 <= k < |s| && k != i ==> EmailChar(s[k])
    ensures 0 < i && i + 1 < j && j + 1 < |s|
    ensures NoSpace(s) && '@' !in s[i + 1..]
  {
    forall k | 0 <= k < |s| && k != i
      ensures EmailChar(s[k])
    {
      if k < i {
        assert s[..i][k] == s[k];
      } else if k < j {
        assert s[i + 1..j][k - i - 1] == s[k];
      } else if k > j {
        assert s[j + 1..][k - j - 1] == s[k];
      }
    }
    var rest := s[i + 1..];
    forall k | 0 <= k < |rest|
      ensures rest[k] != '@'
    {
      assert rest[k] == s[i + 1 + k];
    }
  }

  // ---------------------------------------------------------------------
  // Phone number
  // ---------------------------------------------------------------------

  /** `value.replace(/[^\d]/g, "")` */
  function DigitsOnly(s: string): (r: string)
    ensures AllDigits(r) && |r| <= |s|
  {
    if s == [] then []
    else (if IsDigit(s[0]) then [s[0]] else []) + DigitsOnly(s[1..])
  }

  /** Removing non-digits works piece by piece. */
  lemma {:induction false} DigitsOnlyAppend(a: string, b: string)
    ensures DigitsOnly(a + b) == DigitsOnly(a) + DigitsOnly(b)
    decreases |a|
  {
    if a != [] {
      assert (a + b)[1..] == a[1..] + b;
      DigitsOnlyAppend(a[1..], b);
    } else {
      assert a + b == b;
    }
  }

  /** Removing non-digits is the filter that keeps exactly the digits,
      in their order. */
  lemma {:induction false} DigitsOnlyFilter(s: string)
    ensures DigitsOnly(s) == JsArrays.Filter(s, IsDigit)
    decreases |s|
  {
    if s != [] {
      DigitsOnlyFilter(s[1..]);
    }
  }

  /** A digit-only string is left as it is. */
  lemma {:induction false} DigitsOnlyKeeps(s: string)
    requires AllDigits(s)
    ensures DigitsOnly(s) == s
    decreases |s|
  {
    if s != [] {
      DigitsOnlyKeeps(s[1..]);
    }
  }

  const MaxPhoneDigits: nat := 15
  const MinPhoneDigits: nat := 8

  /** `handlePhoneChange`: the cleaned value kept in state, at most
      fifteen digits. */
  function CleanPhone(input: string): (r: string)
    ensures AllDigits(r) && |r| <= MaxPhoneDigits
    ensures r <= DigitsOnly(input)
    ensures |r| == if |DigitsOnly(input)| <= MaxPhoneDigits then |DigitsOnly(input)| else MaxPhoneDigits
  {
    var d := DigitsOnly(input);
    if |d| <= MaxPhoneDigits then d else d[..MaxPhoneDigits]
  }

  /** The phone error flag set on input: some digits, but fewer than
      eight. */
  predicate PhoneError(cleaned: string) {
    0 < |cleaned| < MinPhoneDigits
  }

  /** Cleaning an already cleaned value changes nothing, and a short
      digit string is kept whole. */
  lemma CleanPhoneIdempotent(input: string)
    ensures CleanPhone(CleanPhone(input)) == CleanPhone(input)
  {
    DigitsOnlyKeeps(CleanPhone(input));
  }

  lemma CleanPhoneKeeps(s: string)
    requires AllDigits(s) && |s| <= MaxPhoneDigits
    ensures CleanPhone(s) == s && (PhoneError(s) <==> 0 < |s| < 8)
  {
    DigitsOnlyKeeps(s);
  }

  /** `replace(/(\d{2})(?=\d)/g, "$1 ")`: scanning left to right, two
      digits followed by a third get a space after them and the scan
      resumes after the two; any other character is copied. */
  function GroupPairs(s: string): (r: string)
    decreases |s|
  {
    if |s| >= 3 && IsDigit(s[0]) && IsDigit(s[1]) && IsDigit(s[2]) then s[..2] + " " + GroupPairs(s[2..])
    else if s == [] then []
    else [s[0]] + GroupPairs(s[1..])
  }

  /** `formatPhoneDisplay` */
  function FormatPhoneDisplay(s: string): (r: string)
    ensures s == [] ==> r == []
    ensures r == [] || (!IsSpace(r[0]) && !IsSpace(r[|r| - 1]))
  {
    if s == [] then [] else Trim(GroupPairs(s))
  }

  function RemoveSpaces(s: string): (r: string)
    ensures ' ' !in r
  {
    if s == [] then []
    else (if s[0] == ' ' then [] else [s[0]]) + RemoveSpaces(s[1..])
  }

  lemma {:induction false} RemoveSpacesAppend(a: string, b: string)
    ensures RemoveSpaces(a + b) == RemoveSpaces(a) + RemoveSpaces(b)
    decreases |a|
  {
    if a != [] {
      assert (a + b)[1..] == a[1..] + b;
      RemoveSpacesAppend(a[1..], b);
    } else {
      assert a + b == b;
    }
  }

  /** On digits, the grouping puts a space exactly at every third
      position, and removing the spaces gives the digits back. */
  lemma GroupDigits(s: string)
    requires AllDigits(s)
    ensures RemoveSpaces(GroupPairs(s)) == s
    ensures |GroupPairs(s)| == if s == [] then 0 else |s| + (|s| - 1) / 2
    ensures forall k :: 0 <= k < |GroupPairs(s)| ==> (GroupPairs(s)[k] == ' ' <==> k % 3 == 2)
  {
    GroupKeepsDigits(s);
    GroupLength(s);
    GroupSpaces(s);
  }

  lemma {:induction false} GroupKeepsDigits(s: string)
    requires AllDigits(s)
    ensures RemoveSpaces(GroupPairs(s)) == s
    decreases |s|
  {
    if |s| >= 3 {
      var p, t := s[..2], GroupPairs(s[2..]);
      GroupKeepsDigits(s[2..]);
      assert GroupPairs(s) == p + " " + t;
      RemoveSpacesAppend(p + " ", t);
      PairKept(s);
      assert s == p + s[2..];
    } else if s != [] {
      var t := GroupPairs(s[1..]);
      GroupKeepsDigits(s[1..]);
      assert GroupPairs(s) == [s[0]] + t;
      RemoveSpacesAppend([s[0]], t);
      assert s == [s[0]] + s[1..];
    }
  }

  /** The two digits before an inserted space survive its removal. */
  lemma PairKept(s: string)
    requires |s| >= 2 && AllDigits(s)
    ensures RemoveSpaces(s[..2] + " ") == s[..2]
  {
    var p := s[..2];
    RemoveSpacesAppend(p, " ");
    assert p == [s[0]] + [s[1]];
    RemoveSpacesAppend([s[0]], [s[1]]);
    assert RemoveSpaces(p) == p;
  }

  lemma {:induction false} GroupLength(s: string)
    requires AllDigits(s)
    ensures |GroupPairs(s)| == if s == [] then 0 else |s| + (|s| - 1) / 2
    decreases |s|
  {
    if |s| >= 3 {
      GroupLength(s[2..]);
      assert GroupPairs(s) == s[..2] + " " + GroupPairs(s[2..]);
    } else if s != [] {
      GroupLength(s[1..]);
      assert GroupPairs(s) == [s[0]] + GroupPairs(s[1..]);
    }
  }

  lemma {:induction false} GroupSpaces(s: string)
    requires AllDigits(s)
    ensures forall k :: 0 <= k < |GroupPairs(s)| ==> (GroupPairs(s)[k] == ' ' <==> k % 3 == 2)
    decreases |s|
  {
    var g := GroupPairs(s);
    if |s| >= 3 {
      var t := GroupPairs(s[2..]);
      GroupSpaces(s[2..]);
      assert g == s[..2] + " " + t;
      forall k | 0 <= k < |g|
        ensures g[k] == ' ' <==> k % 3 == 2
      {
        if k >= 3 {
          assert g[k] == t[k - 3];
        } else if k < 2 {
          assert g[k] == s[k] && IsDigit(s[k]);
        }
      }
    } else if s != [] {
      var t := GroupPairs(s[1..]);
      assert g == [s[0]] + t;
      assert IsDigit(s[0]);
      if |s| == 2 {
        assert t == [s[1]] + GroupPairs(s[2..]);
        assert IsDigit(s[1]);
      }
    }
  }

  /** What the sign-up form displays for a cleaned phone number: the
      digits in pairs separated by one space (the last group may be a
      single digit), nothing trimmed away. */
  lemma FormatDigits(s: string)
    requires AllDigits(s)
    ensures var r := FormatPhoneDisplay(s);
      && RemoveSpaces(r) == s
      && |r| == (if s == [] then 0 else |s| + (|s| - 1) / 2)
      && forall k :: 0 <= k < |r| ==> (r[k] == ' ' <==> k % 3 == 2)
  {
    if s != [] {
      var g := GroupPairs(s);
      GroupDigits(s);
      GroupEnds(s);
      assert IsDigit(s[0]) && IsDigit(s[|s| - 1]);
      TrimNoop(g);
      assert FormatPhoneDisplay(s) == g;
    }
  }

  /** The grouping starts and ends with the characters the input starts
      and ends with. */
  lemma {:induction false} GroupEnds(s: string)
    requires s != []
    ensures var g := GroupPairs(s); g != [] && g[0] == s[0] && g[|g| - 1] == s[|s| - 1]
    decreases |s|
  {
    var g := GroupPairs(s);
    if |s| >= 3 && IsDigit(s[0]) && IsDigit(s[1]) && IsDigit(s[2]) {
      var t := GroupPairs(s[2..]);
      GroupEnds(s[2..]);
      assert g == s[..2] + " " + t;
      assert g[|g| - 1] == t[|t| - 1];
    } else if |s| > 1 {
      var t := GroupPairs(s[1..]);
      GroupEnds(s[1..]);
      assert g == [s[0]] + t;
      assert g[|g| - 1] == t[|t| - 1];
    } else {
      assert s[1..] == [];
      assert g == [s[0]] + GroupPairs([]);
    }
  }
}

=== FILE: form_state.dfy ===
/** State and outcomes the password forms have in common: the password
    pair with its strength and match flags, the error messages merged
    from defaults and caller overrides, the alert list, and what a
    caller's submit handler can do. */
module FormState {
  import opened Wrappers
  import opened FormChecks

  /** `prop || ""` for a text prop. */
  function PropText(o: Option<string>): (r: string)
    ensures o.Some? ==> r == o.value
    ensures o.None? ==> r == []
  {
    o.GetOr([])
  }

  /** The keys of the `errorMessages` objects. */
  datatype Key =
    | InvalidEmail | WeakPassword | PasswordMismatch | InvalidPhone
    | NetworkError | EmailExists | SignupSuccess | ResetTokenInvalid | ResetTokenExpired

  /** `{ ...defaultErrorMessages, ...customErrorMessages }`: a key the
      caller sets takes the caller's text, every other key keeps the
      default. */
  function Merge(defaults: map<Key, string>, custom: map<Key, string>): (r: map<Key, string>)
    ensures r.Keys == defaults.Keys + custom.Keys
    ensures forall k :: k in custom ==> r[k] == custom[k]
    ensures forall k :: k in defaults && k !in custom ==> r[k] == defaults[k]
  {
    defaults + custom
  }

  /** Merging no overrides keeps the defaults, and merging the same
      overrides twice is merging them once. */
  lemma MergeLaws(defaults: map<Key, string>, custom: map<Key, string>)
    ensures Merge(defaults, map[]) == defaults
    ensures Merge(Merge(defaults, custom), custom) == Merge(defaults, custom)
  {
  }

  datatype AlertType = Success | Error | Info | Warning

  /** One alert; its `Date.now()` identifier is not modelled. */
  datatype Alert = Alert(kind: AlertType, message: string)

  /** The messages of `keys`, as error alerts, in order. */
  function ErrorAlerts(keys: seq<Key>, messages: map<Key, string>): (r: seq<Alert>)
    requires forall i :: 0 <= i < |keys| ==> keys[i] in messages
    ensures |r| == |keys|
    ensures forall i :: 0 <= i < |keys| ==> r[i] == Alert(Error, messages[keys[i]])
  {
    if keys == [] then [] else [Alert(Error, messages[keys[0]])] + ErrorAlerts(keys[1..], messages)
  }

  /** What is thrown by a caller's handler: an `Error` with its message,
      or any other value. */
  datatype Thrown = ErrorWith(message: string) | NonError

  /** A caller's optional submit (or sign-in) handler: absent, settling,
      or throwing. */
  datatype Handler = NoHandler | Settles | Throws(thrown: Thrown)

  /** `error instanceof Error ? error.message || networkError : networkError` */
  function FailureText(t: Thrown, networkError: string): (r: string)
    ensures t.ErrorWith? && t.message != [] ==> r == t.message
    ensures !(t.ErrorWith? && t.message != []) ==> r == networkError
  {
    match t
    case ErrorWith(m) => if m != [] then m else networkError
    case NonError => networkError
  }

  /** The password pair every password form keeps, with the strength
      score and the match flag computed on each edit. */
  datatype Fields = Fields(password: string, confirm: string, strength: nat, passwordsMatch: bool)

  /** The flags describe the current pair. */
  predicate Consistent(f: Fields) {
    f.strength == Strength(f.password) && f.passwordsMatch == (f.password == f.confirm)
  }

  /** `handlePasswordChange` */
  function EditPassword(f: Fields, v: string): (r: Fields)
    ensures r.password == v && r.confirm == f.confirm
  {
    f.(password := v, strength := Strength(v), passwordsMatch := v == f.confirm)
  }

  /** `handleConfirmPasswordChange` */
  function EditConfirm(f: Fields, v: string): (r: Fields)
    ensures r.confirm == v && r.password == f.password && r.strength == f.strength
  {
    f.(confirm := v, passwordsMatch := f.password == v)
  }

  /** After any edit the match flag describes the pair, whatever the
      flags said before; a password edit also sets the score from the
      new text, and a confirmation edit keeps a consistent form
      consistent. */
  lemma EditsMakeConsistent(f: Fields, v: string)
    ensures Consistent(EditPassword(f, v))
    ensures var g := EditConfirm(f, v); g.passwordsMatch <==> g.password == g.confirm
    ensures Consistent(f) ==> Consistent(EditConfirm(f, v))
  {
  }
}

=== FILE: installer.dfy ===
/** The first-install script (architecture/pages/api/first-install.ts) as a
    pure transition. The state holds the installed package names, the
    project's regular files (directories are implicit: a path is a
    directory when a file lies below it), the commands issued so far and
    the install log. The environment decides which commands fail, what a
    download returns and what an archive holds. */
module Installer {
  import opened Wrappers
  import opened JsStrings

  /** A relative path, one element per directory level. */
  type Path = seq<string>

  datatype Command =
    | NpmInstall(specs: seq<string>, dev: bool)
    | Curl(folder: string)
      /** `npm install tailwindcss@3.4.17 postcss autoprefixer && npx tailwindcss init -p` */
    | TailwindBootstrap

  /** The lines the script appends to the install log. */
  datatype LogLine =
    | Starting
    | Executing(cmd: Command)
    | CommandError(cmd: Command)
      /** A successful command printed something on that stream. */
    | StdOut(cmd: Command)
    | StdErr(cmd: Command)
    | CheckingDependencies
    | InstallingPackage(index: nat, total: nat, spec: string, dev: bool)
    | AlreadyInstalled(spec: string, dev: bool)
    | Downloading(folder: string)
    | Extracted(dir: string)
    | ArchiveDeleted(folder: string)
    | ExtractionError
    | CopyingFiles
    | Copied(src: Path, dest: Path)
    | CopyError(src: Path)
    | Succeeded
    | UnexpectedError
    | Finished

  datatype State = State(installed: set<string>, files: map<Path, string>, commands: seq<Command>, log: seq<LogLine>)

  /** Whether a command prints something other than white space on each
      of its two streams (`stdout.trim()` and `stderr.trim()` are not
      empty). */
  datatype Output = Output(stdout: bool, stderr: bool)

  /** `failing`: the commands that exit with an error; `output`: what a
      successful command prints; `download`: the bytes `curl` saves for a
      folder; `unzip`: the archive's files, or `None` when the bytes are
      not a readable archive. */
  datatype Env = Env(
    failing: set<Command>, output: Command -> Output,
    download: string -> string, unzip: string -> Option<map<Path, string>>)

  /** The state after a step, and whether the step completed (`false`
      means it threw and the error propagates). */
  datatype Run = Run(st: State, ok: bool)

  const Packages: seq<string> := [
    "dotenv", "adm-zip", "plasmic-supabase", "@supabase/ssr@0.4.0", "tailwindcss@3.4.17",
    "postcss", "autoprefixer", "class-variance-authority", "clsx", "tailwind-merge",
    "@heroui/react", "mapbox-gl", "simple-git", "@plasmicapp/react-web", "ts-node",
    "date-fns", "@hello-pangea/dnd", "nextjs-cors", "@supabase/supabase-js"]

  const DevDependencies: seq<string> := ["@types/adm-zip"]

  /** The script's first command. */
  const FirstCommand: Command := NpmInstall(["dotenv", "adm-zip"], false)

  const TailwindNames: set<string> := {"tailwindcss", "postcss", "autoprefixer"}

  /** An entry of a copy manifest: source and destination, relative to
      the working directory. */
  datatype Entry = Entry(src: Path, dest: Path)

  const FilesToCopy: seq<Entry> := [
    Entry(["architecture", "pages", "_app.tsx"], ["pages", "_app.tsx"]),
    Entry(["architecture", "pages", "plasmic-library.tsx"], ["pages", "plasmic-library.tsx"]),
    Entry(["architecture", "pages", "api", "plasmic-lib", "update.ts"], ["pages", "api", "plasmic-lib", "update.ts"]),
    Entry(["architecture", "middleware.ts"], ["middleware.ts"]),
    Entry(["architecture", "lib", "utils.ts"], ["lib", "utils.ts"]),
    Entry(["architecture", "lib", "supabase.ts"], ["lib", "supabase.ts"]),
    Entry(["architecture", "lib", "supabaseClient.ts"], ["lib", "supabaseClient.ts"]),
    Entry(["architecture", "styles", "globals.css"], ["styles", "globals.css"]),
    Entry(["architecture", "styles", "fonts.css"], ["styles", "fonts.css"]),
    Entry(["architecture", "styles", "presets.ts"], ["styles", "presets.ts"]),
    Entry(["architecture", "plasmic-init.ts"], ["plasmic-init-modele.ts"]),
    Entry(["architecture", "tailwind.config.js"], ["tailwind.config.js"])]

  const DirectoriesToCopy: seq<Entry> := [
    Entry(["architecture", "styles", "tokens-sitex"], ["styles", "tokens-sitex"]),
    Entry(["architecture", "styles", "tokens-jam"], ["styles", "tokens-jam"]),
    Entry(["architecture", "pages", "api", "plasmic-lib"], ["pages", "api", "plasmic-lib"]),
    Entry(["architecture", "pages", "api", "supabase_crud"], ["pages", "api", "supabase_crud"])]

  // ---------------------------------------------------------------- packages

  /** The position of the last '@' in `s`, or -1. */
  function LastAt(s: string): (k: int)
    ensures -1 <= k < |s|
    ensures k >= 0 ==> s[k] == '@'
    ensures forall i :: k < i < |s| ==> s[i] != '@'
  {
    if s == [] then -1 else if s[|s| - 1] == '@' then |s| - 1 else LastAt(s[..|s| - 1])
  }

  /** The package name of an install spec: the version after the last '@'
      is dropped, but a leading '@' starts a scope, not a version. */
  function PackageName(spec: string): (name: string)
    ensures |name| <= |spec| && spec[..|name|] == name
    ensures |name| < |spec| ==> name != [] && spec[|name|] == '@' && forall i :: |name| < i < |spec| ==> spec[i] != '@'
  {
    var k := LastAt(spec);
    if k > 0 then spec[..k] else spec
  }

  /** `name@version` installs `name`; a spec without a version, scoped or
      not, is its own name. */
  lemma PackageNameOfVersioned(name: string, version: string)
    requires name != [] && '@' !in version
    ensures PackageName(name + ['@'] + version) == name
  {
    var s := name + ['@'] + version;
    assert s[|name|] == '@';
    assert forall i :: |name| < i < |s| ==> s[i] == version[i - |name| - 1];
    assert LastAt(s) == |name|;
    assert s[..|name|] == name;
  }

  lemma PackageNameUnversioned(spec: string)
    requires forall i :: 0 < i < |spec| ==> spec[i] != '@'
    ensures PackageName(spec) == spec
  {
  }

  function NamesOf(specs: seq<string>): (names: set<string>)
    ensures forall i :: 0 <= i < |specs| ==> PackageName(specs[i]) in names
    ensures forall n :: n in names ==> exists i :: 0 <= i < |specs| && PackageName(specs[i]) == n
  {
    set i | 0 <= i < |specs| :: PackageName(specs[i])
  }

  /** `isPackageInstalled(pkg)`, reading `npm ls` by package name. */
  predicate IsInstalled(st: State, spec: string) {
    PackageName(spec) in st.installed
  }

  // ------------------------------------------------------------------- files

  /** `p` lies strictly below `dir`. */
  predicate Under(dir: Path, p: Path) {
    |p| > |dir| && p[..|dir|] == dir
  }

  /** `p` is a directory: the working directory, or a path with a file
      below it. */
  predicate IsDir(files: map<Path, string>, p: Path) {
    p == [] || exists q | q in files :: Under(p, q)
  }

  /** `fs.existsSync` */
  predicate Exists(files: map<Path, string>, p: Path) {
    p in files || IsDir(files, p)
  }

  /** `path.dirname`, with the working directory as its own parent. */
  function Parent(p: Path): (d: Path)
    ensures |d| == if p == [] then 0 else |p| - 1
    ensures d <= p
  {
    if p == [] then [] else p[..|p| - 1]
  }

  /** Some proper ancestor of `p` is a regular file, so creating `p`'s
      directories fails. */
  predicate BlockedByFile(files: map<Path, string>, p: Path) {
    exists k | 0 < k < |p| :: p[..k] in files
  }

  /** The files below `src`, re-rooted below `dest`. */
  function Moved(files: map<Path, string>, src: Path, dest: Path): (m: map<Path, string>)
    ensures forall p :: p in m <==> Under(dest, p) && src + p[|dest|..] in files
    ensures forall p :: p in m ==> Under(dest, p) && m[p] == files[src + p[|dest|..]]
  {
    var keys := set q | q in files && Under(src, q) :: dest + q[|src|..];
    var m := map p | p in keys && Under(dest, p) && src + p[|dest|..] in files :: files[src + p[|dest|..]];
    forall p | Under(dest, p) && src + p[|dest|..] in files
      ensures p in keys
    {
      var q := src + p[|dest|..];
      assert Under(src, q) && q[|src|..] == p[|dest|..];
      assert dest + p[|dest|..] == p;
    }
    m
  }

  /** `copyDirectory(src, dest)`: every file below `src` is written at the
      same relative path below `dest`; all other files are untouched. */
  function CopyDirectory(files: map<Path, string>, src: Path, dest: Path): (r: map<Path, string>)
    ensures forall p :: Under(src, p) && p in files ==> dest + p[|src|..] in r && r[dest + p[|src|..]] == files[p]
    ensures forall p :: p in files && !(Under(dest, p) && src + p[|dest|..] in files) ==> p in r && r[p] == files[p]
    ensures forall p :: p in r ==> p in files || (Under(dest, p) && src + p[|dest|..] in files)
  {
    var m := Moved(files, src, dest);
    forall p | Under(src, p) && p in files
      ensures dest + p[|src|..] in m && m[dest + p[|src|..]] == files[p]
    {
      var d := dest + p[|src|..];
      assert d[|dest|..] == p[|src|..];
      assert src + p[|src|..] == p;
    }
    files + m
  }

  /** `zip.extractAllTo(dir, true)`: the archive's files, below `dir`,
      replace or add to the project's files. */
  function Extract(files: map<Path, string>, dir: Path, contents: map<Path, string>): (r: map<Path, string>)
    ensures forall p :: p in contents ==> dir + p in r && r[dir + p] == contents[p]
    ensures forall p :: p in files && !(|p| >= |dir| && p[..|dir|] == dir && p[|dir|..] in contents) ==> p in r && r[p] == files[p]
    ensures forall p :: p in r ==> p in files || (|p| >= |dir| && p[..|dir|] == dir && p[|dir|..] in contents)
  {
    var keys := set q | q in contents :: dir + q;
    var m := map p | p in keys && |p| >= |dir| && p[..|dir|] == dir && p[|dir|..] in contents :: contents[p[|dir|..]];
    forall p | p in contents
      ensures dir + p in m && m[dir + p] == contents[p]
    {
      var d := dir + p;
      assert d in keys;
      assert d[..|dir|] == dir && d[|dir|..] == p;
    }
    files + m
  }

  lemma ExtractedFiles(files: map<Path, string>, dir: string, contents: map<Path, string>, zip: Path)
    ensures var r := Extract(files, [dir], contents) - {zip};
      zip !in r && forall p :: p in contents && [dir] + p != zip ==> [dir] + p in r && r[[dir] + p] == contents[p]
  {
  }

  // ---------------------------------------------------------------- commands

  /** `${folder}.zip` in the working directory. */
  function ZipPath(folder: string): Path {
    [folder + ".zip"]
  }

  /** `b` is `a` with more commands issued and more lines logged. */
  predicate Extends(a: State, b: State) {
    a.commands <= b.commands && a.log <= b.log
  }

  function Log(st: State, line: LogLine): State {
    st.(log := st.log + [line])
  }

  function Effect(env: Env, st: State, cmd: Command): (r: State)
    ensures r.log == st.log && r.commands == st.commands
  {
    match cmd
    case NpmInstall(specs, _) => st.(installed := st.installed + NamesOf(specs))
    case TailwindBootstrap => st.(installed := st.installed + TailwindNames)
    case Curl(folder) => st.(files := st.files[ZipPath(folder) := env.download(folder)])
  }

  /** The lines a successful command adds after its own: one for each
      stream with output that is not blank, standard output first. */
  function OutputLines(cmd: Command, out: Output): (lines: seq<LogLine>)
    ensures |lines| == (if out.stdout then 1 else 0) + (if out.stderr then 1 else 0)
  {
    (if out.stdout then [StdOut(cmd)] else []) + (if out.stderr then [StdErr(cmd)] else [])
  }

  /** A stream's line is there exactly when it printed something, and
      standard output comes first. */
  lemma OutputLinesMeaning(cmd: Command, out: Output)
    ensures var lines := OutputLines(cmd, out);
      && (StdOut(cmd) in lines <==> out.stdout)
      && (StdErr(cmd) in lines <==> out.stderr)
      && (out.stdout ==> lines[0] == StdOut(cmd))
      && (out.stderr ==> lines[|lines| - 1] == StdErr(cmd))
  {
  }

  /** `execPromise(cmd)`: logs the command, runs it, and on failure logs the
      error and rejects; on success it logs the command's non-blank
      output. */
  function Exec(env: Env, st: State, cmd: Command): (r: Run)
    ensures r.st.commands == st.commands + [cmd]
    ensures Extends(st, r.st)
    ensures r.ok <==> cmd !in env.failing
    ensures r.ok ==> r.st.log == st.log + [Executing(cmd)] + OutputLines(cmd, env.output(cmd))
    ensures !r.ok ==> r.st == st.(commands := st.commands + [cmd], log := st.log + [Executing(cmd), CommandError(cmd)])
    ensures r.ok && cmd.NpmInstall? ==> r.st.installed == st.installed + NamesOf(cmd.specs) && r.st.files == st.files
    ensures r.ok && cmd.TailwindBootstrap? ==> r.st.installed == st.installed + TailwindNames && r.st.files == st.files
    ensures r.ok && cmd.Curl? ==> r.st.installed == st.installed && r.st.files == st.files[ZipPath(cmd.folder) := env.download(cmd.folder)]
  {
    var s := Log(st, Executing(cmd)).(commands := st.commands + [cmd]);
    if cmd in env.failing then Run(Log(s, CommandError(cmd)), false)
    else
      var t := Effect(env, s, cmd);
      Run(t.(log := t.log + OutputLines(cmd, env.output(cmd))), true)
  }

  /** One of the two package loops, from position `i`. */
  function InstallList(env: Env, st: State, pkgs: seq<string>, i: nat, dev: bool): (r: Run)
    requires i <= |pkgs|
    ensures Extends(st, r.st)
    ensures forall k :: |st.commands| <= k < |r.st.commands| ==> r.st.commands[k].NpmInstall? && r.st.commands[k].dev == dev
    ensures st.installed <= r.st.installed && r.st.files == st.files
    ensures r.ok ==> forall k :: i <= k < |pkgs| ==> PackageName(pkgs[k]) in r.st.installed
    ensures !r.ok ==> exists k :: i <= k < |pkgs| && NpmInstall([pkgs[k]], dev) in env.failing
    decreases |pkgs| - i
  {
    if i == |pkgs| then Run(st, true)
    else
      var pkg := pkgs[i];
      if IsInstalled(st, pkg) then
        InstallList(env, Log(st, AlreadyInstalled(pkg, dev)), pkgs, i + 1, dev)
      else
        var e := Exec(env, Log(st, InstallingPackage(i + 1, |pkgs|, pkg, dev)), NpmInstall([pkg], dev));
        if !e.ok then e
        else
          assert [pkg][0] == pkg;
          InstallList(env, e.st, pkgs, i + 1, dev)
  }

  /** The specs of `pkgs[i..]` whose package is not in `installed`: an
      independent statement of which `npm install` commands the loop
      issues. */
  function ToInstall(pkgs: seq<string>, i: nat, installed: set<string>): (r: seq<string>)
    requires i <= |pkgs|
    ensures |r| <= |pkgs| - i
    ensures forall k :: 0 <= k < |r| ==> r[k] in pkgs[i..] && PackageName(r[k]) !in installed
    decreases |pkgs| - i
  {
    if i == |pkgs| then []
    else if PackageName(pkgs[i]) in installed then ToInstall(pkgs, i + 1, installed)
    else [pkgs[i]] + ToInstall(pkgs, i + 1, installed)
  }

  predicate DistinctNames(pkgs: seq<string>) {
    forall a, b :: 0 <= a < b < |pkgs| ==> PackageName(pkgs[a]) != PackageName(pkgs[b])
  }

  /** One `npm install` per spec, in order. */
  function InstallCommands(specs: seq<string>, dev: bool): (cmds: seq<Command>)
    ensures |cmds| == |specs|
    ensures forall k :: 0 <= k < |specs| ==> cmds[k] == NpmInstall([specs[k]], dev)
  {
    if specs == [] then [] else [NpmInstall([specs[0]], dev)] + InstallCommands(specs[1..], dev)
  }

  /** When every install succeeds, the loop issues `npm install` exactly
      for the packages that were not installed before it started, in
      declared order. */
  lemma {:induction false} InstallListIssuesMissing(env: Env, st: State, pkgs: seq<string>, i: nat, dev: bool)
    requires i <= |pkgs| && DistinctNames(pkgs)
    requires forall k :: i <= k < |pkgs| ==> NpmInstall([pkgs[k]], dev) !in env.failing
    ensures InstallList(env, st, pkgs, i, dev).ok
    ensures InstallList(env, st, pkgs, i, dev).st.commands == st.commands + InstallCommands(ToInstall(pkgs, i, st.installed), dev)
    decreases |pkgs| - i
  {
    if i < |pkgs| {
      var pkg := pkgs[i];
      if IsInstalled(st, pkg) {
        InstallListIssuesMissing(env, Log(st, AlreadyInstalled(pkg, dev)), pkgs, i + 1, dev);
      } else {
        var e := Exec(env, Log(st, InstallingPackage(i + 1, |pkgs|, pkg, dev)), NpmInstall([pkg], dev));
        InstallListIssuesMissing(env, e.st, pkgs, i + 1, dev);
        SingleName(pkg);
        IssuesMissingStep(st, e.st, pkgs, i, dev);
      }
    }
  }

  lemma IssuesMissingStep(st: State, e: State, pkgs: seq<string>, i: nat, dev: bool)
    requires i < |pkgs| && PackageName(pkgs[i]) !in st.installed
    requires forall k :: i + 1 <= k < |pkgs| ==> PackageName(pkgs[k]) != PackageName(pkgs[i])
    requires e.commands == st.commands + [NpmInstall([pkgs[i]], dev)]
    requires e.installed == st.installed + {PackageName(pkgs[i])}
    ensures e.commands + InstallCommands(ToInstall(pkgs, i + 1, e.installed), dev)
      == st.commands + InstallCommands(ToInstall(pkgs, i, st.installed), dev)
  {
    var pkg := pkgs[i];
    var cmd := NpmInstall([pkg], dev);
    assert forall k :: i + 1 <= k < |pkgs| ==> PackageName(pkgs[k]) !in {PackageName(pkg)};
    ToInstallIgnoresOthers(pkgs, i + 1, st.installed, {PackageName(pkg)});
    var rest := ToInstall(pkgs, i + 1, st.installed);
    var tail := InstallCommands(rest, dev);
    assert ToInstall(pkgs, i, st.installed) == [pkg] + rest;
    InstallCommandsCons(pkg, rest, dev);
    ConcatAssoc(st.commands, [cmd], tail);
  }

  lemma ConcatAssoc<T>(a: seq<T>, b: seq<T>, c: seq<T>)
    ensures (a + b) + c == a + (b + c)
  {
  }

  lemma InstallCommandsCons(pkg: string, rest: seq<string>, dev: bool)
    ensures InstallCommands([pkg] + rest, dev) == [NpmInstall([pkg], dev)] + InstallCommands(rest, dev)
  {
    assert ([pkg] + rest)[1..] == rest;
  }

  lemma SingleName(pkg: string)
    ensures NamesOf([pkg]) == {PackageName(pkg)}
  {
    assert [pkg][0] == pkg;
  }

  /** Names of packages that do not occur again in `pkgs[i..]` do not
      change which of those are installed. */
  lemma {:induction false} ToInstallIgnoresOthers(pkgs: seq<string>, i: nat, installed: set<string>, extra: set<string>)
    requires i <= |pkgs|
    requires forall k :: i <= k < |pkgs| ==> PackageName(pkgs[k]) !in extra
    ensures ToInstall(pkgs, i, installed + extra) == ToInstall(pkgs, i, installed)
    decreases |pkgs| - i
  {
    if i < |pkgs| {
      ToInstallIgnoresOthers(pkgs, i + 1, installed, extra);
    }
  }

  // ---------------------------------------------------------------- archives

  /** `downloadAndUnzip(folder, dir)`: a failing download propagates;
      otherwise the step completes, whatever the archive holds. */
  function DownloadAndUnzip(env: Env, st: State, folder: string, dir: string): (r: Run)
    ensures r.st.commands == st.commands + [Curl(folder)]
    ensures r.st.installed == st.installed && Extends(st, r.st)
    ensures r.ok <==> Curl(folder) !in env.failing
  {
    var e := Exec(env, Log(st, Downloading(folder)), Curl(folder));
    if !e.ok then e
    else Unpack(env, e.st, folder, dir)
  }

  /** The `try` of `downloadAndUnzip` after the download: an unreadable
      archive is logged and kept, a readable one extracted and deleted.
      Either way the step succeeds and runs no command. */
  function Unpack(env: Env, st: State, folder: string, dir: string): (r: Run)
    requires ZipPath(folder) in st.files
    ensures r.ok && r.st.commands == st.commands && r.st.installed == st.installed && Extends(st, r.st)
  {
    var zip := ZipPath(folder);
    match env.unzip(st.files[zip])
    case None => Run(Log(st, ExtractionError), true)
    case Some(contents) =>
      var extracted := Extract(st.files, [dir], contents) - {zip};
      Run(st.(files := extracted, log := st.log + [Extracted(dir), ArchiveDeleted(folder)]), true)
  }

  /** The three outcomes of a download: a failing `curl` logs its error
      and changes no file; an unreadable archive is logged and kept; a
      readable one is extracted below `dir` and deleted. The command's
      own output lines follow it in the log. */
  lemma DownloadAndUnzipMeaning(env: Env, st: State, folder: string, dir: string)
    ensures var r := DownloadAndUnzip(env, st, folder, dir);
      !r.ok ==>
        r.st.files == st.files && r.st.log == st.log + [Downloading(folder), Executing(Curl(folder)), CommandError(Curl(folder))]
    ensures var r := DownloadAndUnzip(env, st, folder, dir);
      r.ok && env.unzip(env.download(folder)).None? ==>
        && r.st.files == st.files[ZipPath(folder) := env.download(folder)]
        && r.st.log == st.log + [Downloading(folder), Executing(Curl(folder))] + OutputLines(Curl(folder), env.output(Curl(folder))) + [ExtractionError]
    ensures var r := DownloadAndUnzip(env, st, folder, dir);
      r.ok && env.unzip(env.download(folder)).Some? ==>
        && ZipPath(folder) !in r.st.files
        && r.st.log == st.log + [Downloading(folder), Executing(Curl(folder))] + OutputLines(Curl(folder), env.output(Curl(folder)))
             + [Extracted(dir), ArchiveDeleted(folder)]
        && forall p :: p in env.unzip(env.download(folder)).value && [dir] + p != ZipPath(folder) ==>
             [dir] + p in r.st.files && r.st.files[[dir] + p] == env.unzip(env.download(folder)).value[p]
  {
    var e := Exec(env, Log(st, Downloading(folder)), Curl(folder));
    if e.ok {
      var zip := ZipPath(folder);
      var prefix := st.log + [Downloading(folder), Executing(Curl(folder))] + OutputLines(Curl(folder), env.output(Curl(folder)));
      assert e.st.log == prefix;
      assert e.st.files[zip] == env.download(folder);
      match env.unzip(e.st.files[zip])
      case None =>
      case Some(contents) =>
        ExtractedFiles(e.st.files, dir, contents, zip);
    }
  }

  // ------------------------------------------------------------------ copying

  /** Creating the destination's directory throws: it does not exist and
      a file sits where one of its ancestors should be. */
  predicate MkdirFails(files: map<Path, string>, destDir: Path) {
    !Exists(files, destDir) && BlockedByFile(files, destDir)
  }

  /** `copyFileSync` throws: the destination is a directory, or its
      directory is a file or lies below one. */
  predicate CopyFails(files: map<Path, string>, dest: Path) {
    IsDir(files, dest) || Parent(dest) in files || BlockedByFile(files, Parent(dest))
  }

  /** `copyDirectory(src, dest)` throws: some file below `src` has its
      target at an existing directory (`copyFileSync` cannot overwrite
      one), or below a regular file, which stops both `mkdirSync` and
      `copyFileSync`. */
  predicate DirCopyFails(files: map<Path, string>, src: Path, dest: Path) {
    exists p | p in files && Under(src, p) ::
      IsDir(files, dest + p[|src|..]) || BlockedByFile(files, dest + p[|src|..])
  }

  /** One entry of the file manifest. A missing source is skipped (it is
      reported on the console only). Creating the destination's directory
      is outside the `try`, so its failure propagates; a failing copy is
      caught and logged; a directory source is copied recursively, and a
      throw from that copy is caught and logged in the same way. */
  function CopyFileEntry(st: State, e: Entry): (r: Run)
    ensures r.st.commands == st.commands && r.st.installed == st.installed
    ensures var src, dest := e.src, e.dest;
      && (!Exists(st.files, src) ==> r == Run(st, true))
      && (Exists(st.files, src) && MkdirFails(st.files, Parent(dest)) ==> r == Run(st, false))
      && (Exists(st.files, src) && !MkdirFails(st.files, Parent(dest)) ==>
            && r.ok
            && (IsDir(st.files, src) && !DirCopyFails(st.files, src, dest) ==> r.st == st.(files := CopyDirectory(st.files, src, dest)))
            && (IsDir(st.files, src) && DirCopyFails(st.files, src, dest) ==> r.st == st.(log := st.log + [CopyError(e.src)]))
            && (!IsDir(st.files, src) && CopyFails(st.files, dest) ==> r.st == st.(log := st.log + [CopyError(e.src)]))
            && (!IsDir(st.files, src) && !CopyFails(st.files, dest) ==>
                  src in st.files
                  && r.st.log == st.log + [Copied(e.src, e.dest)]
                  && r.st.files == st.files[dest := st.files[src]]))
  {
    var src, dest := e.src, e.dest;
    var destDir := Parent(dest);
    if !Exists(st.files, src) then Run(st, true)
    else if MkdirFails(st.files, destDir) then Run(st, false)
    else if IsDir(st.files, src) then
      if DirCopyFails(st.files, src, dest) then Run(Log(st, CopyError(e.src)), true)
      else Run(st.(files := CopyDirectory(st.files, src, dest)), true)
    else if CopyFails(st.files, dest) then Run(Log(st, CopyError(e.src)), true)
    else Run(Log(st.(files := st.files[dest := st.files[src]]), Copied(e.src, e.dest)), true)
  }

  /** One entry of the directory manifest: a missing source is skipped;
      there is no `try`, so reading a regular file as a directory throws,
      and so does a copy that meets a directory or a file in its way. */
  function CopyDirEntry(st: State, e: Entry): (r: Run)
    ensures r.st.commands == st.commands && r.st.installed == st.installed && r.st.log == st.log
    ensures !Exists(st.files, e.src) ==> r == Run(st, true)
    ensures r.ok <==> !Exists(st.files, e.src) || (IsDir(st.files, e.src) && !DirCopyFails(st.files, e.src, e.dest))
    ensures r.ok && Exists(st.files, e.src) ==> r.st.files == CopyDirectory(st.files, e.src, e.dest)
    ensures !r.ok ==> r.st == st
  {
    var src, dest := e.src, e.dest;
    if !Exists(st.files, src) then Run(st, true)
    else if IsDir(st.files, src) && !DirCopyFails(st.files, src, dest) then
      Run(st.(files := CopyDirectory(st.files, src, dest)), true)
    else Run(st, false)
  }

  /** A regular file named `styles` in the project stops the first
      directory of the manifest, and with it the installation. */
  lemma StylesFileBlocksCopy(st: State, rel: Path)
    requires ["styles"] in st.files
    requires DirectoriesToCopy[0].src + rel in st.files && rel != []
    ensures !CopyDirEntry(st, DirectoriesToCopy[0]).ok
  {
    var e := DirectoriesToCopy[0];
    var p := e.src + rel;
    assert Under(e.src, p) && p[|e.src|..] == rel;
    var t := e.dest + rel;
    assert t[..1] == ["styles"];
    assert BlockedByFile(st.files, t);
  }

  function CopyFileEntries(st: State, entries: seq<Entry>, i: nat): (r: Run)
    ensures Extends(st, r.st)
    requires i <= |entries|
    ensures r.st.commands == st.commands && r.st.installed == st.installed
    decreases |entries| - i
  {
    if i == |entries| then Run(st, true)
    else
      var c := CopyFileEntry(st, entries[i]);
      if !c.ok then c else CopyFileEntries(c.st, entries, i + 1)
  }

  function CopyDirEntries(st: State, entries: seq<Entry>, i: nat): (r: Run)
    ensures Extends(st, r.st)
    requires i <= |entries|
    ensures r.st.commands == st.commands && r.st.installed == st.installed && r.st.log == st.log
    decreases |entries| - i
  {
    if i == |entries| then Run(st, true)
    else
      var c := CopyDirEntry(st, entries[i]);
      if !c.ok then c else CopyDirEntries(c.st, entries, i + 1)
  }

  /** `copyFilesFromArchitecture()`: both manifests, then the Tailwind
      bootstrap, which runs unconditionally. */
  function CopyFiles(env: Env, st: State): (r: Run)
    ensures Extends(st, r.st)
    ensures r.st.installed == st.installed || r.st.installed == st.installed + TailwindNames
    ensures r.st.commands == st.commands || r.st.commands == st.commands + [TailwindBootstrap]
    ensures r.ok ==> r.st.commands == st.commands + [TailwindBootstrap] && TailwindNames <= r.st.installed
    ensures TailwindBootstrap in env.failing ==> !r.ok
  {
    var s := Log(st, CopyingFiles);
    var f := CopyFileEntries(s, FilesToCopy, 0);
    if !f.ok then f
    else
      var d := CopyDirEntries(f.st, DirectoriesToCopy, 0);
      if !d.ok then d
      else Exec(env, d.st, TailwindBootstrap)
  }

  /** The check after copying: bootstrap Tailwind only when one of its
      three packages is missing. */
  function TailwindCheck(env: Env, st: State): (r: Run)
    ensures Extends(st, r.st)
    ensures TailwindNames <= st.installed ==> r == Run(st, true)
    ensures !(TailwindNames <= st.installed) ==> r == Exec(env, st, TailwindBootstrap)
  {
    if "tailwindcss" in st.installed && "postcss" in st.installed && "autoprefixer" in st.installed then Run(st, true)
    else Exec(env, st, TailwindBootstrap)
  }

  // ------------------------------------------------------------- the script

  predicate IsDevInstall(c: Command) {
    c.NpmInstall? && c.dev
  }

  /** `npm install` for each missing regular package, then for each
      missing development package. */
  function PackagePhase(env: Env, st: State): (r: Run)
    ensures Extends(st, r.st)
    ensures st.installed <= r.st.installed && r.st.files == st.files
    ensures r.ok ==> forall k :: 0 <= k < |Packages| ==> PackageName(Packages[k]) in r.st.installed
    ensures forall k :: |st.commands| <= k < |r.st.commands| ==> r.st.commands[k].NpmInstall?
    ensures forall j, k :: |st.commands| <= j < k < |r.st.commands| && IsDevInstall(r.st.commands[j]) ==> IsDevInstall(r.st.commands[k])
  {
    var s := Log(st, CheckingDependencies);
    var p := InstallList(env, s, Packages, 0, false);
    if !p.ok then p
    else
      var q := InstallList(env, p.st, DevDependencies, 0, true);
      assert forall k :: |st.commands| <= k < |p.st.commands| ==> q.st.commands[k] == p.st.commands[k];
      q
  }

  /** The two archives: the architecture, then the components library. */
  function DownloadPhase(env: Env, st: State): (r: Run)
    ensures Extends(st, r.st) && r.st.installed == st.installed
    ensures forall k :: |st.commands| <= k < |r.st.commands| ==> r.st.commands[k].Curl?
    ensures r.ok <==> Curl("architecture") !in env.failing && Curl("components") !in env.failing
    ensures Curl("architecture") in env.failing ==> r.st.commands == st.commands + [Curl("architecture")]
  {
    var a := DownloadAndUnzip(env, st, "architecture", "architecture");
    if !a.ok then a
    else DownloadAndUnzip(env, a.st, "components", "plasmic-library")
  }

  /** What follows the package loops: the downloads, the copies and the
      Tailwind check. */
  function AfterPackages(env: Env, st: State): (r: Run)
    ensures Extends(st, r.st)
    ensures Curl("architecture") in env.failing ==> !r.ok && r.st.commands == st.commands + [Curl("architecture")]
  {
    var d := DownloadPhase(env, st);
    if !d.ok then d
    else
      var f := CopyFiles(env, d.st);
      if !f.ok then f
      else TailwindCheck(env, f.st)
  }

  /** On success the Tailwind bootstrap has been issued exactly once, by
      the copy phase, because the check after it then finds the three
      packages installed. */
  lemma AfterPackagesBootstrapOnce(env: Env, st: State)
    ensures var r := AfterPackages(env, st);
      r.ok ==>
        && |r.st.commands| > |st.commands|
        && r.st.commands[|r.st.commands| - 1] == TailwindBootstrap
        && forall k :: |st.commands| <= k < |r.st.commands| - 1 ==> r.st.commands[k] != TailwindBootstrap
  {
    var d := DownloadPhase(env, st);
    if d.ok {
      var f := CopyFiles(env, d.st);
      if f.ok {
        var t := TailwindCheck(env, f.st);
        assert TailwindNames <= f.st.installed;
        assert t.ok && t.st.commands == f.st.commands;
        assert AfterPackages(env, st) == t;
        EndsWithBootstrap(st.commands, d.st.commands, t.st.commands);
      }
    }
  }

  /** Commands `s..d` are all downloads and one bootstrap follows them:
      that bootstrap is the only one after `s`. */
  lemma EndsWithBootstrap(s: seq<Command>, d: seq<Command>, u: seq<Command>)
    requires s <= d && u == d + [TailwindBootstrap]
    requires forall k :: |s| <= k < |d| ==> d[k].Curl?
    ensures |u| > |s| && u[|u| - 1] == TailwindBootstrap
    ensures forall k :: |s| <= k < |u| - 1 ==> u[k] != TailwindBootstrap
  {
    forall k | |s| <= k < |u| - 1
      ensures u[k] != TailwindBootstrap
    {
      assert u[k] == d[k];
    }
  }

  /** `installDependencies()`: a failing phase skips every later one. */
  function InstallDependencies(env: Env, st: State): (r: Run)
    ensures Extends(st, r.st)
    ensures PackagePhase(env, st).ok && Curl("architecture") in env.failing ==>
      !r.ok && r.st.commands == PackagePhase(env, st).st.commands + [Curl("architecture")]
  {
    var p := PackagePhase(env, st);
    if !p.ok then p
    else AfterPackages(env, p.st)
  }

  /** The phases run in order and the first that fails ends
      `installDependencies`: its result is the result of the whole. */
  lemma FailingPhaseStops(env: Env, st: State)
    ensures var p := PackagePhase(env, st);
      !p.ok ==> InstallDependencies(env, st) == p
    ensures var p := PackagePhase(env, st); var d := DownloadPhase(env, p.st);
      p.ok && !d.ok ==> InstallDependencies(env, st) == d
    ensures var p := PackagePhase(env, st); var d := DownloadPhase(env, p.st); var c := CopyFiles(env, d.st);
      p.ok && d.ok && !c.ok ==> InstallDependencies(env, st) == c
  {
  }

  /** A successful installation ends with the one Tailwind bootstrap. */
  lemma BootstrapOnce(env: Env, st: State)
    ensures var r := InstallDependencies(env, st);
      r.ok ==>
        && |r.st.commands| > |st.commands|
        && r.st.commands[|r.st.commands| - 1] == TailwindBootstrap
        && forall k :: |st.commands| <= k < |r.st.commands| - 1 ==> r.st.commands[k] != TailwindBootstrap
  {
    var p := PackagePhase(env, st);
    if p.ok {
      var a := AfterPackages(env, p.st);
      AfterPackagesBootstrapOnce(env, p.st);
      var r := InstallDependencies(env, st);
      assert r.ok == a.ok && r.st.commands == a.st.commands;
      if a.ok {
        NoBootstrapBefore(st.commands, p.st.commands, a.st.commands);
      }
    }
  }

  /** Commands `s..t` are all `npm install`s and `t..` has no bootstrap
      before its last entry, so neither has `s..`. */
  lemma NoBootstrapBefore(s: seq<Command>, t: seq<Command>, u: seq<Command>)
    requires s <= t <= u
    requires forall k :: |s| <= k < |t| ==> t[k].NpmInstall?
    requires forall k :: |t| <= k < |u| - 1 ==> u[k] != TailwindBootstrap
    ensures forall k :: |s| <= k < |u| - 1 ==> u[k] != TailwindBootstrap
  {
    forall k | |s| <= k < |u| - 1
      ensures u[k] != TailwindBootstrap
    {
      if k < |t| {
        assert u[k] == t[k];
      }
    }
  }

  /** When the script's own first command fails, nothing else is issued
      and the log is the start line, the command, its error, the
      unexpected-error line and the end line. */
  lemma FirstCommandFails(env: Env, st: State)
    requires FirstCommand in env.failing
    ensures Install(env, st).commands == st.commands + [FirstCommand]
    ensures Install(env, st).log == [Starting, Executing(FirstCommand), CommandError(FirstCommand), UnexpectedError, Finished]
  {
  }

  /** The body of the script's `try`: the log restarted with the start
      line, the first command, and `installDependencies` if it succeeded.
      Whatever the phases do, the start line and the first command stay
      first. */
  function TryBlock(env: Env, st: State): (d: Run)
    ensures |d.st.log| >= 1 && d.st.log[0] == Starting
    ensures |d.st.commands| > |st.commands| && d.st.commands[|st.commands|] == FirstCommand
  {
    var s := st.(log := [Starting]);
    var e := Exec(env, s, FirstCommand);
    assert e.st.commands == st.commands + [FirstCommand] && e.st.log[0] == Starting;
    var d := if e.ok then InstallDependencies(env, e.st) else e;
    assert Extends(e.st, d.st);
    assert d.st.log[0] == e.st.log[0];
    assert d.st.commands[|st.commands|] == e.st.commands[|st.commands|];
    d
  }

  /** The whole script: the log is reset and starts with the start line,
      the first command installs the script's own dependencies, and the
      end line is always written last. */
  function Install(env: Env, st: State): (r: State)
    ensures |r.log| >= 3 && r.log[0] == Starting && r.log[|r.log| - 1] == Finished
    ensures r.log[|r.log| - 2] == Succeeded || r.log[|r.log| - 2] == UnexpectedError
    ensures |r.commands| > |st.commands| && r.commands[|st.commands|] == FirstCommand
  {
    var d := TryBlock(env, st);
    var ending := if d.ok then Succeeded else UnexpectedError;
    d.st.(log := d.st.log + [ending, Finished])
  }
}

=== FILE: js_arrays.dfy ===
/** The array operations the modelled code relies on, on immutable
    sequences: the two uses of `splice` (deleting one element with
    `splice(i, 1)`, inserting one with `splice(i, 0, x)`), `slice` with
    its handling of negative and out-of-range indices, and `filter` by
    a predicate. */
module JsArrays {

  /** `a.splice(i, 1)`: the element at `i` is removed; an index at or past
      the end removes nothing. */
  function SpliceRemove<T>(s: seq<T>, i: nat): (r: seq<T>)
    ensures i < |s| ==> |r| == |s| - 1
    ensures i >= |s| ==> r == s
    ensures forall j :: 0 <= j < i && j < |r| ==> r[j] == s[j]
    ensures i < |s| ==> forall j :: i <= j < |r| ==> r[j] == s[j + 1]
  {
    if i < |s| then s[..i] + s[i + 1..] else s
  }

  /** `a.splice(i, 0, x)`: `x` is inserted before position `i`, or appended
      when `i` is past the end. */
  function SpliceInsert<T>(s: seq<T>, i: nat, x: T): (r: seq<T>)
    ensures |r| == |s| + 1
    ensures var k := if i < |s| then i else |s|;
      r[k] == x
      && (forall j :: 0 <= j < k ==> r[j] == s[j])
      && (forall j :: k < j < |r| ==> r[j] == s[j - 1])
  {
    var k := if i < |s| then i else |s|;
    s[..k] + [x] + s[k..]
  }

  /** The index that an insertion at `i` actually uses. */
  function Clamp(i: nat, n: nat): (k: nat)
    ensures k <= n && (i <= n ==> k == i)
  {
    if i < n then i else n
  }

  lemma RemovePreservesMultiset<T>(s: seq<T>, i: nat)
    requires i < |s|
    ensures multiset(SpliceRemove(s, i)) + multiset{s[i]} == multiset(s)
  {
    assert s == s[..i] + [s[i]] + s[i + 1..];
  }

  lemma InsertAddsToMultiset<T>(s: seq<T>, i: nat, x: T)
    ensures multiset(SpliceInsert(s, i, x)) == multiset(s) + multiset{x}
  {
    var k := Clamp(i, |s|);
    assert s == s[..k] + s[k..];
  }

  /** Removing what was just inserted gives back the original sequence. */
  lemma RemoveAfterInsert<T>(s: seq<T>, i: nat, x: T)
    ensures SpliceRemove(SpliceInsert(s, i, x), Clamp(i, |s|)) == s
  {
    var r := SpliceInsert(s, i, x);
    var k := Clamp(i, |s|);
    var t := SpliceRemove(r, k);
    assert |t| == |s|;
    forall j | 0 <= j < |s|
      ensures t[j] == s[j]
    {
      if j < k {
        assert t[j] == r[j];
      } else {
        assert t[j] == r[j + 1];
      }
    }
  }

  /** Putting a removed element back where it was gives back the
      original sequence. */
  lemma InsertAfterRemove<T>(s: seq<T>, i: nat)
    requires i < |s|
    ensures SpliceInsert(SpliceRemove(s, i), i, s[i]) == s
  {
    assert s == s[..i] + [s[i]] + s[i + 1..];
  }

  /** How `slice` reads an index: a negative one counts from the end,
      and both ends are clamped to the array. */
  function RelativeIndex(i: int, n: nat): (k: nat)
    ensures k <= n
    ensures 0 <= i <= n ==> k == i
    ensures i > n ==> k == n
    ensures i < 0 ==> k == if n + i < 0 then 0 else n + i
  {
    if i < 0 then (if n + i < 0 then 0 else n + i) else if i > n then n else i
  }

  /** `a.slice(start, end)` */
  function Slice<T>(s: seq<T>, start: int, end: int): (r: seq<T>)
    ensures |r| <= |s|
    ensures 0 <= start <= end ==> |r| <= end - start
    ensures 0 <= start <= |s| && start <= end ==>
      r == s[start..if end <= |s| then end else |s|]
    ensures 0 <= start && |s| <= start ==> r == []
  {
    var a := RelativeIndex(start, |s|);
    var b := RelativeIndex(end, |s|);
    if a < b then s[a..b] else []
  }

  /** `s.filter(keep)` */
  function Filter<T>(s: seq<T>, keep: T -> bool): (r: seq<T>)
    ensures |r| <= |s|
    ensures forall i :: 0 <= i < |r| ==> r[i] in s && keep(r[i])
    ensures forall i :: 0 <= i < |s| && keep(s[i]) ==> s[i] in r
  {
    if s == [] then [] else (if keep(s[0]) then [s[0]] else []) + Filter(s[1..], keep)
  }

  /** `Filter` works piece by piece; together with its effect on one
      element this fixes the result: the kept elements, in their
      original order. */
  lemma {:induction false} FilterAppend<T>(a: seq<T>, b: seq<T>, keep: T -> bool)
    ensures Filter(a + b, keep) == Filter(a, keep) + Filter(b, keep)
    decreases |a|
  {
    if a == [] {
      assert a + b == b;
    } else {
      assert (a + b)[1..] == a[1..] + b;
      FilterAppend(a[1..], b, keep);
    }
  }

  /** Filtering what is all kept changes nothing. */
  lemma {:induction false} FilterAll<T>(s: seq<T>, keep: T -> bool)
    requires forall i :: 0 <= i < |s| ==> keep(s[i])
    ensures Filter(s, keep) == s
    decreases |s|
  {
    if s != [] {
      FilterAll(s[1..], keep);
    }
  }

  /** The position of the first occurrence of `x`, or `|s|`. */
  function FirstIndex<T(==)>(s: seq<T>, x: T): (k: nat)
    ensures k <= |s|
    ensures k < |s| ==> s[k] == x
    ensures forall i :: 0 <= i < k ==> s[i] != x
  {
    if s == [] then 0 else if s[0] == x then 0 else 1 + FirstIndex(s[1..], x)
  }

  /** No value occurs twice. */
  predicate NoDuplicates<T(==)>(s: seq<T>) {
    forall i, j :: 0 <= i < j < |s| ==> s[i] != s[j]
  }

  /** `r` holds the values of `s`, each once, in the order of their first
      occurrence in `s`. */
  predicate FirstOccurrences<T(==)>(s: seq<T>, r: seq<T>) {
    && NoDuplicates(r)
    && (forall i :: 0 <= i < |r| ==> r[i] in s)
    && (forall i :: 0 <= i < |s| ==> s[i] in r)
    && (forall i, j :: 0 <= i < j < |r| ==> FirstIndex(s, r[i]) < FirstIndex(s, r[j]))
  }

  /** `Array.from(new Set(s))` */
  function Unique<T(==)>(s: seq<T>): (r: seq<T>)
    ensures FirstOccurrences(s, r)
    decreases |s|
  {
    if s == [] then []
    else
      var init := s[..|s| - 1];
      var last := s[|s| - 1];
      var d := Unique(init);
      UniqueStep(s, init, last, d);
      if last in d then d else d + [last]
  }

  lemma UniqueStep<T>(s: seq<T>, init: seq<T>, last: T, d: seq<T>)
    requires s != [] && init == s[..|s| - 1] && last == s[|s| - 1]
    requires FirstOccurrences(init, d)
    ensures FirstOccurrences(s, if last in d then d else d + [last])
  {
    StepCovers(s, init, last, d);
    StepOrdered(s, init, last, d);
  }

  /** Appending `last` keeps the values of the prefix and adds its own. */
  lemma StepCovers<T>(s: seq<T>, init: seq<T>, last: T, d: seq<T>)
    requires s != [] && init == s[..|s| - 1] && last == s[|s| - 1]
    requires FirstOccurrences(init, d)
    ensures var r := if last in d then d else d + [last];
      && (forall i :: 0 <= i < |r| ==> r[i] in s)
      && (forall i :: 0 <= i < |s| ==> s[i] in r)
  {
    var r := if last in d then d else d + [last];
    forall i | 0 <= i < |s|
      ensures s[i] in r
    {
      if i < |init| {
        assert s[i] == init[i];
        assert init[i] in d;
        var k :| 0 <= k < |d| && d[k] == init[i];
        assert r[k] == d[k];
      } else {
        assert s[i] == last;
        if last !in d {
          assert r[|d|] == last;
        }
      }
    }
    forall i | 0 <= i < |r|
      ensures r[i] in s
    {
      if i < |d| {
        assert r[i] == d[i] && d[i] in init;
        var k :| 0 <= k < |init| && init[k] == d[i];
        assert s[k] == d[i];
      }
    }
  }

  /** A new value goes last, after every value already seen, and keeps
      the first-occurrence order. */
  lemma StepOrdered<T>(s: seq<T>, init: seq<T>, last: T, d: seq<T>)
    requires s != [] && init == s[..|s| - 1] && last == s[|s| - 1]
    requires FirstOccurrences(init, d)
    ensures var r := if last in d then d else d + [last];
      && NoDuplicates(r)
      && (forall i, j :: 0 <= i < j < |r| ==> FirstIndex(s, r[i]) < FirstIndex(s, r[j]))
  {
    forall i | 0 <= i < |d|
      ensures FirstIndex(s, d[i]) == FirstIndex(init, d[i]) < |init|
    {
      FirstIndexPrefix(s, init, d[i]);
    }
    if last !in d {
      assert last !in init;
      FirstIndexPrefix(s, init, last);
    }
  }

  lemma {:induction false} FirstIndexPrefix<T>(s: seq<T>, init: seq<T>, x: T)
    requires s != [] && init == s[..|s| - 1]
    ensures x in init ==> FirstIndex(s, x) == FirstIndex(init, x) < |init|
    ensures x !in init && x == s[|s| - 1] ==> FirstIndex(s, x) == |init|
    decreases |s|
  {
    if |s| > 1 && s[0] != x {
      FirstIndexPrefix(s[1..], init[1..], x);
      assert init == [s[0]] + init[1..];
    }
  }
}

=== FILE: js_strings.dfy ===
/** The slice of JavaScript string semantics the modelled code relies on:
    the `\s` character class (which is also what `trim` strips and what
    `parseInt` skips), `split` on one character, `includes`,
    `startsWith`, and `Number.parseInt(x, 10) || 0`. */
module JsStrings {

  /** JavaScript's `\s`: WhiteSpace and LineTerminator code points. */
  predicate IsSpace(c: char) {
    c == '\t' || c == '\n' || c == '\U{000B}' || c == '\U{000C}' || c == '\r' || c == ' '
    || c == '\U{00A0}' || c == '\U{1680}' || ('\U{2000}' <= c <= '\U{200A}')
    || c == '\U{2028}' || c == '\U{2029}' || c == '\U{202F}' || c == '\U{205F}'
    || c == '\U{3000}' || c == '\U{FEFF}'
  }

  /** JavaScript's `\d` (ASCII digits only). */
  predicate IsDigit(c: char) {
    '0' <= c <= '9'
  }

  predicate AllDigits(s: string) {
    forall i :: 0 <= i < |s| ==> IsDigit(s[i])
  }

  predicate NoSpace(s: string) {
    forall i :: 0 <= i < |s| ==> !IsSpace(s[i])
  }

  predicate AllSpace(s: string) {
    forall i :: 0 <= i < |s| ==> IsSpace(s[i])
  }

  /** `s.trimStart()` */
  function TrimStart(s: string): (r: string)
    ensures |r| <= |s| && r == s[|s| - |r|..]
    ensures AllSpace(s[..|s| - |r|])
    ensures r == [] || !IsSpace(r[0])
  {
    if s == [] || !IsSpace(s[0]) then s else TrimStart(s[1..])
  }

  /** `s.trimEnd()` */
  function TrimEnd(s: string): (r: string)
    ensures |r| <= |s| && r == s[..|r|]
    ensures AllSpace(s[|r|..])
    ensures r == [] || !IsSpace(r[|r| - 1])
  {
    if s == [] || !IsSpace(s[|s| - 1]) then s else TrimEnd(s[..|s| - 1])
  }

  /** `s.trim()` */
  function Trim(s: string): (r: string)
    ensures r == [] || (!IsSpace(r[0]) && !IsSpace(r[|r| - 1]))
    ensures exists i, j :: 0 <= i <= j <= |s| && r == s[i..j] && AllSpace(s[..i]) && AllSpace(s[j..])
  {
    var t := TrimStart(s);
    var r := TrimEnd(t);
    TrimSlice(s, t, r);
    r
  }

  lemma TrimSlice(s: string, t: string, r: string)
    requires |t| <= |s| && t == s[|s| - |t|..] && AllSpace(s[..|s| - |t|])
    requires |r| <= |t| && r == t[..|r|] && AllSpace(t[|r|..])
    ensures 0 <= |s| - |t| <= |s| - |t| + |r| <= |s|
    ensures r == s[|s| - |t|..|s| - |t| + |r|]
    ensures AllSpace(s[..|s| - |t|]) && AllSpace(s[|s| - |t| + |r|..])
  {
    var i := |s| - |t|;
    assert t == s[i..];
    assert r == t[..|r|];
    assert r == s[i..i + |r|];
    assert s[i + |r|..] == t[|r|..];
  }

  /** A string without surrounding white space is its own trim. */
  lemma {:induction false} TrimNoop(s: string)
    requires s == [] || (!IsSpace(s[0]) && !IsSpace(s[|s| - 1]))
    ensures Trim(s) == s
  {
  }

  /** The position of the first occurrence of `c` in `s`, or `|s|` when there is none. */
  function IndexOf(s: string, c: char): (k: nat)
    ensures k <= |s|
    ensures forall i :: 0 <= i < k ==> s[i] != c
    ensures k < |s| ==> s[k] == c
  {
    if s == [] then 0 else if s[0] == c then 0 else 1 + IndexOf(s[1..], c)
  }

  /** `s.split(c)` for a one-character separator. */
  function Split(s: string, c: char): (parts: seq<string>)
    ensures |parts| >= 1
    ensures forall i :: 0 <= i < |parts| ==> c !in parts[i]
    decreases |s|
  {
    var k := IndexOf(s, c);
    if k == |s| then [s] else [s[..k]] + Split(s[k + 1..], c)
  }

  /** `parts.join(c)` */
  function Join(parts: seq<string>, c: char): string
  {
    if parts == [] then [] else if |parts| == 1 then parts[0] else parts[0] + [c] + Join(parts[1..], c)
  }

  function Count(s: string, c: char): nat
  {
    if s == [] then 0 else (if s[0] == c then 1 else 0) + Count(s[1..], c)
  }

  lemma {:induction false} CountAppend(a: string, b: string, c: char)
    ensures Count(a + b, c) == Count(a, c) + Count(b, c)
  {
    if a == [] {
      assert a + b == b;
    } else {
      assert (a + b)[1..] == a[1..] + b;
      CountAppend(a[1..], b, c);
    }
  }

  lemma {:induction false} CountAbsent(s: string, c: char)
    requires c !in s
    ensures Count(s, c) == 0
  {
    if s != [] {
      CountAbsent(s[1..], c);
    }
  }

  /** Joining the pieces of a split gives back the string, and there is one
      more piece than there are separators. */
  lemma {:induction false} SplitJoin(s: string, c: char)
    ensures Join(Split(s, c), c) == s
    ensures |Split(s, c)| == Count(s, c) + 1
    decreases |s|
  {
    var k := IndexOf(s, c);
    if k == |s| {
      assert c !in s;
      CountAbsent(s, c);
    } else {
      var rest := s[k + 1..];
      SplitJoin(rest, c);
      SplitStep(s, c, k);
      CountStep(s, c, k);
    }
  }

  lemma SplitStep(s: string, c: char, k: nat)
    requires k == IndexOf(s, c) && k < |s|
    requires Join(Split(s[k + 1..], c), c) == s[k + 1..]
    ensures Join(Split(s, c), c) == s
  {
    var rest := s[k + 1..];
    var parts := Split(s, c);
    assert parts == [s[..k]] + Split(rest, c);
    assert |parts| >= 2;
    assert parts[1..] == Split(rest, c);
    assert Join(parts, c) == s[..k] + [c] + rest;
    assert s == s[..k] + [c] + rest;
  }

  lemma CountStep(s: string, c: char, k: nat)
    requires k == IndexOf(s, c) && k < |s|
    ensures Count(s, c) == Count(s[k + 1..], c) + 1
  {
    var rest := s[k + 1..];
    assert s == s[..k] + ([c] + rest);
    assert c !in s[..k];
    CountAbsent(s[..k], c);
    CountAppend(s[..k], [c] + rest, c);
    CountAppend([c], rest, c);
    assert Count([c], c) == 1 by {
      assert [c][1..] == [];
    }
  }

  /** Splitting a join of separator-free pieces gives back the pieces. */
  lemma {:induction false} JoinSplit(parts: seq<string>, c: char)
    requires |parts| >= 1
    requires forall i :: 0 <= i < |parts| ==> c !in parts[i]
    ensures Split(Join(parts, c), c) == parts
    decreases |parts|
  {
    if |parts| == 1 {
      assert IndexOf(parts[0], c) == |parts[0]|;
    } else {
      assert Join(parts, c) == parts[0] + [c] + Join(parts[1..], c);
      SplitAtFirst(parts[0], Join(parts[1..], c), c);
      JoinSplit(parts[1..], c);
    }
  }

  /** Splitting at the first separator peels off the separator-free prefix. */
  lemma SplitAtFirst(p: string, rest: string, c: char)
    requires c !in p
    ensures Split(p + [c] + rest, c) == [p] + Split(rest, c)
  {
    var s := p + [c] + rest;
    assert IndexOf(s, c) == |p| by {
      assert forall i :: 0 <= i < |p| ==> s[i] == p[i];
      assert s[|p|] == c;
      IndexOfFirst(s, c, |p|);
    }
    assert s[|p| + 1..] == rest;
    assert s[..|p|] == p;
  }

  lemma IndexOfFirst(s: string, c: char, k: nat)
    requires k < |s| && s[k] == c
    requires forall i :: 0 <= i < k ==> s[i] != c
    ensures IndexOf(s, c) == k
  {
  }

  /** `s.startsWith(p)` */
  predicate StartsWith(s: string, p: string) {
    |p| <= |s| && s[..|p|] == p
  }

  /** `t` occurs in `s` starting at position `i`. */
  predicate OccursAt(s: string, t: string, i: int) {
    0 <= i <= |s| - |t| && s[i..i + |t|] == t
  }

  /** `s.includes(t)`: `t` occurs in `s` at some position. */
  ghost predicate Includes(s: string, t: string) {
    exists i :: OccursAt(s, t, i)
  }

  /** A computable `includes`, scanning the positions left to right. */
  function IncludesFrom(s: string, t: string, i: nat): (b: bool)
    requires i <= |s|
    ensures b <==> exists k :: i <= k && OccursAt(s, t, k)
    decreases |s| - i
  {
    if |s| - i < |t| then false
    else if s[i..i + |t|] == t then (assert OccursAt(s, t, i); true)
    else
      var b := IncludesFrom(s, t, i + 1);
      assert !OccursAt(s, t, i);
      b
  }

  function IncludesText(s: string, t: string): (b: bool)
    ensures b <==> Includes(s, t)
  {
    IncludesFrom(s, t, 0)
  }

  function DigitValue(c: char): (d: nat)
    requires IsDigit(c)
    ensures d < 10
  {
    (c as int) - ('0' as int)
  }

  /** The decimal value of a string of digits. */
  function DigitsValue(s: string): (n: nat)
    requires AllDigits(s)
  {
    if s == [] then 0 else DigitsValue(s[..|s| - 1]) * 10 + DigitValue(s[|s| - 1])
  }

  /** The length of the longest all-digit prefix of `s`. */
  function DigitRun(s: string): (k: nat)
    ensures k <= |s|
    ensures AllDigits(s[..k])
    ensures k < |s| ==> !IsDigit(s[k])
  {
    if s == [] || !IsDigit(s[0]) then 0 else 1 + DigitRun(s[1..])
  }

  /** `Number.parseInt(s, 10) || 0`: leading white space is skipped, one
      optional sign is read, then the longest run of decimal digits; with
      no digit the result is NaN, which `|| 0` turns into 0 (as it does -0). */
  function ParseIntOrZero(s: string): (n: int)
  {
    var t := TrimStart(s);
    var neg := |t| > 0 && t[0] == '-';
    var u := if |t| > 0 && (t[0] == '-' || t[0] == '+') then t[1..] else t;
    var k := DigitRun(u);
    if k == 0 then 0
    else if neg then 0 - (DigitsValue(u[..k]) as int)
    else DigitsValue(u[..k])
  }

  /** A digit run followed by anything that is not a digit parses as the
      run's value: "10" gives 10 and "1rc" gives 1. */
  lemma {:induction false} ParseDigitsPrefix(d: string, rest: string)
    requires d != [] && AllDigits(d)
    requires rest == [] || !IsDigit(rest[0])
    ensures ParseIntOrZero(d + rest) == DigitsValue(d)
  {
    var s := d + rest;
    assert s[0] == d[0] && IsDigit(s[0]);
    DigitRunOf(d, rest);
    assert s[..|d|] == d;
    ParseUnsigned(s);
  }

  /** Text that starts with a digit is read without white space or sign:
      its value is that of its leading digit run. */
  lemma ParseUnsigned(s: string)
    requires s != [] && IsDigit(s[0])
    ensures DigitRun(s) > 0
    ensures ParseIntOrZero(s) == DigitsValue(s[..DigitRun(s)])
  {
    assert !IsSpace(s[0]);
    assert TrimStart(s) == s;
    assert s[0] != '-' && s[0] != '+';
  }

  lemma {:induction false} DigitRunOf(d: string, rest: string)
    requires AllDigits(d)
    requires rest == [] || !IsDigit(rest[0])
    ensures DigitRun(d + rest) == |d|
    decreases |d|
  {
    if d == [] {
      assert d + rest == rest;
    } else {
      assert (d + rest)[1..] == d[1..] + rest;
      DigitRunOf(d[1..], rest);
    }
  }

  /** A string that does not start (after white space and sign) with a
      digit parses as 0: "N/A", "", "x1" and "-" all give 0. */
  lemma NoDigitParsesZero(s: string)
    requires forall i :: 0 <= i < |s| ==> !IsDigit(s[i])
    ensures ParseIntOrZero(s) == 0
  {
    var t := TrimStart(s);
    var u := if |t| > 0 && (t[0] == '-' || t[0] == '+') then t[1..] else t;
    if |u| > 0 {
      assert u[0] in s;
    }
  }
}

=== FILE: kanban.dfy ===
/** The task board (plasmic-library/others/Kanban/Kanban.tsx): search,
    sort, grouping of tasks into columns, and the drag handler that
    moves a task between columns. */
module Kanban {
  import opened Wrappers
  import opened JsStrings
  import opened JsArrays
  import opened StableSort

  /** A task after conversion from the API record. */
  datatype Task = Task(
    id: string, title: string, dateStart: string, dateEnd: string,
    description: string, kind: string, thematic: string)

  /** The `groupBy` prop: the field whose value names a task's column. */
  datatype GroupBy = ByType | ByThematic

  function GroupValue(t: Task, g: GroupBy): string {
    match g
    case ByType => t.kind
    case ByThematic => t.thematic
  }

  /** The `sortBy` prop; `Other` is any value outside the three the
      comparator knows. */
  datatype SortBy = DateStart | DateEnd | Title | Other

  // ---------------------------------------------------------------------
  // Search and sort
  // ---------------------------------------------------------------------

  /** The search test for one task; `lower` is `toLowerCase`. */
  predicate Matches(t: Task, term: string, lower: string -> string) {
    IncludesText(lower(t.title), lower(term)) || IncludesText(lower(t.description), lower(term))
  }

  /** `filterTasksBySearch` */
  function Search(tasks: seq<Task>, term: string, lower: string -> string): (r: seq<Task>)
    ensures term == [] ==> r == tasks
    ensures term != [] ==> forall i :: 0 <= i < |r| ==> r[i] in tasks && Matches(r[i], term, lower)
    ensures term != [] ==> forall i :: 0 <= i < |tasks| && Matches(tasks[i], term, lower) ==> tasks[i] in r
  {
    if term == [] then tasks else Filter(tasks, (t: Task) => Matches(t, term, lower))
  }

  /** The search keeps the surviving tasks in their order: searching a
      concatenation is concatenating the searches. */
  lemma SearchKeepsOrder(a: seq<Task>, b: seq<Task>, term: string, lower: string -> string)
    ensures Search(a + b, term, lower) == Search(a, term, lower) + Search(b, term, lower)
  {
    if term != [] {
      FilterAppend(a, b, (t: Task) => Matches(t, term, lower));
    }
  }

  /** The comparator of `sortTasks`. `time` is `new Date(s).getTime()`
      and `lc` is `localeCompare`. */
  function CompareTasks(sortBy: SortBy, asc: bool, lc: (string, string) -> int, time: string -> int, a: Task, b: Task): (r: int)
    ensures sortBy == Other ==> r == 0
    ensures sortBy == DateStart ==>
      (r < 0 <==> if asc then time(a.dateStart) < time(b.dateStart) else time(b.dateStart) < time(a.dateStart))
    ensures sortBy == DateEnd ==>
      (r < 0 <==> if asc then time(a.dateEnd) < time(b.dateEnd) else time(b.dateEnd) < time(a.dateEnd))
    ensures sortBy == Title ==> (r < 0 <==> if asc then lc(a.title, b.title) < 0 else lc(a.title, b.title) > 0)
  {
    var c := match sortBy
      case DateStart => time(a.dateStart) - time(b.dateStart)
      case DateEnd => time(a.dateEnd) - time(b.dateEnd)
      case Title => lc(a.title, b.title)
      case Other => 0;
    if asc then c else -c
  }

  /** `sortTasks` */
  function SortTasks(tasks: seq<Task>, sortBy: SortBy, asc: bool, lc: (string, string) -> int, time: string -> int): (r: seq<Task>)
    ensures multiset(r) == multiset(tasks)
  {
    Sort(tasks, (a: Task, b: Task) => CompareTasks(sortBy, asc, lc, time, a, b))
  }

  /** Descending negates the ascending comparison; an unknown sort key
      compares every pair as equal, so the order is kept. */
  lemma SortLaws(tasks: seq<Task>, sortBy: SortBy, lc: (string, string) -> int, time: string -> int, a: Task, b: Task)
    ensures CompareTasks(sortBy, false, lc, time, a, b) == -CompareTasks(sortBy, true, lc, time, a, b)
    ensures SortTasks(tasks, Other, true, lc, time) == tasks
    ensures SortTasks(tasks, Other, false, lc, time) == tasks
  {
    SortKeepsOrdered(tasks, (x: Task, y: Task) => CompareTasks(Other, true, lc, time, x, y));
    SortKeepsOrdered(tasks, (x: Task, y: Task) => CompareTasks(Other, false, lc, time, x, y));
  }

  /** `processedTasks`: search, then sort. */
  function Processed(tasks: seq<Task>, term: string, sortBy: SortBy, asc: bool, lower: string -> string, lc: (string, string) -> int, time: string -> int): (r: seq<Task>)
    ensures multiset(r) == multiset(Search(tasks, term, lower))
  {
    SortTasks(Search(tasks, term, lower), sortBy, asc, lc, time)
  }

  // ---------------------------------------------------------------------
  // Columns
  // ---------------------------------------------------------------------

  datatype Column = Column(id: string, title: string, tasks: seq<Task>)

  datatype Board = Board(columns: map<string, Column>, columnOrder: seq<string>)

  function GroupValues(tasks: seq<Task>, g: GroupBy): (r: seq<string>)
    ensures |r| == |tasks|
    ensures forall i :: 0 <= i < |tasks| ==> r[i] == GroupValue(tasks[i], g)
  {
    if tasks == [] then [] else [GroupValue(tasks[0], g)] + GroupValues(tasks[1..], g)
  }

  const DefaultColumn: string := "Default"

  /** `columnTypes`: the distinct group values in order of first
      appearance, or the one default column when there are none. */
  function ColumnTypes(tasks: seq<Task>, g: GroupBy): (r: seq<string>)
    ensures tasks == [] ==> r == [DefaultColumn]
    ensures tasks != [] ==> FirstOccurrences(GroupValues(tasks, g), r)
    ensures NoDuplicates(r)
  {
    var u := Unique(GroupValues(tasks, g));
    if |u| > 0 then u
    else [DefaultColumn]
  }

  /** The tasks of one column: the processed tasks in that group, in
      processed order. */
  function ColumnTasks(tasks: seq<Task>, g: GroupBy, id: string): seq<Task> {
    Filter(tasks, (t: Task) => GroupValue(t, g) == id)
  }

  /** The board built from the processed tasks (on first render and
      whenever they change). */
  function BuildBoard(tasks: seq<Task>, g: GroupBy): (b: Board)
    ensures b.columnOrder == ColumnTypes(tasks, g)
    ensures b.columns.Keys == set id | id in b.columnOrder
    ensures forall id :: id in b.columns ==> b.columns[id] == Column(id, id, ColumnTasks(tasks, g, id))
  {
    var types := ColumnTypes(tasks, g);
    Board(map id | id in types :: Column(id, id, ColumnTasks(tasks, g, id)), types)
  }

  /** Every processed task sits in the column of its group value and in
      no other. */
  lemma TasksPlaced(tasks: seq<Task>, g: GroupBy, i: int)
    requires 0 <= i < |tasks|
    ensures var b := BuildBoard(tasks, g);
      var id := GroupValue(tasks[i], g);
      && id in b.columns && tasks[i] in b.columns[id].tasks
      && forall other :: other in b.columns && tasks[i] in b.columns[other].tasks ==> other == id
  {
    var b := BuildBoard(tasks, g);
    var id := GroupValue(tasks[i], g);
    var vals := GroupValues(tasks, g);
    assert vals[i] == id;
    assert id in b.columnOrder;
  }

  // ---------------------------------------------------------------------
  // Dragging
  // ---------------------------------------------------------------------

  datatype Location = Location(droppableId: string, index: nat)

  datatype DropResult = DropResult(destination: Option<Location>, source: Location, draggableId: string)

  /** After a drop: the board, the `(task, column)` pair `onTaskMove`
      would be called with (when the prop is given), and the moving mark left set because the handler
      stopped before scheduling its reset. */
  datatype DragOutcome = DragOutcome(board: Board, notified: Option<(string, string)>, stuckMark: Option<string>)

  /** `tasks.find(t => t.id === id)` */
  function Find(tasks: seq<Task>, id: string): (r: Option<Task>)
    ensures r.Some? ==> r.value in tasks && r.value.id == id
    ensures r.None? ==> forall i :: 0 <= i < |tasks| ==> tasks[i].id != id
  {
    if tasks == [] then None else if tasks[0].id == id then Some(tasks[0]) else Find(tasks[1..], id)
  }

  /** The moved task with its group field set to the destination. */
  function Regroup(t: Task, g: GroupBy, dest: string): (r: Task)
    ensures GroupValue(r, g) == dest
    ensures r.id == t.id && r.title == t.title && r.description == t.description
    ensures r.dateStart == t.dateStart && r.dateEnd == t.dateEnd
    ensures g == ByType ==> r.thematic == t.thematic
    ensures g == ByThematic ==> r.kind == t.kind
  {
    match g
    case ByType => t.(kind := dest)
    case ByThematic => t.(thematic := dest)
  }

  /** Drops the handler ignores before marking the task: none, or back
      to the same place. */
  predicate Ignored(res: DropResult) {
    res.destination.None?
    || (res.destination.value.droppableId == res.source.droppableId && res.destination.value.index == res.source.index)
  }

  /** `onDragEnd` as written. The destination list is copied from the
      board before the source removal, and its entry is written after
      the source entry, so a move within one column inserts a copy and
      keeps the original. */
  function DragEnd(b: Board, res: DropResult, g: GroupBy): (r: DragOutcome)
    ensures Ignored(res) ==> r == DragOutcome(b, None, None)
    ensures !Ignored(res) && (res.source.droppableId !in b.columns
                              || Find(b.columns[res.source.droppableId].tasks, res.draggableId).None?
                              || res.destination.value.droppableId !in b.columns) ==>
      r == DragOutcome(b, None, Some(res.draggableId))
    ensures r.notified.Some? <==>
      && !Ignored(res) && res.source.droppableId in b.columns && res.destination.value.droppableId in b.columns
      && Find(b.columns[res.source.droppableId].tasks, res.draggableId).Some?
    ensures r.notified.None? ==> r.board == b
    ensures r.notified.Some? ==>
      && r.notified.value == (res.draggableId, res.destination.value.droppableId)
      && r.stuckMark.None?
      && res.destination.value.droppableId in r.board.columns
      && |r.board.columns[res.destination.value.droppableId].tasks| == |b.columns[res.destination.value.droppableId].tasks| + 1
      && r.board != b
  {
    if Ignored(res) then DragOutcome(b, None, None)
    else
      var dest := res.destination.value;
      var id := res.draggableId;
      if res.source.droppableId !in b.columns then DragOutcome(b, None, Some(id))
      else
        var sourceColumn := b.columns[res.source.droppableId];
        match Find(sourceColumn.tasks, id)
        case None => DragOutcome(b, None, Some(id))
        case Some(task) =>
          if dest.droppableId !in b.columns then DragOutcome(b, None, Some(id))
          else
            var destColumn := b.columns[dest.droppableId];
            var newSource := SpliceRemove(sourceColumn.tasks, res.source.index);
            var newDest := SpliceInsert(destColumn.tasks, dest.index, Regroup(task, g, dest.droppableId));
            var columns := b.columns[res.source.droppableId := sourceColumn.(tasks := newSource)]
                                    [dest.droppableId := destColumn.(tasks := newDest)];
            DragOutcome(b.(columns := columns), Some((id, dest.droppableId)), None)
  }

  /** A move between two columns takes the task at the source index out
      of the source column, inserts the regrouped task in the
      destination column, leaves every other column as it was, and keeps
      the number of tasks of the two columns. */
  lemma CrossColumnMove(b: Board, res: DropResult, g: GroupBy, task: Task)
    requires res.destination.Some? && res.destination.value.droppableId != res.source.droppableId
    requires res.source.droppableId in b.columns && res.destination.value.droppableId in b.columns
    requires Find(b.columns[res.source.droppableId].tasks, res.draggableId) == Some(task)
    requires res.source.index < |b.columns[res.source.droppableId].tasks|
    ensures var r := DragEnd(b, res, g);
      var src := res.source.droppableId;
      var dst := res.destination.value.droppableId;
      && r.board.columns.Keys == b.columns.Keys
      && r.board.columns[src].tasks == SpliceRemove(b.columns[src].tasks, res.source.index)
      && r.board.columns[dst].tasks == SpliceInsert(b.columns[dst].tasks, res.destination.value.index, Regroup(task, g, dst))
      && |r.board.columns[src].tasks| + |r.board.columns[dst].tasks| == |b.columns[src].tasks| + |b.columns[dst].tasks|
      && (forall k :: k in b.columns && k != src && k != dst ==> r.board.columns[k] == b.columns[k])
      && r.board.columnOrder == b.columnOrder
  {
  }

  /** A move within one column keeps every task and adds the regrouped
      copy: the column grows by one. */
  lemma SameColumnDuplicates(b: Board, res: DropResult, g: GroupBy, task: Task)
    requires res.destination.Some? && res.destination.value.droppableId == res.source.droppableId
    requires res.destination.value.index != res.source.index
    requires res.source.droppableId in b.columns
    requires Find(b.columns[res.source.droppableId].tasks, res.draggableId) == Some(task)
    ensures var col := res.source.droppableId;
      var after := DragEnd(b, res, g).board.columns[col].tasks;
      && |after| == |b.columns[col].tasks| + 1
      && multiset(after) == multiset(b.columns[col].tasks) + multiset{Regroup(task, g, col)}
  {
    var col := res.source.droppableId;
    InsertAddsToMultiset(b.columns[col].tasks, res.destination.value.index, Regroup(task, g, col));
  }

  /** The concrete case: dragging the first of two tasks one place down
      gives three tasks, the dragged one twice. */
  lemma DuplicationExample(a: Task, c: Task, col: string, g: GroupBy)
    requires a.id != c.id && GroupValue(a, g) == col
    ensures var b := Board(map[col := Column(col, col, [a, c])], [col]);
      var res := DropResult(Some(Location(col, 1)), Location(col, 0), a.id);
      && DragEnd(b, res, g).board.columns[col].tasks == [a, a, c]
      && DragEndFixed(b, res, g).board.columns[col].tasks == [c, a]
  {
    var tasks := [a, c];
    assert Find(tasks, a.id) == Some(a);
    assert Regroup(a, g, col) == a;
    assert SpliceInsert(tasks, 1, a) == [a, a, c];
    assert SpliceRemove(tasks, 0) == [c];
    assert SpliceInsert([c], 1, a) == [c, a];
  }

  /** `onDragEnd` with a move within one column done as a reorder: the
      insertion goes into the list the task was removed from. Moves
      between columns are as written. */
  function DragEndFixed(b: Board, res: DropResult, g: GroupBy): (r: DragOutcome)
    ensures Ignored(res) ==> r == DragOutcome(b, None, None)
    ensures r.notified.None? ==> r.board == b
    ensures res.destination.Some? && res.destination.value.droppableId != res.source.droppableId ==> r == DragEnd(b, res, g)
  {
    if Ignored(res) || res.destination.value.droppableId != res.source.droppableId then DragEnd(b, res, g)
    else
      var dest := res.destination.value;
      var id := res.draggableId;
      if res.source.droppableId !in b.columns then DragOutcome(b, None, Some(id))
      else
        var column := b.columns[res.source.droppableId];
        match Find(column.tasks, id)
        case None => DragOutcome(b, None, Some(id))
        case Some(task) =>
          var reordered := SpliceInsert(SpliceRemove(column.tasks, res.source.index), dest.index, Regroup(task, g, dest.droppableId));
          DragOutcome(b.(columns := b.columns[dest.droppableId := column.(tasks := reordered)]), Some((id, dest.droppableId)), None)
  }

  /** With the fix, moving the dragged task (the one at the source index,
      already in this column's group) within its column only reorders
      the column. */
  lemma FixedReorders(b: Board, res: DropResult, g: GroupBy)
    requires res.destination.Some? && res.destination.value.droppableId == res.source.droppableId
    requires res.destination.value.index != res.source.index
    requires res.source.droppableId in b.columns
    requires var tasks := b.columns[res.source.droppableId].tasks;
      res.source.index < |tasks| && tasks[res.source.index].id == res.draggableId
      && Find(tasks, res.draggableId) == Some(tasks[res.source.index])
      && GroupValue(tasks[res.source.index], g) == res.source.droppableId
    ensures var col := res.source.droppableId;
      var after := DragEndFixed(b, res, g).board.columns[col].tasks;
      && |after| == |b.columns[col].tasks|
      && multiset(after) == multiset(b.columns[col].tasks)
  {
    var col := res.source.droppableId;
    var tasks := b.columns[col].tasks;
    var task := tasks[res.source.index];
    assert Regroup(task, g, col) == task;
    var removed := SpliceRemove(tasks, res.source.index);
    RemovePreservesMultiset(tasks, res.source.index);
    InsertAddsToMultiset(removed, res.destination.value.index, task);
  }
}

=== FILE: library_versions.dfy ===
/** The library manager card and its settings panel
    (architecture/pages/api/plasmic-lib/system/Library/Library.tsx and
    Parameters.tsx): how each reads the installed and latest versions
    from the version file, how the card refreshes the latest version
    from the remote API, and how the panel decides between "update
    available", "up to date" and "cannot verify". */
module LibraryVersions {
  import opened Wrappers

  const NotAvailable: string := "N/A"

  /** The two fields of the version file; `None` is a missing field. */
  datatype VersionFile = VersionFile(installedVersion: Option<string>, lastVersion: Option<string>)

  /** `value || "N/A"` for an optional text. */
  function OrNotAvailable(o: Option<string>): (r: string)
    ensures r == NotAvailable <==> o.None? || o.value == [] || o.value == NotAvailable
    ensures o.Some? && o.value != [] ==> r == o.value
  {
    if o.Some? && o.value != [] then o.value else NotAvailable
  }

  /** `s.replace(/^v/, "")`: one leading `v` is removed. */
  function StripV(s: string): (r: string)
    ensures |s| > 0 && s[0] == 'v' ==> s == "v" + r
    ensures !(|s| > 0 && s[0] == 'v') ==> r == s
  {
    if |s| > 0 && s[0] == 'v' then s[1..] else s
  }

  /** Only one `v` goes, and a bare `v` leaves nothing. */
  lemma StripVExamples(s: string)
    requires s == "vv1.2"
    ensures StripV(s) == "v1.2" && StripV("v") == []
  {
  }

  // ---------------------------------------------------------------------
  // The card
  // ---------------------------------------------------------------------

  datatype Card = Card(
    version: Option<string>, loading: bool, error: Option<string>,
    showParameters: bool, selectedItem: Option<string>,
    lastVersion: string, installedVersion: string,
    updateAvailable: bool, showDetails: bool)

  /** The first-render state after the version-file effect: the installed
      version or "N/A", and the latest version without its `v`, or "N/A"
      when that leaves nothing. */
  function CardMount(file: VersionFile): (c: Card)
    ensures c.installedVersion == OrNotAvailable(file.installedVersion)
    ensures file.lastVersion.None? ==> c.lastVersion == NotAvailable
    ensures file.lastVersion.Some? && StripV(file.lastVersion.value) != [] ==> c.lastVersion == StripV(file.lastVersion.value)
    ensures file.lastVersion.Some? && StripV(file.lastVersion.value) == [] ==> c.lastVersion == NotAvailable
    ensures !c.loading && !c.showParameters && !c.showDetails && !c.updateAvailable
  {
    var last := match file.lastVersion
      case None => None
      case Some(v) => Some(StripV(v));
    Card(None, false, None, false, None, OrNotAvailable(last), OrNotAvailable(file.installedVersion), false, false)
  }

  /** What `fetch` of the remote version gave: a failure (network error,
      a non-ok status, or a body without `version`) or the version text. */
  datatype Remote = Failed | Version(text: string)

  const FetchError: string := "Erreur lors de la récupération des versions."

  const NewVersionPrefix: string := "\U{1F4CD} Nouvelle version disponible : "

  const UpToDatePrefix: string := "\U{2714}\U{FE0F} Version à jour : "

  /** The card after `fetchRemoteVersion`, and the latest version it
      asked the files endpoint to store, if any. */
  datatype Refresh = Refresh(card: Card, stored: Option<string>)

  /** `fetchRemoteVersion`. A remote version without its `v` that differs
      from the file's raw latest version becomes the latest version and
      is stored. The message compares the two versions the card held
      when the fetch began. A failure records the error and resets the
      latest version to "N/A". */
  function FetchRemoteVersion(c: Card, file: VersionFile, remote: Remote): (r: Refresh)
    ensures !r.card.loading
    ensures remote.Failed? ==>
      && r.card.error == Some(FetchError) && r.card.lastVersion == NotAvailable
      && r.card.version == c.version && r.stored.None?
    ensures remote.Version? ==>
      var v := StripV(remote.text);
      && (r.stored.Some? <==> Some(v) != file.lastVersion)
      && (r.stored.Some? ==> r.stored.value == v && r.card.lastVersion == v)
      && (r.stored.None? ==> r.card.lastVersion == c.lastVersion)
      && (r.card.updateAvailable <==> c.installedVersion != c.lastVersion)
      && r.card.version == Some((if r.card.updateAvailable then NewVersionPrefix else UpToDatePrefix) + c.lastVersion)
  {
    match remote
    case Failed => Refresh(c.(error := Some(FetchError), lastVersion := NotAvailable, loading := false), None)
    case Version(text) =>
      var v := StripV(text);
      var stored := if Some(v) != file.lastVersion then Some(v) else None;
      var last := if stored.Some? then v else c.lastVersion;
      var update := c.installedVersion != c.lastVersion;
      var message := (if update then NewVersionPrefix else UpToDatePrefix) + c.lastVersion;
      Refresh(c.(lastVersion := last, version := Some(message), updateAvailable := update, loading := false), stored)
  }

  /** The message of one fetch can name the previous latest version: the
      effect runs again on the new one, and that second run reports it. */
  lemma SecondFetchReportsNewVersion(c: Card, file: VersionFile, text: string)
    requires StripV(text) != c.lastVersion && Some(StripV(text)) != file.lastVersion
    ensures var first := FetchRemoteVersion(c, file, Version(text)).card;
      && first.version == Some((if c.installedVersion != c.lastVersion then NewVersionPrefix else UpToDatePrefix) + c.lastVersion)
      && FetchRemoteVersion(first, file, Version(text)).card.version ==
           Some((if c.installedVersion != StripV(text) then NewVersionPrefix else UpToDatePrefix) + StripV(text))
  {
  }

  /** `handleToggleParameters` */
  function ToggleParameters(c: Card): (r: Card)
    ensures r.showParameters == !c.showParameters && !r.showDetails
  {
    c.(showParameters := !c.showParameters, showDetails := false)
  }

  /** Toggling twice restores the panel's visibility and leaves the
      details hidden. */
  lemma ToggleTwice(c: Card)
    ensures ToggleParameters(ToggleParameters(c)) == c.(showDetails := false)
  {
  }

  const Close: string := "close"

  /** `handleItemClick`: "close" hides the details and clears the
      selection; any other item shows them with the given versions. */
  function HandleItemClick(c: Card, item: string, installed: string, last: string): (r: Card)
    ensures item == Close ==>
      && !r.showDetails && r.selectedItem.None?
      && r.installedVersion == c.installedVersion && r.lastVersion == c.lastVersion
      && r.updateAvailable == c.updateAvailable
    ensures item != Close ==>
      && r.showDetails && r.selectedItem == Some(item)
      && r.installedVersion == installed && r.lastVersion == last
      && (r.updateAvailable <==> installed != last)
    ensures r.showParameters == c.showParameters && r.version == c.version
  {
    if item == Close then c.(showDetails := false, selectedItem := None)
    else c.(showDetails := true, selectedItem := Some(item), installedVersion := installed,
            lastVersion := last, updateAvailable := installed != last)
  }

  // ---------------------------------------------------------------------
  // The settings panel
  // ---------------------------------------------------------------------

  datatype Panel = Panel(
    loading: bool, message: Option<string>,
    installedVersion: string, lastVersion: string,
    updateAvailable: bool, isUpdating: bool, selectedItem: Option<string>)

  /** A call of the `onItemClick` prop. */
  datatype ItemClick = ItemClick(item: string, installed: string, last: string)

  datatype Check = Check(panel: Panel, click: Option<ItemClick>)

  const CannotVerify: string := "\U{26A0}\U{FE0F} Impossible de vérifier les mises à jour."

  const Update: string := "update"

  /** The panel on mount, before its check. */
  const PanelMount: Panel := Panel(true, None, NotAvailable, NotAvailable, false, false, None)

  /** `checkVersions`: both versions known and different report an update
      and tell the card; known and equal report "up to date"; otherwise
      the versions cannot be checked. Loading always ends. */
  function CheckVersions(p: Panel, file: VersionFile): (r: Check)
    ensures !r.panel.loading
    ensures r.panel.installedVersion == OrNotAvailable(file.installedVersion)
    ensures r.panel.lastVersion == OrNotAvailable(file.lastVersion)
    ensures var i := r.panel.installedVersion; var l := r.panel.lastVersion;
      && (i != NotAvailable && l != NotAvailable && i != l ==>
            && r.panel.updateAvailable
            && r.panel.message == Some("Une nouvelle version est disponible : " + l)
            && r.click == Some(ItemClick(Update, i, l)))
      && (i != NotAvailable && l != NotAvailable && i == l ==>
            && r.panel.message == Some("Version " + l + " à jour")
            && r.click.None? && r.panel.updateAvailable == p.updateAvailable)
      && (i == NotAvailable || l == NotAvailable ==>
            && r.panel.message == Some(CannotVerify)
            && r.click.None? && r.panel.updateAvailable == p.updateAvailable)
  {
    var i := OrNotAvailable(file.installedVersion);
    var l := OrNotAvailable(file.lastVersion);
    var q := p.(installedVersion := i, lastVersion := l, loading := false);
    if i != NotAvailable && l != NotAvailable then
      if i != l then
        Check(q.(updateAvailable := true, message := Some("Une nouvelle version est disponible : " + l)), Some(ItemClick(Update, i, l)))
      else Check(q.(message := Some("Version " + l + " à jour")), None)
    else Check(q.(message := Some(CannotVerify)), None)
  }

  /** An update reported by the panel reaches the card as details with
      the update flag raised. */
  lemma PanelUpdateShowsDetails(p: Panel, c: Card, file: VersionFile)
    requires CheckVersions(p, file).click.Some?
    ensures var k := CheckVersions(p, file).click.value;
      var r := HandleItemClick(c, k.item, k.installed, k.last);
      r.showDetails && r.updateAvailable && r.selectedItem == Some(Update)
  {
  }

  /** The card strips the `v` of the latest version and the panel does
      not: with "1.2" installed and "v1.2" in the file, the card is up to
      date while the panel reports an update. */
  lemma PrefixDisagreement(file: VersionFile, p: Panel)
    requires file == VersionFile(Some("1.2"), Some("v1.2"))
    ensures var c := CardMount(file); c.installedVersion == c.lastVersion
    ensures CheckVersions(p, file).panel.updateAvailable
  {
    assert StripV("v1.2") == "1.2";
  }

  const Updating: string := "Mise à jour en cours..."

  const UpdateDone: string := "Mise à jour terminée !"

  /** `handleUpdate`, before its timer. */
  function HandleUpdate(p: Panel): (r: Panel)
    ensures r.isUpdating && r.message == Some(Updating)
    ensures r.installedVersion == p.installedVersion && r.lastVersion == p.lastVersion
  {
    p.(isUpdating := true, message := Some(Updating))
  }

  /** The timer of `handleUpdate`: the "done" message is set and at once
      replaced by the message of the check that follows. */
  function UpdateTimer(p: Panel, file: VersionFile): (r: Check)
    ensures !r.panel.isUpdating && !r.panel.loading
    ensures r.panel.message.Some? && r.panel.message != Some(UpdateDone)
  {
    var r := CheckVersions(p.(isUpdating := false, message := Some(UpdateDone)), file);
    assert r.panel.message.value[0] != UpdateDone[0] by {
      var i := r.panel.installedVersion;
      var l := r.panel.lastVersion;
      if i != NotAvailable && l != NotAvailable && i != l {
        assert r.panel.message.value == "Une nouvelle version est disponible : " + l;
      } else if i != NotAvailable && l != NotAvailable {
        assert r.panel.message.value == "Version " + l + " à jour";
      }
    }
    r
  }

  /** `handleMenuItemClick`: the item is selected, and the timer hands
      the card the versions the panel held at the click. */
  function MenuItemClick(p: Panel, item: string): (r: Check)
    ensures r.panel.selectedItem == Some(item)
    ensures r.click == Some(ItemClick(item, p.installedVersion, p.lastVersion))
  {
    Check(p.(selectedItem := Some(item)), Some(ItemClick(item, p.installedVersion, p.lastVersion)))
  }
}

=== FILE: login.dfy ===
/** The login form (plasmic-library/authentication/Login/Login.tsx): its
    validation, which stops at the first failing check, and the control
    flow of the submit and social sign-in handlers, where every failure
    ends at `onError`. */
module Login {
  import opened Wrappers
  import opened FormChecks
  import opened FormState

  const MinPasswordLength: nat := 6

  datatype Failure = EmailRequired | EmailFormat | PasswordRequired | PasswordTooShort

  /** The text of the `Error` each check throws. */
  function FailureMessage(e: Failure): string {
    match e
    case EmailRequired => "L'email est requis"
    case EmailFormat => "Format d'email invalide"
    case PasswordRequired => "Le mot de passe est requis"
    case PasswordTooShort => "Le mot de passe doit contenir au moins 6 caractères"
  }

  /** `validateForm`: the first check that fails, if any. */
  function Validate(email: string, password: string): (r: Option<Failure>)
    ensures r.None? <==> ValidEmail(email) && |password| >= MinPasswordLength
    ensures r == Some(EmailRequired) <==> email == []
    ensures r == Some(EmailFormat) <==> email != [] && !ValidEmail(email)
    ensures r == Some(PasswordRequired) <==> ValidEmail(email) && password == []
    ensures r == Some(PasswordTooShort) <==> ValidEmail(email) && 0 < |password| < MinPasswordLength
  {
    if email == [] then Some(EmailRequired)
    else if !ValidEmail(email) then Some(EmailFormat)
    else if password == [] then Some(PasswordRequired)
    else if |password| < MinPasswordLength then Some(PasswordTooShort)
    else None
  }

  /** What reached the caller after a submit: the messages passed to
      `onError`, whether `onSubmit` was called, and the final
      `isSubmitting` flag. */
  datatype Outcome = Outcome(errors: seq<string>, submitted: bool, isSubmitting: bool)

  /** The message of the `Error` handed to `onError` for a thrown value:
      its own message, or `String(value)` (`text`) for a non-error. */
  function Reported(t: Thrown, text: string): string {
    match t
    case ErrorWith(m) => m
    case NonError => text
  }

  /** `handleSubmit`. `text` is what `String(error)` gives for a thrown
      non-error. */
  function Submit(email: string, password: string, handler: Handler, text: string): (r: Outcome)
    ensures !r.isSubmitting
    ensures |r.errors| <= 1
    ensures Validate(email, password).Some? ==>
      !r.submitted && r.errors == [FailureMessage(Validate(email, password).value)]
    ensures Validate(email, password).None? ==>
      && (r.submitted <==> !handler.NoHandler?)
      && (r.errors == [] <==> !handler.Throws?)
      && (handler.Throws? ==> r.errors == [Reported(handler.thrown, text)])
  {
    match Validate(email, password)
    case Some(e) => Outcome([FailureMessage(e)], false, false)
    case None =>
      match handler
      case NoHandler => Outcome([], false, false)
      case Settles => Outcome([], true, false)
      case Throws(t) => Outcome([Reported(t, text)], true, false)
  }

  /** The Google and Apple buttons: a throwing handler's error goes to
      `onError`, anything else reports nothing. */
  function SocialSignIn(handler: Handler, text: string): (r: seq<string>)
    ensures |r| <= 1
    ensures r != [] <==> handler.Throws?
    ensures handler.Throws? && handler.thrown.ErrorWith? ==> r == [handler.thrown.message]
  {
    match handler
    case Throws(t) => [Reported(t, text)]
    case _ => []
  }

  /** The email and password held by the form. */
  datatype Credentials = Credentials(email: string, password: string)

  /** The first render: each field starts from its prop, or "". */
  function Initial(email: Option<string>, password: Option<string>): (c: Credentials)
    ensures c.email == PropText(email) && c.password == PropText(password)
  {
    Credentials(PropText(email), PropText(password))
  }

  /** The effect on `props.email`: the typed email is replaced by the
      prop, and the password is left alone. */
  function EmailProp(c: Credentials, email: Option<string>): (r: Credentials)
    ensures r.email == PropText(email) && r.password == c.password
  {
    c.(email := PropText(email))
  }

  /** The effect on `props.password`, the same for the password. */
  function PasswordProp(c: Credentials, password: Option<string>): (r: Credentials)
    ensures r.password == PropText(password) && r.email == c.email
  {
    c.(password := PropText(password))
  }

  /** Once both props change, whatever was typed before is gone: the
      form is back to its first render, and the two effects commute. */
  lemma PropsResetFields(c: Credentials, email: Option<string>, password: Option<string>)
    ensures EmailProp(PasswordProp(c, password), email) == Initial(email, password)
    ensures PasswordProp(EmailProp(c, email), password) == Initial(email, password)
  {
  }

  /** A password accepted by the login form may still be refused by the
      sign-up and reset forms: six characters pass here, while any
      password under eight scores at most 2. */
  lemma LoginLooserThanSignUp(email: string, password: string)
    requires ValidEmail(email) && |password| == MinPasswordLength
    ensures Validate(email, password).None?
    ensures Strength(password) <= 2
  {
  }
}

=== FILE: middleware.dfy ===
/** The request middleware (middleware.ts): which paths are public, when
    a request is sent to the login page, and how the cookies the auth
    client asks to set are written, an expired `session_id` being
    cleared instead. */
module Middleware {
  import opened Wrappers
  import opened JsStrings
  import opened JsArrays

  const LoginPage: string := "/login"

  /** An entry of the public-route list: a path compared as a whole, or
      the one entry holding `[recovery_token]`, which becomes the
      pattern `^prefix(.*)suffix$`. */
  datatype Route = Exact(path: string) | Dynamic(prefix: string, suffix: string)

  const ResetPrefix: string := "/reset-password/"

  const PublicRoutes: seq<Route> := [
    Exact("/plasmic-host"),
    Exact("/login"),
    Exact("/signup"),
    Exact("/forgot-password"),
    Exact("/reset-password"),
    Exact("/user-invite"),
    Dynamic(ResetPrefix, ""),
    Exact("/first-install"),
    Exact("/plasmic-library"),
    Exact("/api/save-data"),
    Exact("/api/plasmic-lib/update"),
    Exact("/api/plasmic-lib/files"),
    Exact("/api/plasmic-lib/listComponents")
  ]

  /** The characters a regular-expression `.` does not match. */
  predicate IsLineTerminator(c: char) {
    c == '\n' || c == '\r' || c == '\U{2028}' || c == '\U{2029}'
  }

  predicate NoLineTerminator(s: string) {
    forall i :: 0 <= i < |s| ==> !IsLineTerminator(s[i])
  }

  predicate EndsWith(s: string, t: string) {
    |t| <= |s| && s[|s| - |t|..] == t
  }

  /** One route tested against the request path. */
  predicate RouteMatches(route: Route, path: string)
    ensures route.Dynamic? ==> (RouteMatches(route, path) <==>
      exists t :: path == route.prefix + t + route.suffix && NoLineTerminator(t))
  {
    DynamicSplit(route, path);
    match route
    case Exact(p) => p == path
    case Dynamic(prefix, suffix) =>
      && |prefix| + |suffix| <= |path|
      && StartsWith(path, prefix) && EndsWith(path, suffix)
      && NoLineTerminator(path[|prefix|..|path| - |suffix|])
  }

  /** A dynamic route matches exactly the paths made of its prefix, a
      token without line breaks, and its suffix. */
  lemma DynamicSplit(route: Route, path: string)
    ensures route.Dynamic? ==>
      ((&& |route.prefix| + |route.suffix| <= |path|
        && StartsWith(path, route.prefix) && EndsWith(path, route.suffix)
        && NoLineTerminator(path[|route.prefix|..|path| - |route.suffix|]))
      <==> exists t :: path == route.prefix + t + route.suffix && NoLineTerminator(t))
  {
    if route.Dynamic? {
      var prefix, suffix := route.prefix, route.suffix;
      if |prefix| + |suffix| <= |path| && StartsWith(path, prefix) && EndsWith(path, suffix) {
        var t := path[|prefix|..|path| - |suffix|];
        assert path == prefix + t + suffix;
      }
      if exists t :: path == prefix + t + suffix && NoLineTerminator(t) {
        var t :| path == prefix + t + suffix && NoLineTerminator(t);
        assert path[..|prefix|] == prefix;
        assert path[|path| - |suffix|..] == suffix;
        assert path[|prefix|..|path| - |suffix|] == t;
      }
    }
  }

  /** `routes.some(...)` */
  function AnyMatches(routes: seq<Route>, path: string): (b: bool)
    ensures b <==> exists i :: 0 <= i < |routes| && RouteMatches(routes[i], path)
  {
    if routes == [] then false
    else RouteMatches(routes[0], path) || AnyMatches(routes[1..], path)
  }

  /** Every reset link is public, whatever its token, as long as the
      token holds no line break. */
  predicate IsPublic(path: string)
    ensures StartsWith(path, ResetPrefix) && NoLineTerminator(path[|ResetPrefix|..]) ==> IsPublic(path)
  {
    ResetRouteMeaning(path);
    AnyMatches(PublicRoutes, path)
  }

  /** The paths compared as a whole. */
  const ExactPaths: seq<string> := [
    "/plasmic-host", "/login", "/signup", "/forgot-password", "/reset-password",
    "/user-invite", "/first-install", "/plasmic-library", "/api/save-data",
    "/api/plasmic-lib/update", "/api/plasmic-lib/files", "/api/plasmic-lib/listComponents"
  ]

  /** A path is public when it is one of the listed paths, or when it
      starts with "/reset-password/" and the token after it (possibly
      empty) holds no line terminator. */
  lemma PublicMeaning(path: string)
    ensures IsPublic(path) <==>
      path in ExactPaths || (StartsWith(path, ResetPrefix) && NoLineTerminator(path[|ResetPrefix|..]))
  {
    ResetRouteMeaning(path);
    if path in ExactPaths {
      ListedIsPublic(path);
    }
    if IsPublic(path) {
      PublicIsListed(path);
    }
  }

  /** The reset route accepts any token without a line terminator. */
  lemma ResetRouteMeaning(path: string)
    ensures RouteMatches(PublicRoutes[6], path) <==>
      StartsWith(path, ResetPrefix) && NoLineTerminator(path[|ResetPrefix|..])
  {
    assert PublicRoutes[6] == Dynamic(ResetPrefix, "");
    assert EndsWith(path, "") by {
      assert path[|path|..] == [];
    }
    if StartsWith(path, ResetPrefix) {
      assert |ResetPrefix| <= |path|;
      assert path[|ResetPrefix|..|path| - 0] == path[|ResetPrefix|..];
    }
  }

  lemma ListedIsPublic(path: string)
    requires path in ExactPaths
    ensures IsPublic(path)
  {
    var i :| 0 <= i < |ExactPaths| && ExactPaths[i] == path;
    var j := if i < 6 then i else i + 1;
    RoutesOfPaths();
    assert PublicRoutes[j] == Exact(path);
    assert RouteMatches(PublicRoutes[j], path);
  }

  /** The public routes are the listed paths with the reset route
      inserted after the sixth. */
  lemma RoutesOfPaths()
    ensures forall k :: 0 <= k < 6 ==> PublicRoutes[k] == Exact(ExactPaths[k])
    ensures forall k :: 6 <= k < |ExactPaths| ==> PublicRoutes[k + 1] == Exact(ExactPaths[k])
    ensures |PublicRoutes| == |ExactPaths| + 1 && PublicRoutes[6] == Dynamic(ResetPrefix, "")
  {
    var exact := seq(|ExactPaths|, k requires 0 <= k < |ExactPaths| => Exact(ExactPaths[k]));
    assert exact[..6] == PublicRoutes[..6];
    assert exact[6..] == PublicRoutes[7..];
    assert PublicRoutes == PublicRoutes[..6] + [PublicRoutes[6]] + PublicRoutes[7..];
  }

  lemma PublicIsListed(path: string)
    requires IsPublic(path)
    ensures path in ExactPaths || RouteMatches(PublicRoutes[6], path)
  {
    var i :| 0 <= i < |PublicRoutes| && RouteMatches(PublicRoutes[i], path);
    RoutesOfPaths();
    if i < 6 {
      assert PublicRoutes[i] == Exact(ExactPaths[i]);
    } else if i > 6 {
      assert PublicRoutes[i] == Exact(ExactPaths[i - 1]);
    }
  }

  /** Every reset link is public, whatever its token, the empty one
      included. */
  lemma ResetLinksPublic(token: string)
    requires NoLineTerminator(token)
    ensures IsPublic(ResetPrefix + token)
  {
    var path := ResetPrefix + token;
    assert path[|ResetPrefix|..] == token;
    assert StartsWith(path, ResetPrefix);
    PublicMeaning(path);
  }

  /** What the middleware returns: a redirect to a path, or nothing, in
      which case the request goes on unchanged and the response built
      for the auth client is dropped. */
  datatype Decision = Redirect(pathname: string) | Proceed

  /** The routing decision, given whether the auth client found a user. */
  function Decide(path: string, hasUser: bool): (d: Decision)
    ensures d.Redirect? <==> !IsPublic(path) && !hasUser
    ensures d.Redirect? ==> d.pathname == LoginPage
  {
    if !IsPublic(path) && !hasUser then Redirect(LoginPage) else Proceed
  }

  /** The login page itself is never redirected. */
  lemma LoginNeverRedirected(hasUser: bool)
    ensures Decide(LoginPage, hasUser) == Proceed
  {
    assert RouteMatches(PublicRoutes[1], LoginPage);
  }

  // ---------------------------------------------------------------------
  // Cookies
  // ---------------------------------------------------------------------

  /** A cookie option value; `Undefined` is a key present with the value
      `undefined`, which the spread copies like any other. */
  datatype OptionValue = Text(text: string) | Flag(flag: bool) | Number(number: int) | Undefined

  type Options = map<string, OptionValue>

  const DefaultOptions: Options := map[
    "path" := Text("/"),
    "httpOnly" := Flag(true),
    "secure" := Flag(true),
    "sameSite" := Text("Lax"),
    "maxAge" := Number(60 * 60)
  ]

  /** The options of a cleared cookie. */
  const ClearOptions: Options := map["maxAge" := Number(0), "path" := Text("/")]

  /** `{ ...defaults, ...options }`; an absent `options` spreads nothing
      and is the empty map here. */
  function MergeOptions(options: Options): (r: Options)
    ensures r.Keys == DefaultOptions.Keys + options.Keys
    ensures forall k :: k in options ==> r[k] == options[k]
    ensures forall k :: k in DefaultOptions && k !in options ==> r[k] == DefaultOptions[k]
  {
    DefaultOptions + options
  }

  /** Merging again with the same options changes nothing, and no options
      give the defaults. */
  lemma MergeLaws(options: Options)
    ensures MergeOptions(map[]) == DefaultOptions
    ensures MergeOptions(options) + options == MergeOptions(options)
  {
  }

  /** What the payload of a token decodes to: `null`, a value that is
      not an object (whose `exp` is `undefined`), or an object with or
      without a numeric `exp`. */
  datatype Payload = NullPayload | NotObject | Object(exp: Option<int>)

  /** `isOldCookie`. `decode` stands for the base64 and JSON decoding of
      the middle part (`None` when either throws) and `now` for the
      current time in whole seconds. */
  function IsOldCookie(value: string, decode: string -> Option<Payload>, now: int): (expired: bool)
    ensures Count(value, '.') != 2 ==> expired
    ensures var parts := Split(value, '.'); |parts| == 3 ==>
      var payload := decode(parts[1]);
      (expired <==> payload.None? || payload.value.NullPayload? || (payload.value.Object? && payload.value.exp.Some? && payload.value.exp.value < now))
  {
    SplitJoin(value, '.');
    var parts := Split(value, '.');
    if |parts| != 3 then true
    else
      match decode(parts[1])
      case None => true
      case Some(NullPayload) => true
      case Some(NotObject) => false
      case Some(Object(exp)) => exp.Some? && exp.value < now
  }

  /** A well-formed token whose payload has no `exp` is never old. */
  lemma NoExpiryNeverOld(value: string, decode: string -> Option<Payload>, now: int)
    requires |Split(value, '.')| == 3
    requires decode(Split(value, '.')[1]) == Some(Object(None))
    ensures !IsOldCookie(value, decode, now)
  {
  }

  datatype CookieToSet = CookieToSet(name: string, value: string, options: Options)

  datatype ResponseCookie = ResponseCookie(name: string, value: string, options: Options)

  /** The cookies written by `setAll`: on the forwarded request (name and
      value) and on the response built for the auth client. */
  datatype Written = Written(request: seq<CookieToSet>, response: seq<ResponseCookie>)

  /** The cookie `setAll` clears instead of setting. */
  predicate Cleared(c: CookieToSet, decode: string -> Option<Payload>, now: int) {
    c.name == "session_id" && IsOldCookie(c.value, decode, now)
  }

  /** `setAll`: each cookie gives one response cookie, in order. An old
      `session_id` is written empty with age 0 and not put on the
      request; every other cookie is put on the request and on the
      response with the merged options. */
  function SetAll(cookies: seq<CookieToSet>, decode: string -> Option<Payload>, now: int): (w: Written)
    ensures |w.response| == |cookies|
    ensures forall i :: 0 <= i < |cookies| ==>
      w.response[i] == if Cleared(cookies[i], decode, now)
        then ResponseCookie(cookies[i].name, "", ClearOptions)
        else ResponseCookie(cookies[i].name, cookies[i].value, MergeOptions(cookies[i].options))
  {
    if cookies == [] then Written([], [])
    else
      var c := cookies[0];
      var rest := SetAll(cookies[1..], decode, now);
      if Cleared(c, decode, now) then
        Written(rest.request, [ResponseCookie(c.name, "", ClearOptions)] + rest.response)
      else
        Written([c] + rest.request, [ResponseCookie(c.name, c.value, MergeOptions(c.options))] + rest.response)
  }

  /** The request receives exactly the cookies that are not cleared, in
      their order. */
  lemma {:induction false} SetAllRequest(cookies: seq<CookieToSet>, decode: string -> Option<Payload>, now: int)
    ensures SetAll(cookies, decode, now).request == Filter(cookies, (c: CookieToSet) => !Cleared(c, decode, now))
    decreases |cookies|
  {
    if cookies != [] {
      SetAllRequest(cookies[1..], decode, now);
    }
  }

  /** An old `session_id` never reaches the request, and its response
      cookie expires at once. */
  lemma OldSessionCleared(cookies: seq<CookieToSet>, decode: string -> Option<Payload>, now: int, i: int)
    requires 0 <= i < |cookies| && Cleared(cookies[i], decode, now)
    ensures SetAll(cookies, decode, now).response[i].options["maxAge"] == Number(0)
    ensures SetAll(cookies, decode, now).response[i].value == []
    ensures cookies[i] !in SetAll(cookies, decode, now).request
  {
    SetAllRequest(cookies, decode, now);
  }

  // ---------------------------------------------------------------------
  // The response
  // ---------------------------------------------------------------------

  /** What goes back to the browser: the redirect, if any, and the
      cookies the response sets. */
  datatype Reply = Reply(decision: Decision, sentCookies: seq<ResponseCookie>)

  /** `middleware` as written. `refreshed` is what the auth client passes
      to `setAll` while reading the user. The redirect is a new response
      and the other branch returns nothing, so the response that
      received the cookies is never returned. */
  function Handle(path: string, hasUser: bool, refreshed: seq<CookieToSet>, decode: string -> Option<Payload>, now: int): (r: Reply)
    ensures r.decision == Decide(path, hasUser)
    ensures r.sentCookies == []
  {
    var _ := SetAll(refreshed, decode, now);
    Reply(Decide(path, hasUser), [])
  }

  /** A signed-in user on a public page whose session is refreshed gets
      none of the new cookies. */
  lemma RefreshedCookiesLost(decode: string -> Option<Payload>, now: int)
    ensures var refreshed := [CookieToSet("sb-access-token", "t", map[])];
      && |SetAll(refreshed, decode, now).response| == 1
      && Handle(LoginPage, true, refreshed, decode, now).sentCookies == []
  {
  }

  /** `middleware` returning the response built for the auth client when
      it does not redirect, so the cookies `setAll` wrote reach the
      browser. */
  function HandleFixed(path: string, hasUser: bool, refreshed: seq<CookieToSet>, decode: string -> Option<Payload>, now: int): (r: Reply)
    ensures r.decision == Decide(path, hasUser)
    ensures r.decision.Proceed? ==> r.sentCookies == SetAll(refreshed, decode, now).response
    ensures r.decision.Proceed? ==>
      forall i :: 0 <= i < |refreshed| && !Cleared(refreshed[i], decode, now) ==>
        ResponseCookie(refreshed[i].name, refreshed[i].value, MergeOptions(refreshed[i].options)) in r.sentCookies
  {
    var written := SetAll(refreshed, decode, now);
    match Decide(path, hasUser)
    case Redirect(p) => Reply(Redirect(p), [])
    case Proceed => Reply(Proceed, written.response)
  }
}

=== FILE: password_forms.dfy ===
/** The two forms that only set a new password: the reset-password form
    (plasmic-library/authentication/ResetPassword/ResetPassword.tsx) and
    the account-settings form
    (plasmic-library/authentication/AccountParameters/AccountParameters.tsx).
    They share the submit logic and differ in the props they mirror and
    in the submit button. */
module PasswordForms {
  import opened Wrappers
  import opened FormChecks
  import opened FormState

  datatype Variant = Reset | Account

  const DefaultMessages: map<Key, string> := map[
    WeakPassword := "Le mot de passe est trop faible. Utilisez au moins 8 caractères avec des lettres, chiffres et symboles.",
    PasswordMismatch := "Les mots de passe ne correspondent pas",
    ResetTokenInvalid := "Le lien de réinitialisation n'est pas valide",
    ResetTokenExpired := "Le lien de réinitialisation a expiré",
    NetworkError := "Une erreur réseau s'est produite. Veuillez réessayer."
  ]

  const DefaultSuccessMessage: string := "Votre mot de passe a été réinitialisé avec succès!"

  /** The `resetSuccessMessage` prop: its default replaces only an absent
      value, so an empty text is kept. */
  function SuccessMessage(prop: Option<string>): (r: string)
    ensures prop.Some? ==> r == prop.value
    ensures prop.None? ==> r == DefaultSuccessMessage
  {
    prop.GetOr(DefaultSuccessMessage)
  }

  datatype Form = Form(fields: Fields, alerts: seq<Alert>)

  /** The form after a submit, and whether `onSubmit` was called. */
  datatype Submission = Submission(form: Form, called: bool)

  /** The state on first render. The reset form starts from its props;
      the account form from two empty fields. Both start with score 0. */
  function Initial(v: Variant, password: Option<string>, confirm: Option<string>): (f: Form)
    ensures f.alerts == [] && f.fields.strength == 0
    ensures f.fields.passwordsMatch <==> f.fields.password == f.fields.confirm
    ensures v == Account ==> f.fields.password == [] && f.fields.confirm == []
  {
    var pw := if v == Reset then PropText(password) else [];
    var cf := if v == Reset then PropText(confirm) else [];
    Form(Fields(pw, cf, 0, pw == cf), [])
  }

  /** The reset form's password-prop effect: the password is reset to
      the prop (or empty) and its score recomputed; the match flag is
      not touched. */
  function PasswordProp(f: Form, password: Option<string>): (r: Form)
    ensures r.fields.password == PropText(password) && r.fields.strength == Strength(r.fields.password)
    ensures r.fields.confirm == f.fields.confirm && r.fields.passwordsMatch == f.fields.passwordsMatch
  {
    var pw := PropText(password);
    f.(fields := f.fields.(password := pw, strength := Strength(pw)))
  }

  /** The reset form's confirmation-prop effect. */
  function ConfirmProp(f: Form, confirm: Option<string>): (r: Form)
    ensures r.fields.confirm == PropText(confirm)
    ensures r.fields.password == f.fields.password && r.fields.strength == f.fields.strength
    ensures r.fields.passwordsMatch == f.fields.passwordsMatch
  {
    f.(fields := f.fields.(confirm := PropText(confirm)))
  }

  /** Mounting the reset form (first render, then both effects) leaves
      its flags describing the pair; the account form starts so. */
  lemma MountConsistent(v: Variant, password: Option<string>, confirm: Option<string>)
    ensures v == Reset ==> Consistent(ConfirmProp(PasswordProp(Initial(v, password, confirm), password), confirm).fields)
    ensures v == Account ==> Consistent(Initial(v, password, confirm).fields)
  {
    StrengthEmpty();
  }

  /** The submit errors, weak password first. */
  function Errors(f: Form): (r: seq<Key>)
    ensures WeakPassword in r <==> f.fields.strength < 3
    ensures PasswordMismatch in r <==> f.fields.password != f.fields.confirm
    ensures |r| <= 2 && (|r| == 2 ==> r == [WeakPassword, PasswordMismatch])
    ensures forall i :: 0 <= i < |r| ==> r[i] in DefaultMessages
  {
    (if f.fields.strength < 3 then [WeakPassword] else [])
    + (if f.fields.password != f.fields.confirm then [PasswordMismatch] else [])
  }

  /** The reset form disables its button unless the score is 4 and the
      pair matches (and shows the mismatch hint exactly when the flag is
      down); the account form never disables it. */
  function SubmitDisabled(v: Variant, f: Form): (b: bool)
    ensures v == Account ==> !b
    ensures v == Reset && Consistent(f.fields) ==>
      var p := f.fields.password;
      (!b <==> && p == f.fields.confirm && |p| >= 8
               && Meets(p, Lower) && Meets(p, Upper) && Meets(p, Digit) && Meets(p, Symbol))
  {
    StrengthFour(f.fields.password);
    v == Reset && (f.fields.strength < 4 || !f.fields.passwordsMatch)
  }

  /** An enabled reset button means the submit finds no error; the
      account button is enabled even when the submit will refuse. */
  lemma ButtonAndSubmit(f: Form)
    ensures Consistent(f.fields) && !SubmitDisabled(Reset, f) ==> Errors(f) == []
    ensures !SubmitDisabled(Account, f)
  {
  }

  /** `handleSubmit`: the alerts are cleared and the match flag set; any
      error becomes an alert and `onSubmit` is not called; otherwise
      `onSubmit` is called (when given) and its outcome is one alert. */
  function Submit(f: Form, custom: map<Key, string>, success: Option<string>, handler: Handler): (r: Submission)
    ensures r.form.fields.passwordsMatch <==> f.fields.password == f.fields.confirm
    ensures r.form.fields.password == f.fields.password && r.form.fields.confirm == f.fields.confirm
    ensures r.called <==> Errors(f) == [] && !handler.NoHandler?
    ensures Errors(f) != [] ==>
      && |r.form.alerts| == |Errors(f)|
      && forall i :: 0 <= i < |r.form.alerts| ==> r.form.alerts[i] == Alert(Error, Merge(DefaultMessages, custom)[Errors(f)[i]])
    ensures Errors(f) == [] ==>
      && (handler.NoHandler? ==> r.form.alerts == [])
      && (handler.Settles? ==> r.form.alerts == [Alert(Success, SuccessMessage(success))])
      && (handler.Throws? ==> r.form.alerts == [Alert(Error, FailureText(handler.thrown, Merge(DefaultMessages, custom)[NetworkError]))])
  {
    var messages := Merge(DefaultMessages, custom);
    var errors := Errors(f);
    var cleared := Form(f.fields.(passwordsMatch := f.fields.password == f.fields.confirm), []);
    if errors != [] then Submission(cleared.(alerts := ErrorAlerts(errors, messages)), false)
    else
      match handler
      case NoHandler => Submission(cleared, false)
      case Settles => Submission(cleared.(alerts := [Alert(Success, SuccessMessage(success))]), true)
      case Throws(t) => Submission(cleared.(alerts := [Alert(Error, FailureText(t, messages[NetworkError]))]), true)
  }

  /** A thrown error's own message is shown when it has one; an empty
      message or a thrown non-error shows the network-error text, the
      caller's if it set one. */
  lemma FailureShown(f: Form, custom: map<Key, string>, success: Option<string>, message: string)
    requires Errors(f) == []
    ensures message != [] ==> Submit(f, custom, success, Throws(ErrorWith(message))).form.alerts == [Alert(Error, message)]
    ensures var expected := if NetworkError in custom then custom[NetworkError] else DefaultMessages[NetworkError];
      && Submit(f, custom, success, Throws(ErrorWith([]))).form.alerts == [Alert(Error, expected)]
      && Submit(f, custom, success, Throws(NonError)).form.alerts == [Alert(Error, expected)]
  {
  }

  /** A password shorter than eight characters never gets through the
      submit, since its score is at most 2. */
  lemma ShortPasswordRefused(f: Form, custom: map<Key, string>, success: Option<string>, handler: Handler)
    requires Consistent(f.fields) && |f.fields.password| < 8
    ensures !Submit(f, custom, success, handler).called
    ensures Submit(f, custom, success, handler).form.alerts[0] == Alert(Error, Merge(DefaultMessages, custom)[WeakPassword])
  {
  }
}

=== FILE: presets.dfy ===
/** The design-token lookup used by the style presets (styles/presets.ts):
    a token's value by name, with the name itself as the fallback. */
module Presets {
  import opened Wrappers

  /** A design token; `None` is a token without a `value`. */
  datatype Token = Token(name: string, value: Option<string>)

  /** `tokens.find(token => token.name === name)` */
  function Find(tokens: seq<Token>, name: string): (r: Option<nat>)
    ensures r.Some? ==> r.value < |tokens| && tokens[r.value].name == name
    ensures r.Some? ==> forall i :: 0 <= i < r.value ==> tokens[i].name != name
    ensures r.None? ==> forall i :: 0 <= i < |tokens| ==> tokens[i].name != name
  {
    if tokens == [] then None
    else if tokens[0].name == name then Some(0)
    else match Find(tokens[1..], name)
      case None => None
      case Some(k) => Some(k + 1)
  }

  /** Token `i` is the first one named `name`, and its value is present
      and not empty. */
  predicate FirstValued(tokens: seq<Token>, name: string, i: int) {
    && 0 <= i < |tokens| && tokens[i].name == name
    && (forall j :: 0 <= j < i ==> tokens[j].name != name)
    && tokens[i].value.Some? && tokens[i].value.value != []
  }

  /** `getTokenValue`: the value of the first token with that name, or the
      name itself when there is none or its value is missing or empty. */
  function GetTokenValue(tokens: seq<Token>, name: string): (r: string)
    ensures forall i :: FirstValued(tokens, name, i) ==> r == tokens[i].value.value
    ensures (forall i :: !FirstValued(tokens, name, i)) ==> r == name
  {
    match Find(tokens, name)
    case Some(k) => if tokens[k].value.Some? && tokens[k].value.value != [] then tokens[k].value.value else name
    case None => name
  }

  /** The first token of a name decides: a non-empty value is returned,
      and a missing or empty one gives the name without looking further. */
  lemma FirstMatchWins(first: Token, rest: seq<Token>)
    ensures first.value.Some? && first.value.value != [] ==>
      GetTokenValue([first] + rest, first.name) == first.value.value
    ensures !(first.value.Some? && first.value.value != []) ==>
      GetTokenValue([first] + rest, first.name) == first.name
  {
  }

  /** Tokens of other names in front change nothing. */
  lemma {:induction false} OtherNamesIgnored(before: seq<Token>, rest: seq<Token>, name: string)
    requires forall i :: 0 <= i < |before| ==> before[i].name != name
    ensures GetTokenValue(before + rest, name) == GetTokenValue(rest, name)
    decreases |before|
  {
    if before != [] {
      var tail := before[1..];
      assert before + rest == [before[0]] + (tail + rest);
      OtherNamesIgnored(tail, rest, name);
      FindShift(before[0], tail + rest, name);
    } else {
      assert before + rest == rest;
    }
  }

  lemma FindShift(t: Token, rest: seq<Token>, name: string)
    requires t.name != name
    ensures GetTokenValue([t] + rest, name) == GetTokenValue(rest, name)
  {
    var all := [t] + rest;
    assert all[1..] == rest;
    match Find(rest, name)
    case Some(k) =>
      assert all[k + 1] == rest[k];
    case None =>
  }

  /** A name no token has is returned as it is. */
  lemma UnknownNameItself(tokens: seq<Token>, name: string)
    requires forall i :: 0 <= i < |tokens| ==> tokens[i].name != name
    ensures GetTokenValue(tokens, name) == name
  {
  }
}

=== FILE: signup.dfy ===
/** The sign-up form (plasmic-library/authentication/SignUp/SignUp.tsx):
    its field edits, the phone input, the synchronisation with the
    caller's props, the submit-button rule and the submit handler. */
module SignUp {
  import opened Wrappers
  import opened JsStrings
  import opened FormChecks
  import opened FormState

  /** The keys `defaultErrorMessages` defines. */
  const MessageKeys: set<Key> := {
    InvalidEmail, WeakPassword, PasswordMismatch, InvalidPhone, NetworkError, EmailExists, SignupSuccess}

  /** The default text of each of those keys. */
  function DefaultText(k: Key): string
    requires k in MessageKeys
  {
    match k
    case InvalidEmail => "L'adresse email n'est pas valide"
    case WeakPassword => "Le mot de passe est trop faible. Utilisez au moins 8 caractères avec des lettres, chiffres et symboles."
    case PasswordMismatch => "Les mots de passe ne correspondent pas"
    case InvalidPhone => "Veuillez entrer un numéro de téléphone valide"
    case NetworkError => "Une erreur réseau s'est produite. Veuillez réessayer."
    case EmailExists => "Cette adresse email est déjà utilisée"
    case SignupSuccess => "Votre compte a été créé avec succès! Veuillez vérifier vos emails pour confirmer votre compte."
    case _ => assert false; []
  }

  const DefaultMessages: map<Key, string> := map k | k in MessageKeys :: DefaultText(k)

  /** The success alert's text, written out in the handler rather than
      read from the merged messages. */
  const SuccessText: string := "Votre compte a été créé avec succès! Veuillez vérifier vos emails pour confirmer votre compte."

  const DefaultCountryCode: string := "+33"

  datatype Form = Form(
    email: string, firstName: string, lastName: string,
    fields: Fields, phone: string, countryCode: string,
    phoneError: bool, alerts: seq<Alert>)

  /** The object handed to `onSubmit`. */
  datatype FormData = FormData(email: string, password: string, firstName: string, lastName: string, phone: Option<string>)

  /** The form after a submit, and the data `onSubmit` was called with,
      if it was called. */
  datatype Submission = Submission(form: Form, sent: Option<FormData>)

  /** The text props the form mirrors; `None` is an absent prop. */
  datatype Props = Props(
    email: Option<string>, firstName: Option<string>, lastName: Option<string>,
    password: Option<string>, confirmPassword: Option<string>, phone: Option<string>)

  /** `value || fallback` for an optional string prop. */
  function OrElse(o: Option<string>, fallback: string): (r: string)
    ensures o.Some? && o.value != [] ==> r == o.value
    ensures !(o.Some? && o.value != []) ==> r == fallback
  {
    if o.Some? && o.value != [] then o.value else fallback
  }

  /** The state on first render, before the props effect runs: strength
      0, match flag from the initial pair, the French country code. */
  function Initial(props: Props): (f: Form)
    ensures f.alerts == [] && !f.phoneError && f.fields.strength == 0
  {
    var pw := OrElse(props.password, []);
    var cf := OrElse(props.confirmPassword, []);
    Form(OrElse(props.email, []), OrElse(props.firstName, []), OrElse(props.lastName, []),
         Fields(pw, cf, 0, pw == cf), OrElse(props.phone, []), DefaultCountryCode, false, [])
  }

  /** The props effect: each non-empty prop replaces the field, an empty
      or absent one keeps it; the score is recomputed only when a
      password prop is given, and the match flag is left alone. */
  function SyncProps(f: Form, props: Props): (r: Form)
    ensures r.fields.passwordsMatch == f.fields.passwordsMatch
    ensures props.password.Some? && props.password.value != [] ==>
      r.fields.password == props.password.value && r.fields.strength == Strength(props.password.value)
    ensures !(props.password.Some? && props.password.value != []) ==> r.fields.password == f.fields.password && r.fields.strength == f.fields.strength
    ensures r.alerts == f.alerts && r.phoneError == f.phoneError
  {
    var pw := OrElse(props.password, f.fields.password);
    var strength := if props.password.Some? && props.password.value != [] then Strength(props.password.value) else f.fields.strength;
    f.(email := OrElse(props.email, f.email),
       firstName := OrElse(props.firstName, f.firstName),
       lastName := OrElse(props.lastName, f.lastName),
       fields := f.fields.(password := pw, confirm := OrElse(props.confirmPassword, f.fields.confirm), strength := strength),
       phone := OrElse(props.phone, f.phone))
  }

  /** Mounting (first render, then the props effect) leaves a form whose
      flags describe its password pair. */
  lemma MountConsistent(props: Props)
    ensures Consistent(SyncProps(Initial(props), props).fields)
  {
  }

  /** A later password prop replaces the password but not the match
      flag: a form whose pair matched still claims to match. */
  lemma PropsLeaveMatchFlag(f: Form, props: Props)
    requires Consistent(f.fields) && f.fields.password == f.fields.confirm
    requires props.password == Some("b") && props.confirmPassword == None
    requires f.fields.password == "a"
    ensures var g := SyncProps(f, props);
      g.fields.passwordsMatch && g.fields.password != g.fields.confirm
  {
  }

  /** `handlePhoneChange`: the state keeps the cleaned digits and the
      error flag says whether they are too few. */
  function EditPhone(f: Form, input: string): (r: Form)
    ensures AllDigits(r.phone) && |r.phone| <= MaxPhoneDigits
    ensures r.phone <= DigitsOnly(input)
    ensures r.phone == CleanPhone(input)
    ensures r.phoneError <==> 0 < |r.phone| < MinPhoneDigits
    ensures r.fields == f.fields && r.alerts == f.alerts
  {
    var cleaned := CleanPhone(input);
    f.(phone := cleaned, phoneError := PhoneError(cleaned))
  }

  /** The four checks of `handleSubmit`, in the order it runs them. */
  const Checks: seq<Key> := [InvalidEmail, PasswordMismatch, WeakPassword, InvalidPhone]

  /** Whether the check behind `k` fails. */
  predicate Fails(f: Form, showPhone: bool, k: Key) {
    match k
    case InvalidEmail => !ValidEmail(f.email)
    case PasswordMismatch => f.fields.password != f.fields.confirm
    case WeakPassword => f.fields.strength < 2
    case InvalidPhone => showPhone && |f.phone| < MinPhoneDigits
    case _ => false
  }

  /** `r` is `ks` with some entries dropped and the rest in their order. */
  predicate Subsequence(r: seq<Key>, ks: seq<Key>)
    decreases |ks|
  {
    if r == [] then true
    else if ks == [] then false
    else (r[0] == ks[0] && Subsequence(r[1..], ks[1..])) || Subsequence(r, ks[1..])
  }

  /** Running the checks `ks` in order, each failing one pushing its key. */
  function Collect(f: Form, showPhone: bool, ks: seq<Key>): (r: seq<Key>)
    ensures |r| <= |ks|
    ensures forall i :: 0 <= i < |r| ==> r[i] in ks
  {
    if ks == [] then []
    else (if Fails(f, showPhone, ks[0]) then [ks[0]] else []) + Collect(f, showPhone, ks[1..])
  }

  /** A key is pushed exactly when it is among the checks and fails. */
  lemma {:induction false} CollectMembers(f: Form, showPhone: bool, ks: seq<Key>, x: Key)
    ensures x in Collect(f, showPhone, ks) <==> x in ks && Fails(f, showPhone, x)
    decreases |ks|
  {
    if ks != [] {
      CollectMembers(f, showPhone, ks[1..], x);
      assert ks == [ks[0]] + ks[1..];
    }
  }

  /** The keys are pushed in the order of the checks. */
  lemma {:induction false} CollectInOrder(f: Form, showPhone: bool, ks: seq<Key>)
    ensures Subsequence(Collect(f, showPhone, ks), ks)
    decreases |ks|
  {
    if ks != [] {
      var rest := Collect(f, showPhone, ks[1..]);
      CollectInOrder(f, showPhone, ks[1..]);
      var r := Collect(f, showPhone, ks);
      if Fails(f, showPhone, ks[0]) {
        assert r == [ks[0]] + rest;
        assert r[0] == ks[0] && r[1..] == rest;
      } else {
        assert r == [] + rest;
        assert r == rest;
      }
    }
  }

  /** The error keys `handleSubmit` collects: each has a default message. */
  function Errors(f: Form, showPhone: bool): (r: seq<Key>)
    ensures forall i :: 0 <= i < |r| ==> r[i] in DefaultMessages
  {
    var r := Collect(f, showPhone, Checks);
    assert forall i :: 0 <= i < |r| ==> r[i] in MessageKeys;
    r
  }

  /** Each error is reported exactly when its check fails, and the errors
      come in the order of the checks: email, mismatch, weak password,
      phone. */
  lemma ErrorsMeaning(f: Form, showPhone: bool)
    ensures var r := Errors(f, showPhone);
      && (InvalidEmail in r <==> !ValidEmail(f.email))
      && (PasswordMismatch in r <==> f.fields.password != f.fields.confirm)
      && (WeakPassword in r <==> f.fields.strength < 2)
      && (InvalidPhone in r <==> showPhone && |f.phone| < MinPhoneDigits)
      && Subsequence(r, Checks)
  {
    CollectMembers(f, showPhone, Checks, InvalidEmail);
    CollectMembers(f, showPhone, Checks, PasswordMismatch);
    CollectMembers(f, showPhone, Checks, WeakPassword);
    CollectMembers(f, showPhone, Checks, InvalidPhone);
    CollectInOrder(f, showPhone, Checks);
  }

  /** `disabled={passwordStrength < 4 || !passwordsMatch}` */
  function SubmitDisabled(f: Form): (b: bool)
    ensures Consistent(f.fields) ==>
      var p := f.fields.password;
      (!b <==> && p == f.fields.confirm && |p| >= 8
               && Meets(p, Lower) && Meets(p, Upper) && Meets(p, Digit) && Meets(p, Symbol))
  {
    StrengthFour(f.fields.password);
    f.fields.strength < 4 || !f.fields.passwordsMatch
  }

  /** When the button is enabled and the flags describe the pair, the
      submit raises neither password error. */
  lemma EnabledPassesPasswordChecks(f: Form, showPhone: bool)
    requires Consistent(f.fields) && !SubmitDisabled(f)
    ensures PasswordMismatch !in Errors(f, showPhone) && WeakPassword !in Errors(f, showPhone)
  {
    ErrorsMeaning(f, showPhone);
  }

  /** The phone flag set while typing and the submit check disagree only
      on the empty phone: it is not flagged while typing, but rejected
      at submit when the phone field is shown. */
  lemma PhoneFlagAndSubmit(f: Form, input: string, showPhone: bool)
    requires showPhone
    ensures var g := EditPhone(f, input);
      (InvalidPhone in Errors(g, showPhone)) <==> (g.phoneError || g.phone == [])
  {
    ErrorsMeaning(EditPhone(f, input), showPhone);
  }

  /** `handleSubmit`: the alerts are cleared, the match and phone flags
      recomputed, and either every error becomes an alert (and
      `onSubmit` is not called) or `onSubmit` is called with the form
      data and one alert reports how it went. */
  function Submit(f: Form, showPhone: bool, custom: map<Key, string>, handler: Handler): (r: Submission)
    ensures r.form.fields.passwordsMatch <==> f.fields.password == f.fields.confirm
    ensures r.form.phoneError <==> showPhone && |f.phone| < MinPhoneDigits
    ensures r.sent.Some? <==> Errors(f, showPhone) == [] && !handler.NoHandler?
    ensures r.sent.Some? ==>
      r.sent.value == FormData(f.email, f.fields.password, f.firstName, f.lastName,
                               if showPhone then Some(f.countryCode + f.phone) else None)
    ensures Errors(f, showPhone) != [] ==>
      && |r.form.alerts| == |Errors(f, showPhone)|
      && forall i :: 0 <= i < |r.form.alerts| ==>
           r.form.alerts[i] == Alert(Error, Merge(DefaultMessages, custom)[Errors(f, showPhone)[i]])
    ensures Errors(f, showPhone) == [] ==>
      && (handler.NoHandler? ==> r.form.alerts == [])
      && (handler.Settles? ==> r.form.alerts == [Alert(Success, SuccessText)])
      && (handler.Throws? ==> r.form.alerts == [Alert(Error, Merge(DefaultMessages, custom)[NetworkError])])
    ensures r.form.email == f.email && r.form.phone == f.phone && r.form.fields.password == f.fields.password
  {
    var messages := Merge(DefaultMessages, custom);
    var errors := Errors(f, showPhone);
    var cleared := f.(fields := f.fields.(passwordsMatch := f.fields.password == f.fields.confirm),
                      phoneError := showPhone && |f.phone| < MinPhoneDigits,
                      alerts := []);
    if errors != [] then
      Submission(cleared.(alerts := ErrorAlerts(errors, messages)), None)
    else
      var data := FormData(f.email, f.fields.password, f.firstName, f.lastName,
                           if showPhone then Some(f.countryCode + f.phone) else None);
      match handler
      case NoHandler => Submission(cleared, None)
      case Settles => Submission(cleared.(alerts := [Alert(Success, SuccessText)]), Some(data))
      case Throws(_) => Submission(cleared.(alerts := [Alert(Error, messages[NetworkError])]), Some(data))
  }

  /** A caller's override of the success text has no effect on the
      success alert, and the thrown error's own message is never shown. */
  lemma SuccessTextFixed(f: Form, showPhone: bool, custom: map<Key, string>, t: Thrown)
    requires Errors(f, showPhone) == []
    requires SignupSuccess in custom && custom[SignupSuccess] != SuccessText
    ensures Submit(f, showPhone, custom, Settles).form.alerts[0].message != custom[SignupSuccess]
    ensures NetworkError !in custom ==>
      Submit(f, showPhone, custom, Throws(t)).form.alerts[0].message == DefaultMessages[NetworkError]
  {
  }
}

=== FILE: stable_sort.dfy ===
/** `[...xs].sort(compare)` for a comparator returning a negative, zero or
    positive number, modelled as an insertion sort that places each element
    after every earlier one it does not precede. The language requires the
    sort to be stable; what is proved here is that the result is a
    permutation, that it is sorted under a consistent comparator, that
    input already in order comes back unchanged, and that a group the
    comparator ranks after everything else ends up last. With an
    inconsistent comparator the engine's result is implementation-defined
    and this model fixes one. */
module StableSort {

  /** Inserts `x` after every leading element it does not precede. */
  function Insert<T>(x: T, s: seq<T>, cmp: (T, T) -> int): (r: seq<T>)
    ensures multiset(r) == multiset(s) + multiset{x}
    ensures |r| == |s| + 1
  {
    if s == [] then [x]
    else if cmp(x, s[0]) < 0 then [x] + s
    else
      assert s == [s[0]] + s[1..];
      [s[0]] + Insert(x, s[1..], cmp)
  }

  /** Sorts by inserting the elements one at a time, last element last, so
      that elements the comparator calls equal keep their order. */
  function Sort<T>(s: seq<T>, cmp: (T, T) -> int): (r: seq<T>)
    ensures multiset(r) == multiset(s)
    ensures |r| == |s|
  {
    if s == [] then []
    else
      var init := s[..|s| - 1];
      assert s == init + [s[|s| - 1]];
      Insert(s[|s| - 1], Sort(init, cmp), cmp)
  }

  /** No element is followed by one that the comparator puts strictly before it. */
  ghost predicate Sorted<T>(s: seq<T>, cmp: (T, T) -> int) {
    forall i, j :: 0 <= i < j < |s| ==> cmp(s[i], s[j]) <= 0
  }

  /** The comparator behaves as a total preorder on the values in `vals`:
      a non-negative answer flips to a non-positive one, and "not after"
      is transitive. */
  ghost predicate ConsistentOn<T>(cmp: (T, T) -> int, vals: set<T>) {
    && (forall x, y :: x in vals && y in vals && cmp(x, y) >= 0 ==> cmp(y, x) <= 0)
    && (forall x, y, z :: x in vals && y in vals && z in vals && cmp(x, y) <= 0 && cmp(y, z) <= 0 ==> cmp(x, z) <= 0)
  }

  ghost predicate Within<T>(s: seq<T>, vals: set<T>) {
    forall i :: 0 <= i < |s| ==> s[i] in vals
  }

  lemma {:induction false} InsertSorted<T>(x: T, s: seq<T>, cmp: (T, T) -> int, vals: set<T>)
    requires ConsistentOn(cmp, vals)
    requires x in vals && Within(s, vals)
    requires Sorted(s, cmp)
    ensures Sorted(Insert(x, s, cmp), cmp)
  {
    if s == [] {
    } else if cmp(x, s[0]) < 0 {
      InsertFront(x, s, cmp, vals);
    } else {
      var tail := s[1..];
      assert Within(tail, vals);
      InsertSorted(x, tail, cmp, vals);
      Flip(cmp, vals, x, s[0]);
      InsertBehind(x, s, cmp);
    }
  }

  lemma InsertFront<T>(x: T, s: seq<T>, cmp: (T, T) -> int, vals: set<T>)
    requires ConsistentOn(cmp, vals)
    requires x in vals && Within(s, vals)
    requires Sorted(s, cmp)
    requires s != [] && cmp(x, s[0]) < 0
    ensures Sorted([x] + s, cmp)
  {
    var r := [x] + s;
    forall i, j | 0 <= i < j < |r|
      ensures cmp(r[i], r[j]) <= 0
    {
      if i == 0 && j > 1 {
        Trans(cmp, vals, x, s[0], s[j - 1]);
      } else if i > 0 {
        assert r[i] == s[i - 1] && r[j] == s[j - 1];
      }
    }
  }

  lemma InsertBehind<T>(x: T, s: seq<T>, cmp: (T, T) -> int)
    requires Sorted(s, cmp)
    requires s != [] && cmp(s[0], x) <= 0
    requires Sorted(Insert(x, s[1..], cmp), cmp)
    ensures Sorted([s[0]] + Insert(x, s[1..], cmp), cmp)
  {
    var tail := s[1..];
    var ins := Insert(x, tail, cmp);
    var r := [s[0]] + ins;
    InsertFrom(x, tail, cmp);
    forall j | 0 < j < |r|
      ensures cmp(r[0], r[j]) <= 0
    {
      var e := ins[j - 1];
      if e != x {
        var k :| 0 <= k < |tail| && tail[k] == e;
        assert s[k + 1] == e;
      }
    }
    forall i, j | 0 < i < j < |r|
      ensures cmp(r[i], r[j]) <= 0
    {
      assert r[i] == ins[i - 1] && r[j] == ins[j - 1];
    }
  }

  /** Every element of the insertion is `x` or comes from `s`. */
  lemma InsertFrom<T>(x: T, s: seq<T>, cmp: (T, T) -> int)
    ensures forall j :: 0 <= j < |Insert(x, s, cmp)| ==> Insert(x, s, cmp)[j] == x || Insert(x, s, cmp)[j] in s
  {
    var ins := Insert(x, s, cmp);
    forall j | 0 <= j < |ins|
      ensures ins[j] == x || ins[j] in s
    {
      assert ins[j] in multiset(ins);
    }
  }

  lemma Flip<T>(cmp: (T, T) -> int, vals: set<T>, x: T, y: T)
    requires ConsistentOn(cmp, vals)
    requires x in vals && y in vals && cmp(x, y) >= 0
    ensures cmp(y, x) <= 0
  {
  }

  lemma Trans<T>(cmp: (T, T) -> int, vals: set<T>, x: T, y: T, z: T)
    requires ConsistentOn(cmp, vals)
    requires x in vals && y in vals && z in vals
    requires cmp(x, y) <= 0 && cmp(y, z) <= 0
    ensures cmp(x, z) <= 0
  {
  }

  /** With a comparator consistent on the input's values, the result is sorted. */
  lemma {:induction false} SortSorted<T>(s: seq<T>, cmp: (T, T) -> int, vals: set<T>)
    requires ConsistentOn(cmp, vals)
    requires Within(s, vals)
    ensures Sorted(Sort(s, cmp), cmp)
  {
    if s != [] {
      var init := s[..|s| - 1];
      assert Within(init, vals);
      SortSorted(init, cmp, vals);
      var sorted := Sort(init, cmp);
      forall i | 0 <= i < |sorted|
        ensures sorted[i] in vals
      {
        assert sorted[i] in multiset(init);
      }
      InsertSorted(s[|s| - 1], sorted, cmp, vals);
    }
  }

  /** An element that no element of `s` strictly follows goes to the end. */
  lemma {:induction false} InsertLast<T>(x: T, s: seq<T>, cmp: (T, T) -> int)
    requires forall i :: 0 <= i < |s| ==> cmp(x, s[i]) >= 0
    ensures Insert(x, s, cmp) == s + [x]
  {
    if s != [] {
      InsertLast(x, s[1..], cmp);
      assert s == [s[0]] + s[1..];
    }
  }

  /** A sequence in which no later element compares strictly before an
      earlier one is left as it is; in particular a comparator that always
      answers 0 leaves every sequence unchanged. */
  lemma {:induction false} SortKeepsOrdered<T>(s: seq<T>, cmp: (T, T) -> int)
    requires forall i, j :: 0 <= i < j < |s| ==> cmp(s[j], s[i]) >= 0
    ensures Sort(s, cmp) == s
  {
    if s != [] {
      var init := s[..|s| - 1];
      var x := s[|s| - 1];
      forall i, j | 0 <= i < j < |init|
        ensures cmp(init[j], init[i]) >= 0
      {
        assert init[i] == s[i] && init[j] == s[j];
      }
      SortKeepsOrdered(init, cmp);
      forall i | 0 <= i < |init|
        ensures cmp(x, init[i]) >= 0
      {
        assert init[i] == s[i];
      }
      InsertLast(x, init, cmp);
      assert init + [x] == s;
    }
  }

  /** The comparator puts every element outside `last` strictly before
      every element in it, and never an element of `last` before one
      outside it. */
  ghost predicate Separates<T(!new)>(cmp: (T, T) -> int, last: T -> bool) {
    && (forall x, y :: last(x) && !last(y) ==> cmp(x, y) >= 0)
    && (forall x, y :: !last(x) && last(y) ==> cmp(x, y) < 0)
  }

  /** Every element after one in `last` is in `last` too. */
  ghost predicate LastGroup<T>(s: seq<T>, last: T -> bool) {
    forall i, j :: 0 <= i < j < |s| && last(s[i]) ==> last(s[j])
  }

  lemma {:induction false} InsertKeepsGroup<T(!new)>(x: T, s: seq<T>, cmp: (T, T) -> int, last: T -> bool)
    requires Separates(cmp, last) && LastGroup(s, last)
    ensures LastGroup(Insert(x, s, cmp), last)
    decreases |s|
  {
    if s == [] {
    } else if cmp(x, s[0]) < 0 {
      GroupFront(x, s, cmp, last);
    } else {
      InsertKeepsGroup(x, s[1..], cmp, last);
      GroupBehind(x, s, cmp, last);
    }
  }

  lemma GroupFront<T(!new)>(x: T, s: seq<T>, cmp: (T, T) -> int, last: T -> bool)
    requires Separates(cmp, last) && LastGroup(s, last)
    requires s != [] && cmp(x, s[0]) < 0
    ensures LastGroup([x] + s, last)
  {
    var r := [x] + s;
    forall i, j | 0 <= i < j < |r| && last(r[i])
      ensures last(r[j])
    {
      assert r[j] == s[j - 1];
      if i > 0 {
        assert r[i] == s[i - 1];
      } else {
        assert last(s[0]);
      }
    }
  }

  lemma GroupBehind<T(!new)>(x: T, s: seq<T>, cmp: (T, T) -> int, last: T -> bool)
    requires Separates(cmp, last) && LastGroup(s, last)
    requires s != [] && cmp(x, s[0]) >= 0
    requires LastGroup(Insert(x, s[1..], cmp), last)
    ensures LastGroup([s[0]] + Insert(x, s[1..], cmp), last)
  {
    var tail := s[1..];
    var ins := Insert(x, tail, cmp);
    var r := [s[0]] + ins;
    if last(s[0]) {
      assert last(x);
      InsertFrom(x, tail, cmp);
      forall j | 0 < j < |r|
        ensures last(r[j])
      {
        var e := ins[j - 1];
        if e != x {
          var k :| 0 <= k < |tail| && tail[k] == e;
          assert s[k + 1] == e;
        }
      }
    }
    forall i, j | 0 <= i < j < |r| && last(r[i])
      ensures last(r[j])
    {
      if i > 0 {
        assert r[i] == ins[i - 1] && r[j] == ins[j - 1];
      }
    }
  }

  /** Whatever the comparator answers inside each group, a comparator
      that separates the two groups leaves the `last` elements at the
      end of the sorted result. */
  lemma {:induction false} SortGroupsLast<T(!new)>(s: seq<T>, cmp: (T, T) -> int, last: T -> bool)
    requires Separates(cmp, last)
    ensures LastGroup(Sort(s, cmp), last)
    decreases |s|
  {
    if s != [] {
      var init := s[..|s| - 1];
      SortGroupsLast(init, cmp, last);
      InsertKeepsGroup(s[|s| - 1], Sort(init, cmp), cmp, last);
    }
  }
}

=== FILE: versions.dfy ===
/** The dotted-version comparator of the component catalog
    (`compareVersions` in architecture/pages/api/plasmic-lib/listComponents.ts).
    Each version is split on ".", each piece read with
    `Number.parseInt(piece, 10) || 0`, and the two lists are compared left
    to right up to the longer length, a missing segment reading as 0. */
module Versions {
  import opened JsStrings

  /** The numeric segments of a version string: one more than it has dots. */
  function Segments(v: string): (segs: seq<int>)
    ensures |segs| == Count(v, '.') + 1
  {
    var parts := Split(v, '.');
    SplitJoin(v, '.');
    seq(|parts|, i requires 0 <= i < |parts| => ParseIntOrZero(parts[i]))
  }

  /** A piece of digits, empty or not, reads as its decimal value. */
  lemma DigitPieceValue(d: string)
    requires AllDigits(d)
    ensures ParseIntOrZero(d) == DigitsValue(d)
  {
    if d != [] {
      assert d + [] == d;
      ParseDigitsPrefix(d, []);
    }
  }

  /** Digit pieces joined with dots read back as their decimal values,
      one segment per piece, in order. */
  lemma SegmentsOfJoin(ds: seq<string>)
    requires |ds| >= 1 && forall i :: 0 <= i < |ds| ==> AllDigits(ds[i])
    ensures Segments(Join(ds, '.')) == seq(|ds|, i requires 0 <= i < |ds| => DigitsValue(ds[i]))
  {
    var v := Join(ds, '.');
    assert Split(v, '.') == ds by {
      forall i | 0 <= i < |ds|
        ensures '.' !in ds[i]
      {
        NoDotInDigits(ds[i]);
      }
      JoinSplit(ds, '.');
    }
    var segs := Segments(v);
    var want := seq(|ds|, i requires 0 <= i < |ds| => DigitsValue(ds[i]));
    forall i | 0 <= i < |ds|
      ensures segs[i] == want[i]
    {
      DigitPieceValue(ds[i]);
    }
  }

  lemma NoDotInDigits(d: string)
    requires AllDigits(d)
    ensures '.' !in d
  {
    forall k | 0 <= k < |d|
      ensures d[k] != '.'
    {
      assert IsDigit(d[k]);
    }
  }

  /** `segs[i] || 0`: a missing segment reads as 0. */
  function At(segs: seq<int>, i: nat): int {
    if i < |segs| then segs[i] else 0
  }

  function Max(a: nat, b: nat): nat {
    if a < b then b else a
  }

  /** The comparison loop from position `i` up to (excluding) `n`. */
  function CompareFrom(a: seq<int>, b: seq<int>, i: nat, n: nat): (r: int)
    ensures r == -1 || r == 0 || r == 1
    decreases n - i
  {
    if i >= n then 0
    else if At(a, i) > At(b, i) then 1
    else if At(a, i) < At(b, i) then -1
    else CompareFrom(a, b, i + 1, n)
  }

  function CompareSegments(a: seq<int>, b: seq<int>): (r: int)
    ensures r == -1 || r == 0 || r == 1
  {
    CompareFrom(a, b, 0, Max(|a|, |b|))
  }

  /** `compareVersions(v1, v2)`: 1 when v1 is ahead, -1 when it is behind, 0 otherwise. */
  function CompareVersions(v1: string, v2: string): (r: int)
    ensures r == -1 || r == 0 || r == 1
  {
    CompareSegments(Segments(v1), Segments(v2))
  }

  /** Segments `a` and `b` agree at every position below `k`. */
  ghost predicate AgreeBelow(a: seq<int>, b: seq<int>, k: nat) {
    forall i: nat :: i < k ==> At(a, i) == At(b, i)
  }

  /** Past the longer list both sides read 0, so the loop bound does not
      matter once it reaches the longer length. */
  lemma {:induction false} CompareBeyond(a: seq<int>, b: seq<int>, i: nat, n: nat)
    requires Max(|a|, |b|) <= i
    ensures CompareFrom(a, b, i, n) == 0
    decreases n - i
  {
    if i < n {
      CompareBeyond(a, b, i + 1, n);
    }
  }

  lemma {:induction false} CompareBound(a: seq<int>, b: seq<int>, i: nat, n: nat)
    requires Max(|a|, |b|) <= n
    ensures CompareFrom(a, b, i, n) == CompareFrom(a, b, i, Max(|a|, |b|))
    decreases n - i
  {
    var m := Max(|a|, |b|);
    if i >= m {
      CompareBeyond(a, b, i, n);
      CompareBeyond(a, b, i, m);
    } else if At(a, i) == At(b, i) {
      CompareBound(a, b, i + 1, n);
    }
  }

  /** Reference meaning of the comparison: 0 exactly when the padded
      segment lists agree everywhere, 1 exactly when the first difference
      has `a` ahead. */
  lemma {:induction false} CompareFromMeaning(a: seq<int>, b: seq<int>, i: nat, n: nat)
    requires AgreeBelow(a, b, i)
    ensures CompareFrom(a, b, i, n) == 0 <==> AgreeBelow(a, b, n)
    ensures CompareFrom(a, b, i, n) == 1 <==> exists k: nat :: k < n && AgreeBelow(a, b, k) && At(a, k) > At(b, k)
    decreases n - i
  {
    if i >= n {
      assert !exists k: nat :: k < n && AgreeBelow(a, b, k) && At(a, k) > At(b, k) by {
        forall k: nat | k < n && AgreeBelow(a, b, k)
          ensures At(a, k) <= At(b, k)
        {
          assert k < i;
        }
      }
    } else if At(a, i) > At(b, i) {
      assert !AgreeBelow(a, b, n);
      assert AgreeBelow(a, b, i) && At(a, i) > At(b, i);
    } else if At(a, i) < At(b, i) {
      assert !AgreeBelow(a, b, n);
      assert !exists k: nat :: k < n && AgreeBelow(a, b, k) && At(a, k) > At(b, k) by {
        forall k: nat | k < n && AgreeBelow(a, b, k)
          ensures At(a, k) <= At(b, k)
        {
          assert k <= i;
        }
      }
    } else {
      assert AgreeBelow(a, b, i + 1);
      CompareFromMeaning(a, b, i + 1, n);
      if exists k: nat :: k < n && AgreeBelow(a, b, k) && At(a, k) > At(b, k) {
        var k: nat :| k < n && AgreeBelow(a, b, k) && At(a, k) > At(b, k);
        assert k != i;
      }
    }
  }

  /** Two versions compare equal exactly when their segments agree at
      every position, missing ones reading as 0. */
  lemma CompareZeroMeaning(a: seq<int>, b: seq<int>)
    ensures CompareSegments(a, b) == 0 <==> forall i: nat :: At(a, i) == At(b, i)
  {
    var m := Max(|a|, |b|);
    CompareFromMeaning(a, b, 0, m);
    if CompareSegments(a, b) == 0 {
      forall i: nat
        ensures At(a, i) == At(b, i)
      {
        if i >= m {
          assert At(a, i) == 0 && At(b, i) == 0;
        }
      }
    }
  }

  /** Swapping the arguments negates the answer. */
  lemma {:induction false} CompareFromAntisymmetric(a: seq<int>, b: seq<int>, i: nat, n: nat)
    ensures CompareFrom(a, b, i, n) == -CompareFrom(b, a, i, n)
    decreases n - i
  {
    if i < n && At(a, i) == At(b, i) {
      CompareFromAntisymmetric(a, b, i + 1, n);
    }
  }

  lemma {:induction false} CompareFromReflexive(a: seq<int>, i: nat, n: nat)
    ensures CompareFrom(a, a, i, n) == 0
    decreases n - i
  {
    if i < n {
      CompareFromReflexive(a, i + 1, n);
    }
  }

  lemma {:induction false} CompareFromTransitive(a: seq<int>, b: seq<int>, c: seq<int>, i: nat, n: nat)
    requires CompareFrom(a, b, i, n) <= 0 && CompareFrom(b, c, i, n) <= 0
    ensures CompareFrom(a, c, i, n) <= 0
    decreases n - i
  {
    if i < n && At(a, i) == At(b, i) && At(b, i) == At(c, i) {
      CompareFromTransitive(a, b, c, i + 1, n);
    }
  }

  /** `compareVersions(v, v) == 0` and `compareVersions(a, b) == -compareVersions(b, a)`. */
  lemma CompareVersionsAntisymmetric(v1: string, v2: string)
    ensures CompareVersions(v1, v1) == 0
    ensures CompareVersions(v1, v2) == -CompareVersions(v2, v1)
  {
    var a, b := Segments(v1), Segments(v2);
    CompareFromReflexive(a, 0, Max(|a|, |a|));
    CompareFromAntisymmetric(a, b, 0, Max(|a|, |b|));
    assert Max(|a|, |b|) == Max(|b|, |a|);
  }

  /** "Not ahead" is transitive, so the comparator is a total preorder. */
  lemma CompareVersionsTransitive(v1: string, v2: string, v3: string)
    requires CompareVersions(v1, v2) <= 0 && CompareVersions(v2, v3) <= 0
    ensures CompareVersions(v1, v3) <= 0
  {
    CompareSegmentsTransitive(Segments(v1), Segments(v2), Segments(v3));
  }

  lemma CompareSegmentsTransitive(a: seq<int>, b: seq<int>, c: seq<int>)
    requires CompareSegments(a, b) <= 0 && CompareSegments(b, c) <= 0
    ensures CompareSegments(a, c) <= 0
  {
    var n := Max(Max(|a|, |b|), |c|);
    CompareBound(a, b, 0, n);
    CompareBound(b, c, 0, n);
    CompareBound(a, c, 0, n);
    CompareFromTransitive(a, b, c, 0, n);
  }

  lemma {:induction false} SplitAppend(s: string, c: char, t: string)
    requires c !in t
    ensures Split(s + [c] + t, c) == Split(s, c) + [t]
    decreases |s|
  {
    var u := s + [c] + t;
    var k := IndexOf(s, c);
    if k == |s| {
      IndexOfFirst(u, c, |s|);
      assert u[..|s|] == s;
      assert u[|s| + 1..] == t;
      assert IndexOf(t, c) == |t|;
    } else {
      IndexOfFirst(u, c, k);
      assert u[..k] == s[..k];
      assert u[k + 1..] == s[k + 1..] + [c] + t;
      SplitAppend(s[k + 1..], c, t);
    }
  }

  lemma SplitNoSeparator(s: string, c: char)
    requires c !in s
    ensures Split(s, c) == [s]
  {
    assert IndexOf(s, c) == |s|;
  }

  /** A non-empty run of digits is a single segment with its decimal value. */
  lemma SegmentsOfDigits(d: string)
    requires d != [] && AllDigits(d)
    ensures Segments(d) == [DigitsValue(d)]
  {
    assert '.' !in d by {
      forall i | 0 <= i < |d|
        ensures d[i] != '.'
      {
        assert IsDigit(d[i]);
      }
    }
    SplitNoSeparator(d, '.');
    assert d + [] == d;
    ParseDigitsPrefix(d, []);
  }

  /** Appending one more piece appends its value as one more segment. */
  lemma SegmentsAppend(v: string, t: string)
    requires '.' !in t
    ensures Segments(v + ['.'] + t) == Segments(v) + [ParseIntOrZero(t)]
  {
    var u := v + ['.'] + t;
    SplitAppend(v, '.', t);
    var parts := Split(v, '.');
    var a, a0 := Segments(v), Segments(u);
    forall i | 0 <= i < |a0|
      ensures a0[i] == (a + [ParseIntOrZero(t)])[i]
    {
      if i < |a| {
        assert Split(u, '.')[i] == parts[i];
      }
    }
  }

  lemma SegmentsAppendDigits(v: string, d: string)
    requires d != [] && AllDigits(d)
    ensures Segments(v + ['.'] + d) == Segments(v) + [DigitsValue(d)]
  {
    assert d + [] == d;
    ParseDigitsPrefix(d, []);
    assert '.' !in d by {
      forall i | 0 <= i < |d|
        ensures d[i] != '.'
      {
        assert IsDigit(d[i]);
      }
    }
    SegmentsAppend(v, d);
  }

  lemma SegmentsAppendZero(v: string, z: string)
    requires z != [] && AllDigits(z) && DigitsValue(z) == 0
    ensures Segments(v + ['.'] + z) == Segments(v) + [0]
  {
    SegmentsAppendDigits(v, z);
  }

  /** A trailing ".0" changes nothing: "1.2" and "1.2.0" compare the same
      way against every version. */
  lemma TrailingZero(v: string, z: string, w: string)
    requires z != [] && AllDigits(z) && DigitsValue(z) == 0
    ensures CompareVersions(v + ['.'] + z, w) == CompareVersions(v, w)
  {
    var a, b := Segments(v), Segments(w);
    var a0 := Segments(v + ['.'] + z);
    SegmentsAppendZero(v, z);
    assert forall i: nat :: At(a0, i) == At(a, i);
    var m0 := Max(|a0|, |b|);
    CompareFromSame(a0, a, b, 0, m0);
    CompareBound(a, b, 0, m0);
  }

  lemma {:induction false} CompareFromSame(a0: seq<int>, a: seq<int>, b: seq<int>, i: nat, n: nat)
    requires forall i: nat :: At(a0, i) == At(a, i)
    ensures CompareFrom(a0, b, i, n) == CompareFrom(a, b, i, n)
    decreases n - i
  {
    if i < n {
      CompareFromSame(a0, a, b, i + 1, n);
    }
  }

  /** A version with no "." and no digit (the "N/A" sentinel, or "") reads
      as the single segment 0. */
  lemma SentinelIsZero(v: string)
    requires '.' !in v
    requires forall i :: 0 <= i < |v| ==> !IsDigit(v[i])
    ensures Segments(v) == [0]
  {
    SplitNoSeparator(v, '.');
    NoDigitParsesZero(v);
  }

  /** "N/A" compares equal to "0", and "" is behind "1". */
  lemma SentinelExamples(na: string, zero: string, empty: string, one: string)
    requires na == "N/A" && zero == "0" && empty == "" && one == "1"
    ensures CompareVersions(na, zero) == 0
    ensures CompareVersions(empty, one) == -1
  {
    assert '.' !in na && '.' !in empty;
    SentinelIsZero(na);
    SentinelIsZero(empty);
    SegmentsOfDigits(zero);
    assert DigitsValue(zero) == 0;
    SegmentsOfDigits(one);
    assert DigitsValue(one) == 1;
  }

  lemma {:induction false} SplitFirst(d: string, c: char, rest: string)
    requires c !in d
    ensures Split(d + [c] + rest, c) == [d] + Split(rest, c)
  {
    var u := d + [c] + rest;
    IndexOfFirst(u, c, |d|);
    assert u[..|d|] == d;
    assert u[|d| + 1..] == rest;
  }

  /** A number followed by a dot is the version's first segment. */
  lemma LeadingSegment(d: string, rest: string)
    requires d != [] && AllDigits(d)
    ensures var segs := Segments(d + ['.'] + rest); |segs| >= 1 && segs[0] == DigitsValue(d)
  {
    assert '.' !in d by {
      forall i | 0 <= i < |d|
        ensures d[i] != '.'
      {
        assert IsDigit(d[i]);
      }
    }
    SplitFirst(d, '.', rest);
    assert d + [] == d;
    ParseDigitsPrefix(d, []);
  }

  /** A larger leading number wins whatever follows it: "2.0.0" is ahead
      of "1.9.9", "10.0" ahead of "9.99". */
  lemma LeadingSegmentDecides(d1: string, rest1: string, d2: string, rest2: string)
    requires d1 != [] && AllDigits(d1) && d2 != [] && AllDigits(d2)
    requires DigitsValue(d1) > DigitsValue(d2)
    ensures CompareVersions(d1 + ['.'] + rest1, d2 + ['.'] + rest2) == 1
  {
    LeadingSegment(d1, rest1);
    LeadingSegment(d2, rest2);
    var a, b := Segments(d1 + ['.'] + rest1), Segments(d2 + ['.'] + rest2);
    assert At(a, 0) > At(b, 0);
    assert CompareFrom(a, b, 0, Max(|a|, |b|)) == 1;
  }

  lemma DottedExample(two: string, one: string, rest1: string, rest2: string)
    requires two == "2" && one == "1"
    ensures CompareVersions(two + ['.'] + rest1, one + ['.'] + rest2) == 1
  {
    OneDigit(two);
    OneDigit(one);
    LeadingSegmentDecides(two, rest1, one, rest2);
  }

  /** A single digit reads as its own value. */
  lemma OneDigit(d: string)
    requires |d| == 1 && AllDigits(d)
    ensures DigitsValue(d) == DigitValue(d[0])
  {
    assert d[..0] == [];
  }
}

=== FILE: wrappers.dfy ===
/** A value that may be missing: JavaScript's `undefined` (or an absent
    key) on one side, a present value on the other. */
module Wrappers {

  datatype Option<+T> = None | Some(value: T) {

    function GetOr(default: T): (r: T)
      ensures Some? ==> r == value
      ensures None? ==> r == default
    {
      match this
      case Some(v) => v
      case None => default
    }
  }
}
